=== FILE: README.md ===
# knowledge-herald: the deterministic rules of the client, in Dafny

knowledge-herald is a React client for a news and subscription site: readers browse and
search approved articles, subscribers open premium ones, writers submit and edit
articles, and administrators moderate articles and users. Around the layout and the
network calls the pages and hooks contain a set of small, deterministic rules. This
project states those rules in Dafny and proves what they promise:

- pagination arithmetic: the windowed page list, the page count, clamping of the
  previous/next handlers, row numbering and the "Showing a to b of n" line;
- the listing query builders, as ordered key/value parameter lists, including the
  single or multiple `status` values;
- the article workflow: moderation actions per status, the approve/decline bodies, the
  decline dialog, the free-article limit, the new-article record, the edit payload and
  image fallback, the premium paywall, the comment gate, the rating stars and the
  once-only view increment;
- the registration validators (password strength, colour bucket, password, confirm and
  email checks, the 2 MB avatar limit) and the submission sequence;
- formatters: duration labels, status capitalisation, chart tick labels, growth lines,
  testimonial initials;
- access gating: the navbar filter, the private and admin route guards and the
  login/register return target;
- three state machines that update state in place: the toast list, the confirmation
  dialog and the theme provider.

Every network answer, upload result, clock reading and media-query value is a
parameter. One Dafny module models one source file (the subscription page and the home
plans section share `Subscription`, and the four route files share `route_guards.dfy`).
`Common` holds the helpers the modules share: `Option`, JSON values, key/value lists,
`split`/`join` on one separator, `trim`, `||` fallbacks and decimal rendering. `Paging`
holds the previous/next clamping the listing pages share.

State that the source updates step by step is modelled as classes. Examples are the
page and filter state, the decline dialog, the toast list, the confirmation hook and the
theme provider. Their methods are proved against the pure functions that specify them.
The plan ordering is an in-place insertion sort on an array, proved sorted and a
permutation. The `use-articles` parameter builder is a method with a loop that appends
status pairs, proved equal to its specification function.

## Model

| member | source | states |
|---|---|---|
| Paging.PrevPage | src/pages/PremiumArticles.jsx:247 | `Math.max(1, p - 1)`: at least both, and one of them |
| Paging.NextPage | src/pages/PremiumArticles.jsx:259 | `Math.min(totalPages, p + 1)`: at most both, and one of them |
| Paging.Pager | src/pages/PremiumArticles.jsx:242-260 | present iff more than one page; previous disabled iff on page 1, next iff on the last |
| Paging.IsPageSize | src/pages/Dashboard/AllUsers.jsx:62 | exactly the multiples of five from 5 to 20 |
| Paging.CeilDiv | src/components/Pagination.jsx:7 | the page count is the least count whose pages hold every item: `total <= pages*per` and one page fewer would not |
| Paging.CeilDivUnique | src/pages/Dashboard/AllUsers.jsx:30 | any count with the two ceiling properties equals `CeilDiv` |
| Paging.ClampKeepsPageInRange | src/pages/PremiumArticles.jsx:247-259 | previous gives `max(1,p-1)` and next `min(t,p+1)`; a page in `[1,t]` stays in range and moves by at most one |
| Paging.PagerDisabledIffNoMove | src/pages/PremiumArticles.jsx:242-260 | the strip exists when `t > 1`; a button is disabled exactly when pressing it would not move the page |
| Pagination.TotalPages | src/components/Pagination.jsx:7 | zero iff no items; the smallest count of pages that holds every item |
| Pagination.VisiblePages | src/components/Pagination.jsx:9-23 | at most seven buttons; none iff no pages; first 1 and last totalPages; a gap only beyond five pages |
| Pagination.NoItemsNoButtons | src/components/Pagination.jsx:7-11 | zero items give zero pages and an empty button list |
| Pagination.FewPagesAllShown | src/components/Pagination.jsx:10-12 | with at most five pages the list is `1..totalPages` in order |
| Pagination.ManyPagesShapes | src/components/Pagination.jsx:14-22 | beyond five pages: the low window, the high window, or the seven-entry middle window |
| Pagination.VisiblePagesWellFormed | src/components/Pagination.jsx:9-23 | for a page in range: at most 7 entries, first 1, last `totalPages`, numbers strictly increasing in range, the current page present, every gap between numbers that skip a page |
| Pagination.ClickedNumberInRange | src/components/Pagination.jsx:28-33 | a number taken from the rendered list is a page in range |
| Pagination.PaginationControl.constructor | src/components/Pagination.jsx:5 | the page starts at 1 |
| Pagination.PaginationControl.Click | src/components/Pagination.jsx:33 | a number becomes the page, the gap leaves it unchanged, and the page stays valid |
| Listing.ListingParams | src/hooks/use-articles.jsx:20-26 | two to five pairs, `page` as decimal text first and `limit` second |
| Listing.OptionValues | src/hooks/use-articles.jsx:25 | the option values in input order, one per option |
| Listing.ListingHead | src/hooks/use-articles.jsx:20-26 | `page` (decimal) then `limit` come first; at most five pairs, all with listing keys |
| Listing.ListingLacksKey | src/hooks/user-article.jsx:10-16 | a key outside page/limit/search/publisher/tags never occurs |
| Listing.ListingSearchIff | src/hooks/use-articles.jsx:23 | `search` is present iff the text is non-empty, and then carries it |
| Listing.ListingPublisherIff | src/hooks/use-articles.jsx:24 | `publisher` is present iff an option is given, and carries its value |
| Listing.ListingTagsIff | src/hooks/use-articles.jsx:25 | `tags` is present iff a tag is selected, and carries the values joined by `,` in order |
| Listing.TagsValueRoundTrip | src/hooks/use-articles.jsx:25 | splitting the joined tag value on `,` gives the values back when none contains a comma |
| Listing.Destructure | src/pages/PremiumArticles.jsx:50 | a missing body or `data` gives `[]`, a missing `totalPages` gives 1 |
| Listing.Grid | src/pages/PremiumArticles.jsx:151-168 | skeleton iff loading; cards iff loaded with articles, one per article; otherwise the empty message |
| Listing.ShownTags | src/pages/AllArticles.jsx:192 | a card shows a prefix of the tags of length `min(3, n)` |
| Listing.OptionsJson | src/pages/AddArticle.jsx:70 | the tags become a JSON array with one element per tag |
| Listing.OptionsFromItems | src/pages/AddArticle.jsx:70 | a decoded array has one option per element |
| Listing.OptionJsonRoundTrip | src/pages/AddArticle.jsx:70 | one `{value,label}` object reads back as the same option |
| Listing.OptionsFromItemsRoundTrip | src/pages/AddArticle.jsx:70 | the encoded tag array reads back as the same options, in order |
| Listing.OptionsJsonRoundTrip | src/pages/EditArticle.jsx:83 | tags in a body give back the selected tags, value and label alike |
| ArticlesQuery.StatusPairs | src/hooks/use-articles.jsx:29-30 | one `status` pair per element, in order |
| ArticlesQuery.StatusParams | src/hooks/use-articles.jsx:29-33 | only `status` pairs: one per element of an array, one for a non-empty string, none otherwise |
| ArticlesQuery.ArticleQuery | src/hooks/use-articles.jsx:20-33 | the literal with page size "10" followed by the status pairs, page and limit first |
| ArticlesQuery.BuildArticleQuery | src/hooks/use-articles.jsx:20-33 | the loop that appends status pairs builds exactly `ArticleQuery` |
| ArticlesQuery.DefaultQuery | src/hooks/use-articles.jsx:5-9 | with all defaults: page 1, limit 10, status approved |
| ArticlesQuery.ArticleQueryHead | src/hooks/use-articles.jsx:21-22 | the first two parameters are `page` and `limit` = "10" |
| ArticlesQuery.StatusParamsKeys | src/hooks/use-articles.jsx:29-33 | every pair the status branch appends has the key `status` |
| ArticlesQuery.ArticleQueryFilters | src/hooks/use-articles.jsx:23-25 | search, publisher and tags follow the present-iff rules |
| ArticlesQuery.StatusPairsLast | src/hooks/use-articles.jsx:29-33 | every `status` pair comes after all other pairs |
| ArticlesQuery.ListStatusInOrder | src/hooks/use-articles.jsx:29-30 | an array status contributes one `status` pair per element, in order |
| ArticlesQuery.TextStatusCount | src/hooks/use-articles.jsx:31-33 | a non-empty string status gives exactly one pair; empty or null gives none |
| UserArticleQuery.UserArticleQuery | src/hooks/user-article.jsx:10-16 | starts with `page` and `limit` = "10" and never carries `status` |
| UserArticleQuery.DefaultUserQuery | src/hooks/user-article.jsx:4 | with all defaults only page 1 and limit 10 are sent |
| UserArticleQuery.UserQueryFilters | src/hooks/user-article.jsx:13-15 | search, publisher and tags follow the present-iff rules |
| PremiumArticles.PremiumQuery | src/pages/PremiumArticles.jsx:37-38 | starts with `page` and `limit` = "9", and no `status` |
| PremiumArticles.PremiumQueryFilters | src/pages/PremiumArticles.jsx:39-41 | the optional filters follow the present-iff rules |
| PremiumArticles.Screen | src/pages/PremiumArticles.jsx:56-170 | the paywall iff no subscription; the error iff subscribed and failed; otherwise the grid and the pager strip |
| PremiumArticles.FetchEnabled | src/pages/PremiumArticles.jsx:47 | the query runs iff the user has a subscription |
| PremiumArticles.NoSubscriptionNoArticles | src/pages/PremiumArticles.jsx:47-73 | without a subscription nothing is fetched and the paywall is shown, whatever the data |
| PremiumArticles.PremiumPage.constructor | src/pages/PremiumArticles.jsx:19-22 | page 1 and no filters |
| PremiumArticles.PremiumPage.SetSearch | src/pages/PremiumArticles.jsx:118 | sets the search and keeps the page and the other filters; the query becomes `PremiumQuery` of the new filters on the same page |
| PremiumArticles.PremiumPage.SetPublisher | src/pages/PremiumArticles.jsx:130 | sets the publisher and keeps the page and the other filters; the query becomes `PremiumQuery` of the new filters on the same page |
| PremiumArticles.PremiumPage.SetTags | src/pages/PremiumArticles.jsx:140 | sets the tags and keeps the page and the other filters; the query becomes `PremiumQuery` of the new filters on the same page |
| PremiumArticles.PremiumPage.Previous | src/pages/PremiumArticles.jsx:247 | page becomes `max(1,p-1)` and stays valid |
| PremiumArticles.PremiumPage.Next | src/pages/PremiumArticles.jsx:259 | page becomes `min(t,p+1)` and stays valid |
| AllArticles.ReadButtonFor | src/pages/AllArticles.jsx:203-206 | disabled, with "Subscribe to Read", iff premium and not subscribed; otherwise "Read More" |
| AllArticles.ReadButtonOpen | src/pages/AllArticles.jsx:204 | a subscriber, or a free article, always gets an enabled button |
| AllArticles.QueryAsWritten | src/pages/AllArticles.jsx:30 | the query throws iff no publisher is selected; otherwise its page size is "10" whatever the selector says |
| AllArticles.AsWrittenFirstRenderFails | src/pages/AllArticles.jsx:30 | the six-argument call fails on the first render (no publisher yet) |
| AllArticles.AsWrittenLosesFilters | src/pages/AllArticles.jsx:30 | with a publisher chosen, the call as written sends the limit as the search and never asks for approved articles |
| AllArticles.Query | src/hooks/use-articles.jsx:4-10 | the call by the hook's signature: page, limit 10, and exactly one `status` = approved, last |
| AllArticles.QueryKeepsFilters | src/pages/AllArticles.jsx:21-23 | the corrected query carries every chosen filter by the present-iff rules |
| AllArticles.AllArticlesPage.constructor | src/pages/AllArticles.jsx:18-23 | page 1, limit 10, no filters, no pending search |
| AllArticles.AllArticlesPage.HandleSearch | src/pages/AllArticles.jsx:35-44 | a keystroke re-arms the debounce with the new text and changes nothing else |
| AllArticles.AllArticlesPage.SearchTimerFires | src/pages/AllArticles.jsx:40-43 | the pending text becomes the search and the page resets to 1; the query becomes `Query` of the new filters on page 1 |
| AllArticles.AllArticlesPage.SelectPublisher | src/pages/AllArticles.jsx:49-51 | sets the publisher and resets the page to 1; the query becomes `Query` of the new filters on page 1 |
| AllArticles.AllArticlesPage.SelectTags | src/pages/AllArticles.jsx:49-51 | sets the tags and resets the page to 1; the query becomes `Query` of the new filters on page 1 |
| AllArticles.AllArticlesPage.SetLimit | src/pages/AllArticles.jsx:113 | sets the page size to one of 5/10/15/20 and keeps the page |
| AllArticles.AllArticlesPage.Previous | src/pages/AllArticles.jsx:222 | page becomes `max(1,p-1)` |
| AllArticles.AllArticlesPage.Next | src/pages/AllArticles.jsx:237 | page becomes `min(t,p+1)` |
| ArticlesDashboard.ActionsFor | src/pages/Dashboard/AllArticlesDashboard.jsx:290-315 | at most three items; none iff the status is none of the three; Approve comes first iff pending |
| ArticlesDashboard.ActionsOffered | src/pages/Dashboard/AllArticlesDashboard.jsx:290-315 | Approve/Decline iff pending; Delete iff approved or declined; Make Premium iff approved and not premium |
| ArticlesDashboard.PendingNotDeletable | src/pages/Dashboard/AllArticlesDashboard.jsx:304-315 | a pending article is never deletable; a premium one is never offered Make Premium |
| ArticlesDashboard.StatusBadge | src/pages/Dashboard/AllArticlesDashboard.jsx:274-276 | yellow for pending, green for approved, red for declined, nothing otherwise |
| ArticlesDashboard.ApproveBody | src/pages/Dashboard/AllArticlesDashboard.jsx:85-87 | exactly `{status: 'approved'}` |
| ArticlesDashboard.DeclineBody | src/pages/Dashboard/AllArticlesDashboard.jsx:106-109 | exactly `{status: 'declined', declined_reason}` with the reason as typed |
| ArticlesDashboard.AsWrittenLosesServerMessage | src/pages/Dashboard/AllArticlesDashboard.jsx:88-95 | a refusal's own message is replaced by the fallback before it reaches the dialog |
| ArticlesDashboard.Send | src/hooks/use-AxiosSecure.jsx:5-24 | the secured client prefixes the server URL and adds the bearer token when one is stored; the bare client sends the path as is, without a token |
| ArticlesDashboard.MakePremiumRequestAsWritten | src/pages/Dashboard/AllArticlesDashboard.jsx:151 | as written the PATCH goes to the bare path with no authorization |
| ArticlesDashboard.ActionRequest | src/pages/Dashboard/AllArticlesDashboard.jsx:85 | every row action goes to the server, DELETE for Delete and PATCH otherwise, with the bearer token |
| ArticlesDashboard.AsWrittenPremiumMissesServer | src/pages/Dashboard/AllArticlesDashboard.jsx:151 | as written Make Premium reaches a different URL than the secured request and without its token |
| ArticlesDashboard.OnConfirmAsWritten | src/pages/Dashboard/AllArticlesDashboard.jsx:88-95 | a successful answer is returned; an unsuccessful one throws the fallback; a rejection throws the server's message, else the fallback |
| ArticlesDashboard.OnConfirm | src/pages/Dashboard/AllArticlesDashboard.jsx:88-95 | a successful answer is returned; anything else throws |
| ArticlesDashboard.OnConfirmReportsServerMessage | src/pages/Dashboard/AllArticlesDashboard.jsx:92-94 | the corrected callback throws the server's message when there is one, else the fallback |
| ArticlesDashboard.ConfirmedToast | src/pages/Dashboard/AllArticlesDashboard.jsx:99-101 | a success toast iff the dialog resolved true (approve, delete, premium) |
| ArticlesDashboard.SubmitEnabled | src/pages/Dashboard/AllArticlesDashboard.jsx:352 | decline submit is enabled iff the reason has a non-white-space character |
| ArticlesDashboard.DeclineDialog.constructor | src/pages/Dashboard/AllArticlesDashboard.jsx:34-35 | closed, no id, empty reason |
| ArticlesDashboard.DeclineDialog.OpenFor | src/pages/Dashboard/AllArticlesDashboard.jsx:295-298 | opens the dialog for that article |
| ArticlesDashboard.DeclineDialog.Type | src/pages/Dashboard/AllArticlesDashboard.jsx:339 | the reason becomes the typed text |
| ArticlesDashboard.DeclineDialog.Cancel | src/pages/Dashboard/AllArticlesDashboard.jsx:346-349 | closes, forgets the id and clears the reason |
| ArticlesDashboard.DeclineDialog.OnOpenChange | src/pages/Dashboard/AllArticlesDashboard.jsx:328-331 | sets `open`, forgets the id and clears the reason |
| ArticlesDashboard.DeclineDialog.Submit | src/pages/Dashboard/AllArticlesDashboard.jsx:104-120 | sends the decline body; success resets the dialog, failure leaves it unchanged; the matching toast |
| ArticlesDashboard.DashboardQuery | src/pages/Dashboard/AllArticlesDashboard.jsx:50 | the listing literal with page size "10" and three more pairs |
| ArticlesDashboard.DashboardQueryStatuses | src/pages/Dashboard/AllArticlesDashboard.jsx:50 | all three statuses are asked for, once each and in order, after the other parameters |
| ArticlesDashboard.DashboardPage.constructor | src/pages/Dashboard/AllArticlesDashboard.jsx:32-43 | page 1, no filters |
| ArticlesDashboard.DashboardPage.HandleSearch | src/pages/Dashboard/AllArticlesDashboard.jsx:55-63 | re-arms the debounce |
| ArticlesDashboard.DashboardPage.SearchTimerFires | src/pages/Dashboard/AllArticlesDashboard.jsx:60-63 | commits the search and resets the page to 1 |
| ArticlesDashboard.DashboardPage.SelectPublisher | src/pages/Dashboard/AllArticlesDashboard.jsx:66-68 | sets the publisher and resets the page |
| ArticlesDashboard.DashboardPage.SelectTags | src/pages/Dashboard/AllArticlesDashboard.jsx:66-68 | sets the tags and resets the page |
| MyArticles.RowNumber | src/pages/MyArticles.jsx:119 | a row index below ten on page p numbers the row within (10(p-1), 10p] |
| MyArticles.RowNumbersConsecutive | src/pages/MyArticles.jsx:119 | rows on a page are consecutive and the next page starts right after |
| MyArticles.RowNumbersDistinct | src/pages/MyArticles.jsx:119 | a row number determines its page and its row |
| MyArticles.Range | src/pages/MyArticles.jsx:169 | the upper end is `min(p*10, total)`, so it never exceeds the total |
| MyArticles.RowsOnPage | src/pages/MyArticles.jsx:117-119 | a page holds at most ten rows |
| MyArticles.RangeMatchesRows | src/pages/MyArticles.jsx:117-169 | for a page in range the range line runs from the first to the last row number shown |
| MyArticles.Capitalize | src/pages/MyArticles.jsx:75 | same length; first character upper-cased, the rest unchanged |
| MyArticles.CapitalizeStatuses | src/pages/MyArticles.jsx:75 | "Pending", "Approved", "Declined"; capitalising twice changes nothing more |
| MyArticles.BadgeClass | src/pages/MyArticles.jsx:67-74 | a class exists iff the status is one of the three known ones |
| MyArticles.ReasonButtonShown | src/pages/MyArticles.jsx:124-134 | the reason button iff declined |
| MyArticles.PremiumCell | src/pages/MyArticles.jsx:139 | "Yes" iff premium, "No" otherwise |
| MyArticles.Destructure | src/pages/MyArticles.jsx:36 | missing fields default to `[]`, 0 and 1 |
| MyArticles.Screen | src/pages/MyArticles.jsx:80-190 | spinner iff loading; empty state iff no rows; otherwise numbered rows, with range and pager iff `totalPages > 1` |
| MyArticles.DeleteRequestAsWritten | src/pages/MyArticles.jsx:52-63 | a click as written throws a TypeError for `showConfirmation` |
| MyArticles.AsWrittenNeverDeletes | src/pages/MyArticles.jsx:20 | for every article and answer the click as written requests no deletion and differs from the intended click |
| MyArticles.DeleteRequest | src/pages/MyArticles.jsx:61-63 | the id is sent for deletion iff the user confirms |
| MyArticles.DeleteToast | src/pages/MyArticles.jsx:43-49 | success gives "Article deleted successfully"; failure a non-empty error |
| MyArticles.MyArticlesPage.constructor | src/pages/MyArticles.jsx:21-23 | page 1, no reason, dialog closed |
| MyArticles.MyArticlesPage.ShowReason | src/pages/MyArticles.jsx:128-131 | stores the row's reason and opens the dialog |
| MyArticles.MyArticlesPage.OnReasonOpenChange | src/pages/MyArticles.jsx:194 | sets the dialog's open flag only |
| MyArticles.MyArticlesPage.Previous | src/pages/MyArticles.jsx:175 | page becomes `max(1,p-1)` |
| MyArticles.MyArticlesPage.Next | src/pages/MyArticles.jsx:182 | page becomes `min(t,p+1)` |
| AllUsers.UsersTotalPages | src/pages/Dashboard/AllUsers.jsx:30 | the ceiling of total over limit |
| AllUsers.DefaultHidesPager | src/pages/Dashboard/AllUsers.jsx:19-30 | the default `{data: [], total: 0}` gives zero pages and no pager |
| AllUsers.RoleLabel | src/pages/Dashboard/AllUsers.jsx:120 | "Admin" iff role is admin, "User" otherwise |
| AllUsers.MakeAdminEnabled | src/pages/Dashboard/AllUsers.jsx:123-132 | enabled iff the role is not admin, that is iff the label is "User" |
| AllUsers.RowNumbers | src/pages/Dashboard/AllUsers.jsx:105 | 1..count on every page |
| AllUsers.MakeAdminToast | src/pages/Dashboard/AllUsers.jsx:49-51 | a success toast iff confirmed |
| AllUsers.MakeAdminAsWrittenLosesMessage | src/pages/Dashboard/AllUsers.jsx:38-45 | the refusal message is lost as written and kept by the corrected callback |
| AllUsers.UsersPage.constructor | src/pages/Dashboard/AllUsers.jsx:12-13 | page 1, limit 10 |
| AllUsers.UsersPage.SetLimit | src/pages/Dashboard/AllUsers.jsx:57 | sets the page size, page kept |
| AllUsers.UsersPage.Previous | src/pages/Dashboard/AllUsers.jsx:146 | page becomes `max(1,p-1)` |
| AllUsers.UsersPage.Next | src/pages/Dashboard/AllUsers.jsx:158 | page becomes `min(t,p+1)` |
| RegisterForm.Criteria | src/components/auth/registerForm.jsx:19-22 | at most four criteria are met |
| RegisterForm.Strength | src/components/auth/registerForm.jsx:17-24 | 25 per criterion met, so one of 0, 25, 50, 75, 100 |
| RegisterForm.GetStrength | src/components/auth/registerForm.jsx:17-24 | the `+=` accumulation computes `Strength` |
| RegisterForm.StrengthMonotone | src/components/auth/registerForm.jsx:19-22 | appending characters never lowers the score |
| RegisterForm.StrengthColour | src/components/auth/registerForm.jsx:33-39 | red up to 25, orange up to 50, yellow up to 75, green above |
| RegisterForm.GreenIffAllCriteria | src/components/auth/registerForm.jsx:33-39 | green iff all four criteria hold |
| RegisterForm.FirstLine | src/components/auth/registerForm.jsx:226 | the prefix before the first line terminator, which the pattern's `.` cannot cross |
| RegisterForm.FirstLineCriteria | src/components/auth/registerForm.jsx:226 | a criterion met in the first line is met in the password, and a password longer than its first line has a special character |
| RegisterForm.FirstLineEndsAtTerminator | src/components/auth/registerForm.jsx:226 | where the first line stops short of the password, a line terminator follows it |
| RegisterForm.PatternOk | src/components/auth/registerForm.jsx:226 | a password the pattern accepts has an upper-case letter, a digit and a special character; for a one-line password it accepts exactly those |
| RegisterForm.PasswordError | src/components/auth/registerForm.jsx:219-229 | no error iff at least six characters and the pattern holds; "Password is required" when empty, the length message below six, the pattern message otherwise |
| RegisterForm.PasswordAcceptedIff | src/components/auth/registerForm.jsx:219-229 | accepted iff at least six characters with an upper-case letter and a digit in the first line and a special character in it or ending it; an accepted password scores 100; for a one-line password, accepted iff all four criteria hold |
| RegisterForm.SeparatorCountsAsSpecial | src/components/auth/registerForm.jsx:226 | "Abc123" followed by the line separator U+2028 is accepted |
| RegisterForm.ConfirmError | src/components/auth/registerForm.jsx:246-249 | no error iff non-empty and equal to the password; "Please confirm your password" when empty, "Passwords don't match" otherwise |
| RegisterForm.IndexOf | src/components/auth/registerForm.jsx:206 | the first occurrence of a character, or none |
| RegisterForm.LastIndexOf | src/components/auth/registerForm.jsx:206 | the last occurrence of a character, or none |
| RegisterForm.EmailValid | src/components/auth/registerForm.jsx:206 | the direct check accepts only addresses the pattern matches |
| RegisterForm.EmailValidIffMatches | src/components/auth/registerForm.jsx:206 | the direct check accepts exactly what the pattern matches |
| RegisterForm.EmailError | src/components/auth/registerForm.jsx:203-209 | no error iff the address matches local@domain.tld; "Email is required" for the empty address and "Invalid email address" for any other non-matching one |
| RegisterForm.EmailAcceptsExample | src/components/auth/registerForm.jsx:206 | "Sarah.J@example.com" is accepted |
| RegisterForm.EmailRejectsShortDomain | src/components/auth/registerForm.jsx:206 | "a@b.c" is rejected: the domain needs two letters |
| RegisterForm.AvatarField.constructor | src/components/auth/registerForm.jsx:71 | the avatar starts undefined |
| RegisterForm.AvatarField.HandleImageChange | src/components/auth/registerForm.jsx:81-97 | a file over 2,000,000 bytes is refused with a toast and the avatar kept; otherwise it is stored |
| RegisterForm.MismatchStopsEarly | src/components/auth/registerForm.jsx:101-107 | a mismatched confirmation only marks the error; nothing is uploaded or signed up |
| RegisterForm.PhotoOnlyFromAvatar | src/components/auth/registerForm.jsx:109-112 | an upload happens only for the avatar, and with matching passwords and an avatar the first step is its upload; the photo is the uploaded URL with an avatar and null otherwise |
| RegisterForm.Submit | src/components/auth/registerForm.jsx:99-132 | at least one step; the last is a toast iff the passwords match, and neither a toast nor the mismatch mark comes before the last step; a throw at call k keeps calls 0..k, runs nothing after, and ends with the error's message as an error toast; otherwise every call runs and the welcome toast names the display name |
| RegisterForm.SubmitEndsWithToast | src/components/auth/registerForm.jsx:113-131 | sign-up precedes the profile update and the user record, and a toast ends the submission |
| AddArticle.CanPublish | src/pages/AddArticle.jsx:35 | true iff the user has a subscription or no existing articles |
| AddArticle.Screen | src/pages/AddArticle.jsx:103-149 | spinner iff checking; the limit banner and prompt iff not allowed; the form iff allowed |
| AddArticle.RecordJson | src/pages/AddArticle.jsx:66-81 | the record carries exactly the sixteen keys, in order |
| AddArticle.NewRecord | src/pages/AddArticle.jsx:66-81 | pending, not premium, 0 views, no ratings, average 0; publisher from the option; author from the user |
| AddArticle.NewRecordTags | src/pages/AddArticle.jsx:70 | the tags field reads back as the selected tags, in order |
| AddArticle.SubmitEffects | src/pages/AddArticle.jsx:54-99 | a record is posted only when publishing is allowed and the upload succeeded; a reset comes only with a success toast |
| AddArticle.NotAllowedSendsNothing | src/pages/AddArticle.jsx:55-59 | when publishing is not allowed nothing is posted and the page goes to /subscription |
| AddArticle.SubmitOutcomes | src/pages/AddArticle.jsx:60-99 | posted iff the upload succeeds; reset and /my-articles iff the answer succeeds; a 403 on the POST goes to /subscription; a failed upload shows "Failed to submit article" and stays |
| AddArticle.SubmitState.constructor | src/pages/AddArticle.jsx:23 | not loading |
| AddArticle.SubmitState.OnSubmit | src/pages/AddArticle.jsx:54-99 | produces `SubmitEffects` and ends with `loading` false when it ran |
| EditArticle.ResetValues | src/pages/EditArticle.jsx:102-115 | the form takes the article's fields; the publisher option is built from `publisher`/`publisherName` |
| EditArticle.EditJson | src/pages/EditArticle.jsx:78-87 | the payload carries exactly the eight keys |
| EditArticle.EditLeavesModerationAlone | src/pages/EditArticle.jsx:78-87 | status, premium and views are never sent |
| EditArticle.EditPayload | src/pages/EditArticle.jsx:78-87 | the payload's fields come from the form, the chosen image and the time |
| EditArticle.EditPayloadTags | src/pages/EditArticle.jsx:83 | the tags read back as the form's tags, in order |
| EditArticle.UnchangedEditKeepsArticle | src/pages/EditArticle.jsx:78-115 | submitting the reset form with no new image sends back the stored fields |
| EditArticle.ChooseImage | src/pages/EditArticle.jsx:73-76 | the old image unless a new file is chosen; a failed upload gives none |
| EditArticle.EditEffects | src/pages/EditArticle.jsx:68-100 | a body is sent only for a loaded article; navigation only after a body is sent; with no body an error toast |
| EditArticle.EditOutcomes | src/pages/EditArticle.jsx:68-100 | a patch is sent iff the article exists and the image is settled; navigation iff the answer succeeds; a failed upload shows "Failed to upload image" |
| EditArticle.EditPage.constructor | src/pages/EditArticle.jsx:23 | no values, not loading |
| EditArticle.EditPage.ArticleLoaded | src/pages/EditArticle.jsx:102-115 | the values become `ResetValues` of the article |
| EditArticle.EditPage.OnSubmit | src/pages/EditArticle.jsx:68-100 | produces `EditEffects` and ends with `loading` false |
| EditArticle.EditPage.SubmitDisabled | src/pages/EditArticle.jsx:248 | disabled iff loading or uploading |
| ArticleDetails.Screen | src/pages/ArticleDetails.jsx:92-147 | loading first, then not found, then the paywall iff premium and not subscribed; past the paywall the header throws iff the author name is null (`authorName[0]`), and the content shows iff it is present |
| ArticleDetails.SubscriberSeesContent | src/pages/ArticleDetails.jsx:112-147 | a loaded article with an author name is shown to a subscriber, and a free one to anyone; with a null author name the subscriber's page throws |
| ArticleDetails.Paragraphs | src/pages/ArticleDetails.jsx:185 | at least one paragraph |
| ArticleDetails.ParagraphsPartitionContent | src/pages/ArticleDetails.jsx:185 | no paragraph holds a line break and joining them gives the content back |
| ArticleDetails.InputStars | src/pages/ArticleDetails.jsx:231-235 | five stars; star `s` filled iff `s <= rating` |
| ArticleDetails.CommentStars | src/pages/ArticleDetails.jsx:314-318 | five stars; star `i` filled iff `i < rating` |
| ArticleDetails.FilledCount | src/pages/ArticleDetails.jsx:314-318 | the count of filled stars is at most the number of stars |
| ArticleDetails.FilledPrefixCount | src/pages/ArticleDetails.jsx:231-235 | a row filled exactly on its first k stars has k filled |
| ArticleDetails.StarsShowRating | src/pages/ArticleDetails.jsx:231-318 | for a rating 0..5 both rows agree and show exactly `rating` filled stars |
| ArticleDetails.PostEnabled | src/pages/ArticleDetails.jsx:250 | enabled iff the comment is non-empty, the rating non-zero and nothing in flight |
| ArticleDetails.CommentBody | src/pages/ArticleDetails.jsx:55-62 | the comment, rating, article id and reader fields |
| ArticleDetails.InitialOf | src/pages/ArticleDetails.jsx:226 | `name[0]`: null throws, "" gives nothing, otherwise the first character |
| ArticleDetails.CommentAreaFor | src/pages/ArticleDetails.jsx:220-275 | the login prompt iff signed out; a render that throws iff signed in with a null display name; otherwise the form with the reader's initial |
| ArticleDetails.CommentListRenders | src/pages/ArticleDetails.jsx:308 | the list renders iff no comment has a null user name |
| ArticleDetails.PostedCommentRenders | src/pages/ArticleDetails.jsx:55-62 | a comment posted from the form keeps a rendering list rendering |
| ArticleDetails.ClickAsWritten | src/pages/ArticleDetails.jsx:119 | either button, as written, throws a reference error for `navigate` |
| ArticleDetails.AsWrittenButtonsGoNowhere | src/pages/ArticleDetails.jsx:119 | as written neither button navigates, unlike the corrected click |
| ArticleDetails.Click | src/pages/ArticleDetails.jsx:270 | corrected: "Subscribe Now" goes to /subscription and "Login" to /login, and nothing else |
| ArticleDetails.DetailsPage.constructor | src/pages/ArticleDetails.jsx:24-77 | no rating, no comment, no view requested |
| ArticleDetails.DetailsPage.ClickStar | src/pages/ArticleDetails.jsx:231-235 | the rating becomes the clicked star |
| ArticleDetails.DetailsPage.TypeComment | src/pages/ArticleDetails.jsx:246 | the comment becomes the typed text |
| ArticleDetails.DetailsPage.CommentPosted | src/pages/ArticleDetails.jsx:64-70 | clears the comment, resets the rating to 0 and gives the success toast |
| ArticleDetails.DetailsPage.CommentFailed | src/pages/ArticleDetails.jsx:71-73 | keeps the comment and rating and gives the error toast |
| ArticleDetails.DetailsPage.ArticleChanged | src/pages/ArticleDetails.jsx:77-89 | a view increment is requested iff an article is present and none was requested yet; at most one ever |
| Subscription.FormatDuration | src/pages/SubsciptionPage.jsx:29-34 | "N minute(s)", "N day(s)", "N month(s)" for the known units, "N unit" otherwise |
| Subscription.PluralIffMoreThanOne | src/components/Home/PlansSection.jsx:22-26 | for a known unit the label ends in "s" iff N > 1 |
| Subscription.IntToStringHasNoSpace | src/pages/SubsciptionPage.jsx:30-33 | the rendered number has no space |
| Subscription.SpaceIndexAfterWord | src/pages/SubsciptionPage.jsx:30-33 | the first space follows a space-free word |
| Subscription.FirstWordUnique | src/pages/SubsciptionPage.jsx:30-33 | two labels split equally at their first space |
| Subscription.FormatDurationInjective | src/pages/SubsciptionPage.jsx:29-34 | for one unit distinct durations give distinct labels |
| Subscription.SortByOrder | src/pages/SubsciptionPage.jsx:25 | the plans are sorted ascending by `order` and are a permutation of the input |
| Subscription.InsertStep | src/components/Home/PlansSection.jsx:18 | inserting the next plan keeps the prefix sorted and the multiset |
| Subscription.Swap | src/components/Home/PlansSection.jsx:18 | exchanges two plans, keeping the multiset |
| Subscription.SubscribeButton | src/pages/SubsciptionPage.jsx:119-129 | disabled iff loading or subscribed; "Processing...", "Already Subscribed" or "Subscribe Now" |
| Subscription.SubscribeEffects | src/pages/SubsciptionPage.jsx:36-63 | a request iff signed in; a redirect only after a request; every toast is an error |
| Subscription.SubscribeOutcomes | src/pages/SubsciptionPage.jsx:36-63 | no user gives an error toast and no request; otherwise the request names the plan and the email; the redirect, with the server's session, is tried iff the intent succeeds and Stripe loads; no toast iff that redirect returns; a throw from the Stripe step shows its own message |
| Subscription.SubscriptionPage.constructor | src/pages/SubsciptionPage.jsx:14 | not loading |
| Subscription.SubscriptionPage.HandleSubscribe | src/pages/SubsciptionPage.jsx:36-63 | produces `SubscribeEffects` for the intent and the Stripe step, and ends not loading when signed in |
| Subscription.GetStarted | src/components/Home/PlansSection.jsx:88 | navigates to /subscription carrying the plan |
| Navbar.Keep | src/components/Navbar.jsx:31-36 | a gated link is shown only to a signed-in user; a subscribed admin sees every link; an ungated link is always shown |
| Navbar.KeepIff | src/components/Navbar.jsx:31-36 | an item is kept iff not admin-only for a non-admin, not subscription-only for a non-subscriber and not protected for a signed-out user |
| Navbar.Filtered | src/components/Navbar.jsx:31-36 | never more items than given |
| Navbar.FilteredMembers | src/components/Navbar.jsx:31-36 | an item is in the result iff it is in the list and kept |
| Navbar.FilteredAppend | src/components/Navbar.jsx:31 | filtering distributes over concatenation, so the relative order is kept |
| Navbar.FilteredAllKept | src/components/Navbar.jsx:31 | a list whose every item is kept is unchanged |
| Navbar.FilteredNoneKept | src/components/Navbar.jsx:31 | a list with no kept item filters to empty |
| Navbar.SignedOutSeesPublicLinks | src/components/Navbar.jsx:21-34 | signed out: exactly Home and All Articles |
| Navbar.SignedInSeesAll | src/components/Navbar.jsx:21-36 | signed in: all seven items |
| Navbar.IsActive | src/components/Navbar.jsx:55 | active iff the pathname equals the href |
| Navbar.AtMostOneActive | src/components/Navbar.jsx:55 | no two configured items are active at once |
| Navbar.AccountAreaFor | src/components/Navbar.jsx:78-155 | Login/Register iff there is no user |
| PrivateRoutes.Guard | src/routes/PrivateRoutes.jsx:9-23 | loader while loading; children iff a user; otherwise a replacing redirect to /login from here |
| AdminRoutes.Guard | src/routes/AdminRoutes.jsx:9-19 | loader if any flag is loading; children iff user and admin; otherwise a redirect to /dashboard with the pathname |
| AdminRoutes.NonAdminNeverSeesChildren | src/routes/AdminRoutes.jsx:16-19 | a non-admin never gets the children |
| AuthPages.From | src/pages/LoginPage.jsx:11 | `state.from.pathname` when present and non-empty, else "/"; never empty |
| AuthPages.LoginPage | src/pages/LoginPage.jsx:12-28 | signed in: a replacing redirect to `From`; signed out: the form |
| AuthPages.RegisterPage | src/pages/RegisterPage.jsx:11-29 | signed in: a replacing redirect to `From`; signed out: the form |
| AuthPages.LoginReturnsToGuardedPage | src/routes/PrivateRoutes.jsx:23 | logging in after the private guard's redirect returns to the guarded path |
| Toasts.Ids | src/hooks/use-toast.jsx:12-13 | the ids of the list, in order |
| Toasts.Without | src/hooks/use-toast.jsx:20 | removal never grows the list |
| Toasts.WithoutMembers | src/hooks/use-toast.jsx:19-21 | a toast remains iff it was there and has another id |
| Toasts.WithoutAppend | src/hooks/use-toast.jsx:20 | removal distributes over concatenation, so the order is kept |
| Toasts.WithoutAbsent | src/hooks/use-toast.jsx:20 | removing an absent id changes nothing |
| Toasts.WithoutIdempotent | src/hooks/use-toast.jsx:20 | removing twice is removing once |
| Toasts.Colour | src/hooks/use-toast.jsx:35-39 | green iff success, red iff error, yellow otherwise |
| Toasts.IconFor | src/hooks/use-toast.jsx:41-43 | the check icon iff success, the cross icon iff error, the alert icon iff warning; no icon for other kinds |
| Toasts.ToastProvider.constructor | src/hooks/use-toast.jsx:9 | no toasts |
| Toasts.ToastProvider.AddToast | src/hooks/use-toast.jsx:11-13 | appends exactly one toast with the clock's id; the kind defaults to success |
| Toasts.ToastProvider.RemoveToast | src/hooks/use-toast.jsx:19-21 | removes every toast with the id |
| Toasts.ToastProvider.Expire | src/hooks/use-toast.jsx:14-16 | the timer applies the same filter |
| Toasts.AddThenExpire | src/hooks/use-toast.jsx:11-16 | with a fresh id, expiry removes exactly the added toast |
| Toasts.SameMillisecondClosesBoth | src/hooks/use-toast.jsx:12-16 | two toasts added in one millisecond are removed together |
| Confirmation.View | src/hooks/use-confirmation.jsx:56-99 | closed iff not open; the result iff a status is set; otherwise the question |
| Confirmation.ConfirmAsWritten | src/hooks/use-confirmation.jsx:24-51 | opens with the title and description and keeps the old status |
| Confirmation.Confirm | src/hooks/use-confirmation.jsx:24-51 | opens with the title and description and no status |
| Confirmation.ConfirmShowsQuestion | src/hooks/use-confirmation.jsx:57-99 | after the corrected confirm the question is shown |
| Confirmation.ResultStatus | src/hooks/use-confirmation.jsx:29-47 | "success" with the server message or "Operation successful" iff the result succeeded; otherwise "error" with the message or "Operation failed" |
| Confirmation.Continue | src/hooks/use-confirmation.jsx:91-95 | as written: the dialog closes, the status is set from the result, and the promise resolves true iff success, only once |
| Confirmation.ContinueKeepOpen | src/hooks/use-confirmation.jsx:91-95 | corrected: the same status and answer with the dialog left open |
| Confirmation.Ok | src/hooks/use-confirmation.jsx:72-75 | closes and clears the status |
| Confirmation.Cancel | src/hooks/use-confirmation.jsx:90 | closes only; status and answer untouched |
| Confirmation.OpenChange | src/hooks/use-confirmation.jsx:56 | sets the open flag only |
| Confirmation.AsWrittenContinueHidesResult | src/hooks/use-confirmation.jsx:91-95 | as written Continue on the question closes the dialog with the status set, so the result is not shown; kept open it is |
| Confirmation.ContinueShowsResult | src/hooks/use-confirmation.jsx:57-99 | kept open, Continue on the question shows the result; OK then closes with no status |
| Confirmation.AsWrittenShowsStaleResult | src/hooks/use-confirmation.jsx:24-51 | after any Continue, or Escape on a kept-open result, the next confirm shows the old result instead of its question |
| Confirmation.ConfirmAfterContinueAsks | src/hooks/use-confirmation.jsx:24-51 | with the corrected confirm both sequences ask the new question |
| Confirmation.ConfirmationHook.constructor | src/hooks/use-confirmation.jsx:15-22 | the initial dialog |
| Confirmation.ConfirmationHook.DoConfirm | src/hooks/use-confirmation.jsx:24-51 | the corrected hook: the new state is `Confirm` (status cleared) of the old |
| Confirmation.ConfirmationHook.DoContinue | src/hooks/use-confirmation.jsx:91-95 | the corrected hook: the new state is `ContinueKeepOpen` of the old |
| Confirmation.ConfirmationHook.DoOk | src/hooks/use-confirmation.jsx:72-75 | the new state is `Ok` of the old |
| Confirmation.ConfirmationHook.DoCancel | src/hooks/use-confirmation.jsx:90 | the new state is `Cancel` of the old |
| Confirmation.ConfirmationHook.OnOpenChange | src/hooks/use-confirmation.jsx:56 | the new state is `OpenChange` of the old |
| Theme.SystemTheme | src/providers/theme-provider.jsx:5-8 | dark iff the system prefers dark, light otherwise |
| Theme.InitialTheme | src/providers/theme-provider.jsx:11-16 | the stored value when present, otherwise "system" |
| Theme.Resolve | src/providers/theme-provider.jsx:18-21 | the system preference for "system", otherwise the theme itself |
| Theme.StripModes | src/providers/theme-provider.jsx:25 | removing classes never adds any |
| Theme.StripModesMembers | src/providers/theme-provider.jsx:25 | a class remains iff it was there and is not light/dark |
| Theme.AddClass | src/providers/theme-provider.jsx:29-33 | the class is present and nothing else is added |
| Theme.ApplyMode | src/providers/theme-provider.jsx:23-37 | the mode is present afterwards, and at most one class is added |
| Theme.ApplyModeClasses | src/providers/theme-provider.jsx:25-33 | the mode is present, other classes are unchanged, and no other mode remains |
| Theme.ApplyModeIdempotent | src/providers/theme-provider.jsx:23-37 | applying the same mode twice is applying it once |
| Theme.StripKeepsModeFree | src/providers/theme-provider.jsx:25 | a list without modes is unchanged |
| Theme.StripAppendMode | src/providers/theme-provider.jsx:25-33 | removing modes undoes the added mode |
| Theme.ThemeProvider.constructor | src/providers/theme-provider.jsx:11-21 | the initial theme from storage and its resolution |
| Theme.ThemeProvider.SetTheme | src/providers/theme-provider.jsx:59-61 | replaces the theme only |
| Theme.ThemeProvider.RemoveModes | src/providers/theme-provider.jsx:25 | the loop leaves exactly `StripModes` of the old classes |
| Theme.ThemeProvider.ApplyTheme | src/providers/theme-provider.jsx:23-37 | resolves the theme, applies the mode class and persists the theme |
| Theme.ThemeProvider.SystemChanged | src/providers/theme-provider.jsx:39-54 | updates the class and resolution only when the theme is "system" |
| TopPosts.BadgeColour | src/components/Dashboard/TopPosts.jsx:37-41 | green iff approved, yellow iff pending, red otherwise |
| TopPosts.Entry | src/components/Dashboard/TopPosts.jsx:27-53 | the rating is shown iff the average is above 0 |
| TopPosts.Render | src/components/Dashboard/TopPosts.jsx:18-27 | nothing iff the posts are missing or empty; otherwise one entry per post, in order |
| TopPosts.RenderKeepsOrder | src/components/Dashboard/TopPosts.jsx:27 | entry i belongs to post i |
| DashboardStats.Growth | src/components/Dashboard/DashboardStats.jsx:44-47 | a line iff growth is defined; up/green iff ≥ 0; the magnitude is its absolute value |
| DashboardStats.GrowthRoundTrip | src/components/Dashboard/DashboardStats.jsx:44-47 | the sign and magnitude give the growth back |
| DashboardStats.Cards | src/components/Dashboard/DashboardStats.jsx:14-59 | nothing iff stats are missing; otherwise the post and view cards |
| DashboardStats.TickLabel | src/components/Dashboard/DashboardStats.jsx:86 | at most 23 characters, ends in "...", and starts with a prefix of the title |
| Testimonials.FirstChars | src/components/Home/TestimonialsSection.jsx:52-55 | never longer than the number of parts |
| Testimonials.Initials | src/components/Home/TestimonialsSection.jsx:52-55 | never longer than the number of space-separated parts |
| Testimonials.FirstCharsAppend | src/components/Home/TestimonialsSection.jsx:54-55 | initials of concatenated parts concatenate in order |
| Testimonials.EmptyPartContributesNothing | src/components/Home/TestimonialsSection.jsx:54-55 | an empty part, as from a double space, adds nothing |
| Testimonials.InitialsAreFirstChars | src/components/Home/TestimonialsSection.jsx:52-55 | for space-free parts the initials are the first characters of the parts, in order |
| Testimonials.TwoWordInitials | src/components/Home/TestimonialsSection.jsx:52-55 | two non-empty space-free words give their two first characters |
| Testimonials.SarahJohnson | src/components/Home/TestimonialsSection.jsx:8 | "Sarah Johnson" gives "SJ" |

## Left out

- HTTP traffic, image uploads, the payment-intent call and the Stripe step are parameters: each answer is a `Call`, `IntentCall`, `Upload`, `StripeStep`, `CallResult` or `ConfirmResult` value.
- Subscription.SubscribeEffects: the Stripe step is an input, so the model does not decide whether `window.loadStripe` exists; nothing in the page's modules defines it, and the HTML page that could load it is not part of this model. A `{ error }` that `redirectToCheckout` resolves with is not inspected by the page and is modelled as `RedirectReturned`.
- Firebase authentication, the axios interceptors and React Query (caching, invalidation, `enabled`, `retry`, refetching) are left out; signed-in state, subscription and admin flags are inputs.
- Timers are not modelled as time: the search debounce is a pending value committed by `SearchTimerFires`, and the toast expiry is `Expire`.
- The clock (`Date.now()`, `new Date().toISOString()`) is a parameter.
- Floating point is left out: `toFixed` ratings and prices, and the average-rating card of the dashboard statistics. Growth and counts are integers.
- URL percent-encoding of query strings is left out; parameters are ordered key/value lists.
- String lengths count characters, not UTF-16 code units; `toUpperCase` is modelled for ASCII letters only, and `trim` for the ECMAScript white-space and line-terminator characters listed in `Common.IsJsSpace`.
- The sort is only shown to be sorted and a permutation; the stability of `Array.prototype.sort` is not stated.
- AllArticles: the hook has no page-size parameter, so the rows-per-page selector cannot change how many articles are asked for; the model keeps the value in `AllArticlesPage`, and the corrected `Query` sends the hook's own limit of 10.
- PremiumArticles: changing the search or a filter does not reset the page, as in the source.
- MyArticles: the page never renders `<ConfirmationDialog />`, so even a call to `confirm` would open nothing and its promise would never settle; the call also passes `message` instead of `description` and no `onConfirm`. `DeleteRequest` takes the resolved answer as a parameter.
- The navbar's mobile-menu open flag, the edit page's spinner, the edit page's `onSuccess` reset (same values as the effect's `ResetValues`) and the details page's `refetchArticle` are left out.
- The details page's three initials (the author's in the header, the reader's by the comment form, each commenter's) are modelled by `InitialOf`; the testimonial initials are modelled in `Testimonials`; the profile page's avatar fallback (a fixed icon) and all layout, animation and third-party widgets are left out.
- Pagination.TotalPages: a zero page size is excluded by its requires, where JavaScript's `Math.ceil(n / 0)` would give `Infinity` (or `NaN` for no items); no page renders `<Pagination>` (the pages carry only `{/* Pagination */}` comments, src/pages/PremiumArticles.jsx:241, src/pages/AllArticles.jsx:215, src/pages/MyArticles.jsx:165), so no caller fixes the page size.
- Confirmation.Continue: the closing on Continue, OK and Cancel follows the alert-dialog primitives, whose action and cancel buttons call `onOpenChange(false)` after their own `onClick` unless it prevents the default; src/components/ui/alert-dialog.jsx is not part of this model. Continue applies the click and the settling of `onConfirm` as one step, so a second `confirm` between the two is not modelled.
- ArticleDetails.CommentListRenders: a comment is modelled only by whether its user name is null; the rest of its card is layout.
- Toast ids come from the clock, so two toasts in one millisecond share an id; `SameMillisecondClosesBoth` states the consequence rather than assuming fresh ids.
- The login form, the contact form, the publisher form and the profile page reuse the registration predicates and are not modelled separately.

## Findings

| source | as written | input that shows it | evidently intended | confidence | as-written member | corrected member |
|---|---|---|---|---|---|---|
| src/pages/AllArticles.jsx:30 | six arguments are passed to the five-parameter hook of src/hooks/use-articles.jsx:4-10, so `limit` lands in `search`, the search text in `publisher`, the publisher in `tags` and the tags in `status` | first render: publisher `null` becomes `tags`, and `null.length` throws | call the hook as `(page, search, publisher, tags, 'approved')` | not executed | AllArticles.AsWrittenFirstRenderFails, AllArticles.AsWrittenLosesFilters | AllArticles.Query, AllArticles.QueryKeepsFilters |
| src/pages/Dashboard/AllArticlesDashboard.jsx:92-94 | the `throw new Error(response.data.message)` is caught by its own `catch`, which throws the fallback because a plain `Error` has no `response`; AllUsers.jsx:42-44 does the same | answer `{success: false, message: "Article not found"}` shows "Failed to approve article" | surface the server's message | not executed | ArticlesDashboard.AsWrittenLosesServerMessage, AllUsers.MakeAdminAsWrittenLosesMessage | ArticlesDashboard.OnConfirm, ArticlesDashboard.OnConfirmReportsServerMessage |
| src/pages/MyArticles.jsx:20 | `showConfirmation` is not returned by the confirmation hook, so calling it throws a TypeError; the page also never renders `<ConfirmationDialog />` | any click on the delete button | take `confirm` and `ConfirmationDialog` from the hook, render the dialog, pass `description` and an `onConfirm`, and delete iff the answer is true | not executed | MyArticles.DeleteRequestAsWritten, MyArticles.AsWrittenNeverDeletes | MyArticles.DeleteRequest |
| src/pages/ArticleDetails.jsx:119 | `navigate` is never defined in the page (also at :270) | a click on "Subscribe Now" on the paywall, or on the login link | navigate to /subscription and /login | not executed | ArticleDetails.ClickAsWritten, ArticleDetails.AsWrittenButtonsGoNowhere | ArticleDetails.Click |
| src/hooks/use-confirmation.jsx:24-51 | `confirm` never clears `status`, and only OK does | confirm, Continue (which closes the dialog with the status set), then confirm again; or Escape on a kept-open result | each confirmation starts at its question | not executed | Confirmation.AsWrittenShowsStaleResult | Confirmation.Confirm, Confirmation.ConfirmAfterContinueAsks |
| src/hooks/use-confirmation.jsx:91-95 | Continue is an alert-dialog action, which closes the dialog after its `onClick`, so the result view built at :57-79 is not shown after Continue | Continue on any question | prevent the default in the `onClick` so the dialog stays open on the result until OK | not executed; rests on the alert-dialog library's close behaviour | Confirmation.Continue, Confirmation.AsWrittenContinueHidesResult | Confirmation.ContinueKeepOpen, Confirmation.ContinueShowsResult |
| src/pages/Dashboard/AllArticlesDashboard.jsx:151 | Make Premium sends its PATCH with the bare `axios` imported at :2, not the secured instance: no server base URL and no bearer token | confirming Make Premium on any approved article | `axiosSecure.patch`, as approve (:85) and delete (:128) do | not executed | ArticlesDashboard.MakePremiumRequestAsWritten, ArticlesDashboard.AsWrittenPremiumMissesServer | ArticlesDashboard.ActionRequest |

=== FILE: add_article.dfy ===
/**
 * The article submission page: the free-article limit, what the page shows
 * for it, the record a submission posts, and the outcome of `onSubmit` with
 * its `loading` flag.
 */
module AddArticle {
  import opened Common
  import opened Listing

  /** A user may publish with a subscription, or while they have no article yet. */
  function CanPublish(hasSubscription: bool, existingArticles: nat): (can: bool)
    ensures can <==> hasSubscription || existingArticles == 0
    ensures !can ==> !hasSubscription && existingArticles >= 1
  {
    hasSubscription || existingArticles == 0
  }

  datatype AddArticleScreen =
    | Spinner                                        // while the user's articles are being checked
    | Page(limitNotice: bool, form: bool)            // the banner notice; the form, or the subscribe prompt

  function Screen(checkingArticles: bool, canPublish: bool): (s: AddArticleScreen)
    ensures s == Spinner <==> checkingArticles
    ensures s.Page? ==> (s.form <==> canPublish) && (s.limitNotice <==> !canPublish)
  {
    if checkingArticles then Spinner else Page(!canPublish, canPublish)
  }

  /** The validated form values the record is built from. */
  datatype ArticleForm = ArticleForm(title: string, publisher: SelectOption, tags: seq<SelectOption>,
                                     description: string, content: string)

  /** The signed-in user's profile fields; a missing display name or photo is `null`. */
  datatype Author = Author(email: string, displayName: Option<string>, photoURL: Option<string>)

  function NullableString(s: Option<string>): Json
  {
    if s.Some? then JStr(s.value) else JNull
  }

  /** `articleData`, the body of the POST that files a new article. */
  datatype ArticleData = ArticleData(
    title: string, image: string, publisher: string, publisherName: string, tags: Json,
    description: string, content: string, authorEmail: string, authorName: Option<string>,
    authorImage: Option<string>, status: string, isPremium: bool, views: int, ratings: seq<Json>,
    averageRating: int, createdAt: string)

  /** The keys of the body, in the order the literal lists them. */
  const RecordKeys: seq<string> := ["title", "image", "publisher", "publisherName", "tags", "description",
    "content", "authorEmail", "authorName", "authorImage", "status", "isPremium", "views", "ratings",
    "averageRating", "createdAt"]

  /** The JSON object sent, with its keys in order. */
  function RecordJson(d: ArticleData): (r: seq<(string, Json)>)
    ensures Keys(r) == RecordKeys
  {
    [("title", JStr(d.title)), ("image", JStr(d.image)), ("publisher", JStr(d.publisher)),
     ("publisherName", JStr(d.publisherName)), ("tags", d.tags), ("description", JStr(d.description)),
     ("content", JStr(d.content)), ("authorEmail", JStr(d.authorEmail)),
     ("authorName", NullableString(d.authorName)), ("authorImage", NullableString(d.authorImage)),
     ("status", JStr(d.status)), ("isPremium", JBool(d.isPremium)), ("views", JNum(d.views)),
     ("ratings", JArr(d.ratings)), ("averageRating", JNum(d.averageRating)), ("createdAt", JStr(d.createdAt))]
  }

  /**
   * The record built from the form, the uploaded image and the user: filed
   * under the selected publisher's id and name, signed with the user's email,
   * name and photo, and starting pending, not premium, unviewed and unrated.
   */
  function NewRecord(f: ArticleForm, imageUrl: string, user: Author, createdAt: string): (d: ArticleData)
    ensures d.status == "pending" && !d.isPremium && d.views == 0 && d.ratings == [] && d.averageRating == 0
    ensures d.publisher == f.publisher.value && d.publisherName == f.publisher.caption
    ensures d.authorEmail == user.email && d.authorName == user.displayName && d.authorImage == user.photoURL
    ensures d.image == imageUrl && d.createdAt == createdAt
  {
    ArticleData(f.title, imageUrl, f.publisher.value, f.publisher.caption, OptionsJson(f.tags),
                f.description, f.content, user.email, user.displayName, user.photoURL,
                "pending", false, 0, [], 0, createdAt)
  }

  /** The record's tags read back as the selected tags, value and label, in order. */
  lemma NewRecordTags(f: ArticleForm, imageUrl: string, user: Author, createdAt: string)
    ensures var t := NewRecord(f, imageUrl, user, createdAt).tags;
      t.JArr? && OptionsFromItems(t.items) == Some(f.tags)
  {
    OptionsJsonRoundTrip(f.tags);
  }

  // ---------------------------------------------------------------------------
  // onSubmit
  // ---------------------------------------------------------------------------

  /**
   * How an awaited call ended: with a value, or by throwing an error with an
   * HTTP status (`error.response?.status`) and the message the catch block reads
   * (`error.response?.data?.message` here, `error.message` on the edit page).
   */
  datatype Call<T> = Done(value: T) | Threw(status: Option<int>, message: Option<string>)

  /**
   * How the image upload ended: the hosted image's URL, or the plain
   * `Error('Failed to upload image')` the upload hook rethrows for any
   * failure, which has neither a response status nor a response body.
   */
  datatype Upload = Uploaded(url: string) | UploadFailed

  /** The message of the error the upload hook throws. */
  const UploadFailedMessage := "Failed to upload image"

  /** The POST's answer: `response.success` and `response.message`. */
  datatype PostAnswer = PostAnswer(success: bool, message: Option<string>)

  /** What a submission did: the record posted, the toast, where it navigated, whether the form was reset. */
  datatype SubmitOutcome = SubmitOutcome(posted: Option<ArticleData>, toast: Notice,
                                         navigateTo: Option<string>, reset: bool)

  /** The effects of `onSubmit`, given the outcomes of the upload and of the POST. */
  function SubmitEffects(canPublish: bool, f: ArticleForm, user: Author, createdAt: string,
                         upload: Upload, post: Call<PostAnswer>): (o: SubmitOutcome)
    ensures o.posted.Some? ==> canPublish && upload.Uploaded?
    ensures o.reset ==> o.toast.kind == "success"
    ensures o.toast.kind == "success" || o.toast.kind == "error"
  {
    if !canPublish then
      SubmitOutcome(None, Notice("Please subscribe to publish more articles", "error"), Some("/subscription"), false)
    else match upload
      case UploadFailed =>
        SubmitOutcome(None, Notice("Failed to submit article", "error"), None, false)
      case Uploaded(url) =>
        var record := NewRecord(f, url, user, createdAt);
        match post
        case Threw(status, m) =>
          SubmitOutcome(Some(record), Notice(OrElse(m, "Failed to submit article"), "error"),
                        if status == Some(403) then Some("/subscription") else None, false)
        case Done(PostAnswer(true, _)) =>
          SubmitOutcome(Some(record), Notice("Article submitted successfully!", "success"), Some("/my-articles"), true)
        case Done(PostAnswer(false, m)) =>
          SubmitOutcome(Some(record), Notice(OrElse(m, "Failed to submit article"), "error"), None, false)
  }

  /** Without the right to publish nothing is uploaded or posted, and the user is sent to the plans. */
  lemma NotAllowedSendsNothing(f: ArticleForm, user: Author, createdAt: string, upload: Upload,
                               post: Call<PostAnswer>)
    ensures var o := SubmitEffects(false, f, user, createdAt, upload, post);
      o.posted == None && o.navigateTo == Some("/subscription") && o.toast.kind == "error" && !o.reset
  {
  }

  /**
   * A refusal of the POST with status 403 sends the user to the plans; success
   * resets the form and opens the author's list; every other failure stays on
   * the page; a failed upload, having no response, shows only the fallback; a
   * posted record is always the one built from the form and the uploaded image.
   */
  lemma SubmitOutcomes(f: ArticleForm, user: Author, createdAt: string, upload: Upload, post: Call<PostAnswer>)
    ensures var o := SubmitEffects(true, f, user, createdAt, upload, post);
      && (o.navigateTo == Some("/subscription") <==> upload.Uploaded? && post.Threw? && post.status == Some(403))
      && (o.reset <==> upload.Uploaded? && post.Done? && post.value.success)
      && (o.reset <==> o.navigateTo == Some("/my-articles"))
      && (o.reset <==> o.toast.kind == "success")
      && (upload.UploadFailed? ==> o.toast == Notice("Failed to submit article", "error") && o.navigateTo.None?)
      && (o.posted.Some? <==> upload.Uploaded?)
      && (o.posted.Some? ==> o.posted.value == NewRecord(f, upload.url, user, createdAt))
  {
  }

  /** The page's `loading` flag around a submission. */
  class SubmitState {
    var loading: bool

    constructor ()
      ensures !loading
    {
      loading := false;
    }

    /**
     * `onSubmit`: a submission that may not publish returns before touching
     * `loading`; any other ends, in the `finally`, with `loading` false.
     */
    method OnSubmit(canPublish: bool, f: ArticleForm, user: Author, createdAt: string,
                    upload: Upload, post: Call<PostAnswer>) returns (o: SubmitOutcome)
      modifies this
      ensures o == SubmitEffects(canPublish, f, user, createdAt, upload, post)
      ensures loading == (if canPublish then false else old(loading))
    {
      if !canPublish {
        o := SubmitEffects(canPublish, f, user, createdAt, upload, post);
        return;
      }
      loading := true;
      o := SubmitEffects(canPublish, f, user, createdAt, upload, post);
      loading := false;
    }
  }
}

=== FILE: all_articles.dfy ===
/**
 * The public listing page: the read button's premium gate, the debounced
 * search, the filter and page-size selectors, the previous/next buttons, and
 * the query the page asks the listing hook for.
 *
 * As written the page calls the five-parameter hook with six arguments
 * (`page, limit, search, publisher, tags, 'approved'`), so every argument after
 * `page` lands one slot to the right. `QueryAsWritten` models what the hook
 * then builds; `Query` is the call by the hook's own signature, which the page
 * state uses.
 */
module AllArticles {
  import opened Common
  import opened Paging
  import opened Listing
  import opened ArticlesQuery

  // ---------------------------------------------------------------------------
  // The read button
  // ---------------------------------------------------------------------------

  datatype ReadButton = ReadButton(disabled: bool, caption: string, variant: string)

  /** A premium article is locked for a reader without a subscription. */
  function ReadButtonFor(isPremium: bool, hasSubscription: bool): (b: ReadButton)
    ensures b.disabled <==> isPremium && !hasSubscription
    ensures b.caption == (if b.disabled then "Subscribe to Read" else "Read More")
    ensures b.variant == (if isPremium then "default" else "outline")
  {
    var locked := isPremium && !hasSubscription;
    ReadButton(locked, if locked then "Subscribe to Read" else "Read More",
               if isPremium then "default" else "outline")
  }

  /** A subscriber can open every article, and a free article is open to everyone. */
  lemma ReadButtonOpen(isPremium: bool, hasSubscription: bool)
    ensures hasSubscription || !isPremium ==> !ReadButtonFor(isPremium, hasSubscription).disabled
  {
  }

  // ---------------------------------------------------------------------------
  // The query
  // ---------------------------------------------------------------------------

  /** `String(x)` of a react-select option object. */
  const ObjectText: string := "[object Object]"

  /**
   * What the hook builds from the six-argument call. Its `search` is the page
   * size (a non-zero number, so present, as its decimal text); its `publisher`
   * is the search string, so present iff the string is non-empty, with value
   * `"".value`, i.e. "undefined"; its `tags` is the selected publisher: `null`
   * has no `length` and the query throws (None), and an option object has an
   * undefined `length`, so no `tags` pair; its `status` is the selected tag
   * array, each option appended as "[object Object]". The 'approved'
   * argument is never read.
   */
  function QueryAsWritten(page: int, limit: int, search: string, selectedPublisher: Option<SelectOption>,
                          selectedTags: seq<SelectOption>): (r: Option<seq<Param>>)
    ensures r.None? <==> selectedPublisher.None?
    ensures r.Some? ==> |r.value| >= 2 && r.value[1] == ("limit", "10")
  {
    if selectedPublisher.None? then None
    else
      var hookSearch := if limit != 0 then IntToString(limit) else "";
      var hookPublisher := if search != "" then Some(SelectOption("undefined", "")) else None;
      Some(ArticleQuery(page, hookSearch, hookPublisher, [],
                        StatusList(seq(|selectedTags|, i => ObjectText))))
  }

  /** On first render (no publisher chosen yet) the query throws before any request is made. */
  lemma AsWrittenFirstRenderFails()
    ensures QueryAsWritten(1, 10, "", None, []) == None
  {
  }

  /**
   * Once a publisher is chosen the request goes out, but it never asks for the
   * approved status, never carries the chosen publisher's id, and sends the
   * page size as the search text.
   */
  lemma {:induction false} AsWrittenLosesFilters(page: int, limit: int, search: string, publisher: SelectOption,
                                                 selectedTags: seq<SelectOption>)
    requires IsPageSize(limit)
    requires publisher.value != "undefined"
    ensures QueryAsWritten(page, limit, search, Some(publisher), selectedTags).Some?
    ensures var q := QueryAsWritten(page, limit, search, Some(publisher), selectedTags).value;
      && ("status", "approved") !in q
      && ValueOf(q, "publisher") != Some(publisher.value)
      && ValueOf(q, "search") == Some(IntToString(limit))
  {
    var hookSearch := IntToString(limit);
    var hookPublisher := if search != "" then Some(SelectOption("undefined", "")) else None;
    var statuses := seq(|selectedTags|, i => ObjectText);
    var q := ArticleQuery(page, hookSearch, hookPublisher, [], StatusList(statuses));
    assert QueryAsWritten(page, limit, search, Some(publisher), selectedTags) == Some(q);
    ArticleQueryFilters(page, hookSearch, hookPublisher, [], StatusList(statuses));
    StatusPairsLast(page, hookSearch, hookPublisher, [], StatusList(statuses));
    ListStatusInOrder(page, hookSearch, hookPublisher, [], statuses);
    var n := |ListingParams(page, "10", hookSearch, hookPublisher, [])|;
    forall i | 0 <= i < |q|
      ensures q[i] != ("status", "approved")
    {
      if i >= n {
        assert q[i] == ("status", statuses[i - n]);
      }
    }
  }

  /** The call by the hook's own signature: the page's filters with the approved status. */
  function Query(page: int, search: string, selectedPublisher: Option<SelectOption>,
                 selectedTags: seq<SelectOption>): (q: seq<Param>)
    ensures |q| >= 3 && q[0] == ("page", IntToString(page)) && q[1] == ("limit", "10")
    ensures q[|q| - 1] == ("status", "approved")
    ensures CountKey(q, "status") == 1
  {
    ArticleQueryHead(page, search, selectedPublisher, selectedTags, StatusText("approved"));
    TextStatusCount(page, search, selectedPublisher, selectedTags, StatusText("approved"));
    ArticleQuery(page, search, selectedPublisher, selectedTags, StatusText("approved"))
  }

  /** The corrected query carries every filter the reader chose, by the listing's present-iff rules. */
  lemma QueryKeepsFilters(page: int, search: string, publisher: Option<SelectOption>, tags: seq<SelectOption>)
    ensures var q := Query(page, search, publisher, tags);
      && ValueOf(q, "search") == (if search != "" then Some(search) else None)
      && ValueOf(q, "publisher") == (if publisher.Some? then Some(publisher.value.value) else None)
      && ValueOf(q, "tags") == (if |tags| > 0 then Some(Join(OptionValues(tags), ',')) else None)
      && ValueOf(q, "status") == Some("approved")
  {
    ArticleQueryFilters(page, search, publisher, tags, StatusText("approved"));
    TextStatusCount(page, search, publisher, tags, StatusText("approved"));
  }

  // ---------------------------------------------------------------------------
  // The page state
  // ---------------------------------------------------------------------------

  /**
   * The page's state fields and the debounce timer. `pending` is the search text
   * of the armed timer, if one is armed; arming a new one cancels the old one.
   */
  class AllArticlesPage {
    var page: int
    var limit: int
    var search: string
    var publisher: Option<SelectOption>
    var tags: seq<SelectOption>
    var pending: Option<string>

    ghost predicate Valid()
      reads this
    {
      page >= 1 && IsPageSize(limit)
    }

    constructor ()
      ensures Valid()
      ensures page == 1 && limit == 10 && search == "" && publisher == None && tags == [] && pending == None
    {
      page, limit, search, publisher, tags, pending := 1, 10, "", None, [], None;
    }

    /** The parameters the current state asks for. */
    function CurrentQuery(): seq<Param>
      reads this
    {
      Query(page, search, publisher, tags)
    }

    /** A keystroke: (re)arms the 300 ms timer with the new text; nothing else changes yet. */
    method HandleSearch(value: string)
      modifies this`pending
      requires Valid()
      ensures Valid()
      ensures pending == Some(value)
    {
      pending := Some(value);
    }

    /** The timer fires: the search text is committed and the page goes back to 1. */
    method SearchTimerFires()
      modifies this`search, this`page, this`pending
      requires Valid() && pending.Some?
      ensures Valid()
      ensures search == old(pending.value) && page == 1 && pending == None
      ensures CurrentQuery() == Query(1, old(pending.value), publisher, tags)
    {
      search := pending.value;
      page := 1;
      pending := None;
    }

    /** Choosing or clearing a publisher; the filter effect puts the page back to 1. */
    method SelectPublisher(option: Option<SelectOption>)
      modifies this`publisher, this`page
      requires Valid()
      ensures Valid()
      ensures publisher == option && page == 1
      ensures CurrentQuery() == Query(1, search, option, tags)
    {
      publisher := option;
      page := 1;
    }

    /** Changing the tag selection; the filter effect puts the page back to 1. */
    method SelectTags(options: seq<SelectOption>)
      modifies this`tags, this`page
      requires Valid()
      ensures Valid()
      ensures tags == options && page == 1
      ensures CurrentQuery() == Query(1, search, publisher, options)
    {
      tags := options;
      page := 1;
    }

    /** The items-per-page selector; the page is kept. */
    method SetLimit(n: int)
      modifies this`limit
      requires Valid() && IsPageSize(n)
      ensures Valid()
      ensures limit == n
    {
      limit := n;
    }

    method Previous()
      modifies this`page
      requires Valid()
      ensures Valid()
      ensures page == PrevPage(old(page))
    {
      page := PrevPage(page);
    }

    /** Rendered only when there is more than one page. */
    method Next(totalPages: int)
      modifies this`page
      requires Valid() && totalPages > 1
      ensures Valid()
      ensures page == NextPage(old(page), totalPages)
    {
      page := NextPage(page, totalPages);
    }
  }
}

=== FILE: all_users.dfy ===
/**
 * The administrator's user table: the page count from the reported total and
 * the chosen page size, the role column and the Make Admin button, the row
 * numbers, and the page and page-size state.
 */
module AllUsers {
  import opened Common
  import opened Paging
  import opened ArticlesDashboard

  /** `Math.ceil(users.total / limit)`. */
  function UsersTotalPages(total: nat, limit: nat): (pages: nat)
    requires limit > 0
    ensures pages * limit >= total && (pages > 0 ==> (pages - 1) * limit < total)
  {
    CeilDiv(total, limit)
  }

  /** Before any response the data is `{data: [], total: 0}`: zero pages, so no pager strip. */
  lemma DefaultHidesPager(page: int, limit: nat)
    requires IsPageSize(limit)
    ensures UsersTotalPages(0, limit) == 0
    ensures Pager(page, UsersTotalPages(0, limit)) == None
  {
  }

  /** The role column: "Admin" for an admin, "User" for any other role. */
  function RoleLabel(role: string): (shown: string)
    ensures shown == "Admin" <==> role == "admin"
    ensures shown == "User" <==> role != "admin"
  {
    if role == "admin" then "Admin" else "User"
  }

  /** The Make Admin button is always drawn; it is enabled exactly for non-admins. */
  function MakeAdminEnabled(role: string): (enabled: bool)
    ensures enabled <==> role != "admin"
    ensures enabled <==> RoleLabel(role) == "User"
  {
    role != "admin"
  }

  /** The "#" cells of a page of `count` users: 1..count, whatever the page. */
  function RowNumbers(count: nat): (ns: seq<int>)
    ensures |ns| == count
    ensures forall k :: 0 <= k < count ==> ns[k] == k + 1
  {
    if count == 0 then [] else RowNumbers(count - 1) + [count]
  }

  /** The fallback message of the make-admin callback. */
  const MakeAdminFallback: string := "Failed to make admin"

  /** The toast once the confirmation resolves. */
  function MakeAdminToast(confirmed: bool): (t: Option<Notice>)
    ensures t.Some? <==> confirmed
    ensures t.Some? ==> t.value == Notice("User has been made admin successfully", "success")
  {
    if confirmed then Some(Notice("User has been made admin successfully", "success")) else None
  }

  /** Like the article callbacks, the make-admin callback as written drops the server's refusal message. */
  lemma MakeAdminAsWrittenLosesMessage()
    ensures OnConfirmAsWritten(Answered(false, Some("Already an admin")), MakeAdminFallback)
         == Threw("Failed to make admin")
    ensures OnConfirm(Answered(false, Some("Already an admin")), MakeAdminFallback) == Threw("Already an admin")
  {
  }

  /** `page` and `limit`. */
  class UsersPage {
    var page: int
    var limit: int

    ghost predicate Valid()
      reads this
    {
      page >= 1 && IsPageSize(limit)
    }

    constructor ()
      ensures Valid() && page == 1 && limit == 10
    {
      page, limit := 1, 10;
    }

    /** The rows-per-page selector: the page is not reset. */
    method SetLimit(n: int)
      modifies this`limit
      requires Valid() && IsPageSize(n)
      ensures Valid()
      ensures limit == n
    {
      limit := n;
    }

    method Previous()
      modifies this`page
      requires Valid()
      ensures Valid()
      ensures page == PrevPage(old(page))
    {
      page := PrevPage(page);
    }

    /** Rendered only when there is more than one page. */
    method Next(totalPages: int)
      modifies this`page
      requires Valid() && totalPages > 1
      ensures Valid()
      ensures page == NextPage(old(page), totalPages)
    {
      page := NextPage(page, totalPages);
    }
  }
}

=== FILE: article_details.dfy ===
/**
 * The article page: which of its four views is rendered, the content split
 * into paragraphs, the star rating and comment form, the comment body, and
 * the once-per-mount view increment.
 */
module ArticleDetails {
  import opened Common

  /** What the page renders: one of the early returns, the article, or a render that throws. */
  datatype DetailsScreen = Loading | NotFound | Paywall | Content | ContentThrew

  /** The loaded article's fields that decide the screen: `isPremium` and `authorName` (null as None). */
  datatype ShownArticle = ShownArticle(isPremium: bool, authorName: Option<string>)

  /**
   * The early returns, in order: loading, no article, premium without
   * subscription; then the article, whose header takes `authorName[0]` for
   * the author's avatar fallback and so throws when the name is null.
   */
  function Screen(articleLoading: bool, article: Option<ShownArticle>, hasSubscription: bool): (s: DetailsScreen)
    ensures s == Loading <==> articleLoading
    ensures s == NotFound <==> !articleLoading && article.None?
    ensures s == Paywall <==> !articleLoading && article.Some? && article.value.isPremium && !hasSubscription
    ensures s == ContentThrew <==>
      !articleLoading && article.Some? && (!article.value.isPremium || hasSubscription)
      && InitialOf(article.value.authorName).NullName?
    ensures s == Content <==>
      !articleLoading && article.Some? && (!article.value.isPremium || hasSubscription)
      && article.value.authorName.Some?
  {
    if articleLoading then Loading
    else if article.None? then NotFound
    else if article.value.isPremium && !hasSubscription then Paywall
    else if InitialOf(article.value.authorName).NullName? then ContentThrew
    else Content
  }

  /**
   * A subscriber, or any reader of a free article, reaches the content of an
   * article with a named author once it has loaded; with no author name the
   * header throws instead.
   */
  lemma SubscriberSeesContent(isPremium: bool, author: string)
    ensures Screen(false, Some(ShownArticle(isPremium, Some(author))), true) == Content
    ensures Screen(false, Some(ShownArticle(false, Some(author))), false) == Content
    ensures Screen(false, Some(ShownArticle(isPremium, None)), true) == ContentThrew
  {
  }

  // ---------------------------------------------------------------------------
  // Content
  // ---------------------------------------------------------------------------

  /** `article.content.split('\n')`: one paragraph per line. */
  function Paragraphs(content: string): (ps: seq<string>)
    ensures |ps| >= 1
  {
    Split(content, '\n')
  }

  /** The paragraphs hold no line break, and rejoined with line breaks they are the content again. */
  lemma ParagraphsPartitionContent(content: string)
    ensures forall i :: 0 <= i < |Paragraphs(content)| ==> '\n' !in Paragraphs(content)[i]
    ensures Join(Paragraphs(content), '\n') == content
  {
    SplitPiecesFree(content, '\n');
    JoinSplit(content, '\n');
  }

  // ---------------------------------------------------------------------------
  // Rating and comment form
  // ---------------------------------------------------------------------------

  /** The values of the five rating buttons, `[1, 2, 3, 4, 5]`. */
  const StarValues: seq<int> := [1, 2, 3, 4, 5]

  /** Input star `star` is filled iff `star <= rating`. */
  function InputStars(rating: int): (filled: seq<bool>)
    ensures |filled| == 5
    ensures forall i :: 0 <= i < 5 ==> (filled[i] <==> StarValues[i] <= rating)
  {
    seq(5, i requires 0 <= i < 5 => StarValues[i] <= rating)
  }

  /** In the comment list, star `i` (counted from 0) is filled iff `i < comment.rating`. */
  function CommentStars(rating: int): (filled: seq<bool>)
    ensures |filled| == 5
    ensures forall i :: 0 <= i < 5 ==> (filled[i] <==> i < rating)
  {
    seq(5, i => i < rating)
  }

  /** How many stars are filled. */
  function FilledCount(stars: seq<bool>): (n: nat)
    ensures n <= |stars|
  {
    if stars == [] then 0 else (if stars[0] then 1 else 0) + FilledCount(stars[1..])
  }

  /** A run of `k` filled stars followed by unfilled ones has `k` filled. */
  lemma {:induction false} FilledPrefixCount(stars: seq<bool>, k: nat)
    requires k <= |stars|
    requires forall i :: 0 <= i < |stars| ==> (stars[i] <==> i < k)
    ensures FilledCount(stars) == k
  {
    if stars != [] {
      var rest := stars[1..];
      if k == 0 {
        FilledPrefixCount(rest, 0);
      } else {
        assert forall i :: 0 <= i < |rest| ==> (rest[i] <==> i < k - 1);
        FilledPrefixCount(rest, k - 1);
      }
    }
  }

  /**
   * Both star rows show the same picture of a rating from 0 to 5: exactly
   * `rating` stars filled, and those are the first ones.
   */
  lemma StarsShowRating(rating: int)
    requires 0 <= rating <= 5
    ensures InputStars(rating) == CommentStars(rating)
    ensures FilledCount(CommentStars(rating)) == rating
  {
    assert forall i :: 0 <= i < 5 ==> StarValues[i] == i + 1;
    FilledPrefixCount(CommentStars(rating), rating);
  }

  /** The post button: disabled for an empty comment, a zero rating, or a post in flight. */
  function PostEnabled(comment: string, rating: int, submitting: bool): (enabled: bool)
    ensures enabled <==> comment != "" && rating != 0 && !submitting
  {
    !(comment == "" || rating == 0 || submitting)
  }

  /** The body of `POST /articles/:id/comments`. */
  datatype CommentData = CommentData(comment: string, rating: int, articleId: string, userEmail: string,
                                     userName: Option<string>, userImage: Option<string>)

  /** The signed-in reader's profile fields. */
  datatype Reader = Reader(email: string, displayName: Option<string>, photoURL: Option<string>)

  function CommentBody(comment: string, rating: int, id: string, user: Reader): (d: CommentData)
    ensures d.articleId == id && d.userEmail == user.email
    ensures d.userName == user.displayName && d.userImage == user.photoURL
    ensures d.comment == comment && d.rating == rating
  {
    CommentData(comment, rating, id, user.email, user.displayName, user.photoURL)
  }

  /** What `name[0]` gives in the avatar fallback: the first letter, nothing for "", a TypeError for null. */
  datatype Initial = Letter(c: char) | NoLetter | NullName

  function InitialOf(name: Option<string>): (i: Initial)
    ensures i.NullName? <==> name.None?
    ensures i.NoLetter? <==> name == Some("")
    ensures i.Letter? ==> name.Some? && |name.value| > 0 && i.c == name.value[0]
  {
    match name
    case None => NullName
    case Some(n) => if n == "" then NoLetter else Letter(n[0])
  }

  /**
   * The comment area: the prompt to log in when signed out; signed in, the
   * form with the reader's initial, or a render that throws when the
   * reader's display name is null.
   */
  datatype CommentArea = CommentForm(initial: Initial) | LoginPrompt | CommentAreaThrew

  function CommentAreaFor(user: Option<Reader>): (a: CommentArea)
    ensures a.LoginPrompt? <==> user.None?
    ensures a.CommentAreaThrew? <==> user.Some? && user.value.displayName.None?
    ensures a.CommentForm? ==> a.initial == InitialOf(user.value.displayName) && !a.initial.NullName?
  {
    match user
    case None => LoginPrompt
    case Some(u) => if InitialOf(u.displayName).NullName? then CommentAreaThrew else CommentForm(InitialOf(u.displayName))
  }

  /** The comment list renders without throwing exactly when every comment has a user name. */
  function CommentListRenders(comments: seq<CommentData>): (ok: bool)
    ensures ok <==> forall i :: 0 <= i < |comments| ==> !InitialOf(comments[i].userName).NullName?
  {
    if comments == [] then true
    else !InitialOf(comments[0].userName).NullName? && CommentListRenders(comments[1..])
  }

  /**
   * A comment posted from the form carries a user name, so a list that
   * rendered before it still renders with it.
   */
  lemma PostedCommentRenders(comments: seq<CommentData>, comment: string, rating: int, id: string, u: Reader)
    requires CommentListRenders(comments)
    requires CommentAreaFor(Some(u)).CommentForm?
    ensures CommentListRenders(comments + [CommentBody(comment, rating, id, u)])
  {
    var all := comments + [CommentBody(comment, rating, id, u)];
    assert forall i :: 0 <= i < |comments| ==> all[i] == comments[i];
  }

  // ---------------------------------------------------------------------------
  // Finding: the two buttons that call `navigate`, which the page never defines
  // ---------------------------------------------------------------------------

  /** What a click does: go to a path, or throw a ReferenceError naming the missing binding. */
  datatype ClickEffect = NavigateTo(path: string) | ReferenceError(name: string)

  /** The two controls that call `navigate`: "Subscribe Now" on the paywall and "Login" under the comments. */
  datatype NavButton = SubscribeNowButton | LoginLinkButton

  /** A click as written: `navigate` is not in scope, so either button throws. */
  function ClickAsWritten(b: NavButton): (c: ClickEffect)
    ensures c.ReferenceError? && c.name == "navigate"
  {
    ReferenceError("navigate")
  }

  /** With `navigate` bound by `useNavigate()`: the paywall leads to the plans, the link to the login page. */
  function Click(b: NavButton): (c: ClickEffect)
    ensures c.NavigateTo?
    ensures c.path == "/subscription" <==> b == SubscribeNowButton
    ensures c.path == "/login" <==> b == LoginLinkButton
  {
    match b
    case SubscribeNowButton => NavigateTo("/subscription")
    case LoginLinkButton => NavigateTo("/login")
  }

  /** As written, neither button ever leaves the page, while each corrected one does. */
  lemma AsWrittenButtonsGoNowhere(b: NavButton)
    ensures !ClickAsWritten(b).NavigateTo?
    ensures ClickAsWritten(b) != Click(b)
  {
  }

  // ---------------------------------------------------------------------------
  // Page state
  // ---------------------------------------------------------------------------

  /** The `rating`, `comment` and `viewIncremented` state, with the number of view requests made. */
  class DetailsPage {
    var rating: int
    var comment: string
    var viewIncremented: bool
    var viewRequests: nat

    /** The rating is 0 or a star value, and a view was requested iff the flag is set, so at most once. */
    ghost predicate Valid()
      reads this
    {
      && 0 <= rating <= 5
      && viewRequests == (if viewIncremented then 1 else 0)
    }

    constructor ()
      ensures Valid()
      ensures rating == 0 && comment == "" && !viewIncremented && viewRequests == 0
    {
      rating := 0;
      comment := "";
      viewIncremented := false;
      viewRequests := 0;
    }

    /** A click on one of the five star buttons. */
    method ClickStar(star: int)
      requires Valid() && star in StarValues
      modifies this`rating
      ensures Valid() && rating == star && 1 <= rating <= 5
    {
      rating := star;
    }

    method TypeComment(text: string)
      requires Valid()
      modifies this`comment
      ensures Valid() && comment == text
    {
      comment := text;
    }

    /** The post's `onSuccess`: the form is cleared. */
    method CommentPosted() returns (toast: Notice)
      requires Valid()
      modifies this`comment, this`rating
      ensures Valid() && comment == "" && rating == 0
      ensures toast == Notice("Comment added successfully", "success")
    {
      comment := "";
      rating := 0;
      toast := Notice("Comment added successfully", "success");
    }

    /** The post's `onError`: the form keeps what was typed. */
    method CommentFailed(message: Option<string>) returns (toast: Notice)
      requires Valid()
      ensures toast == Notice(OrElse(message, "Failed to add comment"), "error")
    {
      toast := Notice(OrElse(message, "Failed to add comment"), "error");
    }

    /** The effect on `[article]`: the first time an article is present, one view is requested. */
    method ArticleChanged(articlePresent: bool) returns (requested: bool)
      requires Valid()
      modifies this`viewIncremented, this`viewRequests
      ensures Valid() && viewRequests <= 1
      ensures requested <==> articlePresent && !old(viewIncremented)
      ensures viewIncremented == (old(viewIncremented) || articlePresent)
    {
      requested := false;
      if articlePresent && !viewIncremented {
        requested := true;
        viewRequests := viewRequests + 1;
        viewIncremented := true;
      }
    }
  }
}

=== FILE: articles_dashboard.dfy ===
/**
 * The administrator's article table: which moderation actions each row offers,
 * the request bodies of approve and decline, the decline dialog with its
 * reason, the `onConfirm` callbacks handed to the confirmation dialog, and the
 * query over all three statuses with its page reset on search and filters.
 */
module ArticlesDashboard {
  import opened Common
  import opened Listing
  import opened ArticlesQuery

  // ---------------------------------------------------------------------------
  // Row actions
  // ---------------------------------------------------------------------------

  datatype ModerationAction = Approve | Decline | Delete | MakePremium

  /** The dropdown items of a row, in menu order. */
  function ActionsFor(status: string, isPremium: bool): (a: seq<ModerationAction>)
    ensures |a| <= 3
    ensures a == [] <==> status != "pending" && status != "approved" && status != "declined"
    ensures |a| > 0 ==> (a[0] == Approve <==> status == "pending")
  {
    (if status == "pending" then [Approve, Decline] else [])
    + (if status == "approved" || status == "declined" then [Delete] else [])
    + (if status == "approved" && !isPremium then [MakePremium] else [])
  }

  /**
   * Approve and Decline exactly for pending articles, Delete exactly for
   * approved or declined ones, Make Premium exactly for approved articles not
   * yet premium; any other status offers nothing.
   */
  lemma ActionsOffered(status: string, isPremium: bool)
    ensures var a := ActionsFor(status, isPremium);
      && (Approve in a <==> status == "pending")
      && (Decline in a <==> status == "pending")
      && (Delete in a <==> status == "approved" || status == "declined")
      && (MakePremium in a <==> status == "approved" && !isPremium)
      && (status != "pending" && status != "approved" && status != "declined" ==> a == [])
  {
  }

  /** A pending article can be moderated but not deleted; a premium one is never offered Make Premium again. */
  lemma PendingNotDeletable(isPremium: bool)
    ensures Delete !in ActionsFor("pending", isPremium)
    ensures MakePremium !in ActionsFor("approved", true)
  {
  }

  /** The status badge's colour classes. */
  function StatusBadge(status: string): (classes: string)
    ensures status == "pending" ==> classes == "bg-yellow-100 text-yellow-800"
    ensures status == "approved" ==> classes == "bg-green-100 text-green-800"
    ensures status == "declined" ==> classes == "bg-red-100 text-red-800"
    ensures status != "pending" && status != "approved" && status != "declined" ==> classes == ""
  {
    if status == "pending" then "bg-yellow-100 text-yellow-800"
    else if status == "approved" then "bg-green-100 text-green-800"
    else if status == "declined" then "bg-red-100 text-red-800"
    else ""
  }

  // ---------------------------------------------------------------------------
  // Request bodies
  // ---------------------------------------------------------------------------

  /** The approve PATCH body. */
  function ApproveBody(): (body: seq<(string, Json)>)
    ensures Keys(body) == ["status"]
    ensures ValueOf(body, "status") == Some(JStr("approved"))
  {
    [("status", JStr("approved"))]
  }

  /** The decline PATCH body: the status and the reason exactly as typed (untrimmed). */
  function DeclineBody(reason: string): (body: seq<(string, Json)>)
    ensures Keys(body) == ["status", "declined_reason"]
    ensures ValueOf(body, "status") == Some(JStr("declined"))
    ensures ValueOf(body, "declined_reason") == Some(JStr(reason))
  {
    [("status", JStr("declined")), ("declined_reason", JStr(reason))]
  }

  // ---------------------------------------------------------------------------
  // Where the row actions send their requests
  // ---------------------------------------------------------------------------

  /** The secured client's base URL. */
  const ServerBase: string := "https://herald-server.vercel.app"

  /**
   * The secured instance (base URL set, bearer token from storage added by its
   * request interceptor) or the bare default `axios`, which has neither.
   */
  datatype HttpClient = SecureClient | BareClient

  /** A request as it leaves the page: verb, URL (a bare path resolves against the page's own origin) and `authorization` header. */
  datatype Request = Request(verb: string, url: string, authorization: Option<string>)

  function Send(client: HttpClient, verb: string, path: string, token: Option<string>): (r: Request)
    ensures r.verb == verb
    ensures client == SecureClient ==> r.url == ServerBase + path
    ensures client == BareClient ==> r.url == path && r.authorization.None?
    ensures client == SecureClient ==> (r.authorization.Some? <==> token.Some? && token.value != "")
    ensures r.authorization.Some? ==> r.authorization == Some("Bearer " + token.value)
  {
    match client
    case SecureClient =>
      Request(verb, ServerBase + path, if token.Some? && token.value != "" then Some("Bearer " + token.value) else None)
    case BareClient => Request(verb, path, None)
  }

  /** Make Premium as written: `axios.patch('/articles/${id}/premium')` on the default instance. */
  function MakePremiumRequestAsWritten(id: string, token: Option<string>): (r: Request)
    ensures r.url == "/articles/" + id + "/premium" && r.authorization.None?
  {
    Send(BareClient, "PATCH", "/articles/" + id + "/premium", token)
  }

  /** The request each confirmed row action sends, all through the secured instance. */
  function ActionRequest(action: ModerationAction, id: string, token: Option<string>): (r: Request)
    ensures r.url == ServerBase + (if action == MakePremium then "/articles/" + id + "/premium" else "/articles/" + id)
    ensures r.verb == (if action == Delete then "DELETE" else "PATCH")
    ensures token.Some? && token.value != "" ==> r.authorization == Some("Bearer " + token.value)
  {
    match action
    case MakePremium => Send(SecureClient, "PATCH", "/articles/" + id + "/premium", token)
    case Delete => Send(SecureClient, "DELETE", "/articles/" + id, token)
    case _ => Send(SecureClient, "PATCH", "/articles/" + id, token)
  }

  /**
   * As written, Make Premium never reaches the API server and never carries
   * the administrator's token, unlike the other row actions and the
   * secured request it is evidently meant to be.
   */
  lemma AsWrittenPremiumMissesServer(id: string, token: Option<string>)
    ensures MakePremiumRequestAsWritten(id, token).url != ActionRequest(MakePremium, id, token).url
    ensures MakePremiumRequestAsWritten(id, token).url[0] == '/' && ActionRequest(Approve, id, token).url[0] == 'h'
    ensures token.Some? && token.value != "" ==>
      MakePremiumRequestAsWritten(id, token).authorization != ActionRequest(MakePremium, id, token).authorization
  {
    var bare := MakePremiumRequestAsWritten(id, token).url;
    var secure := ActionRequest(MakePremium, id, token).url;
    assert bare[0] == '/';
    assert secure[0] == ServerBase[0] == 'h';
    assert ActionRequest(Approve, id, token).url[0] == ServerBase[0];
  }

  // ---------------------------------------------------------------------------
  // The `onConfirm` callbacks of approve, delete and make-premium
  // ---------------------------------------------------------------------------

  /** What the backend call produced: an answer with its `success` flag and message, or a rejected request. */
  datatype CallResult = Answered(success: bool, message: Option<string>) | Rejected(serverMessage: Option<string>)

  /** What the callback hands back to the dialog: the response (with its message), or a thrown `Error`. */
  datatype CallbackOutcome = Returned(message: Option<string>) | Threw(errorMessage: string)

  /** The fallback texts of the three callbacks. */
  const ApproveFallback: string := "Failed to approve article"
  const DeleteFallback: string := "Failed to delete article"
  const PremiumFallback: string := "Failed to make article premium"

  /**
   * The callback as written: an unsuccessful answer throws inside the `try`,
   * its own `catch` then reads `error.response?.data?.message` of that plain
   * `Error`, finds nothing, and throws the fallback text instead.
   */
  function OnConfirmAsWritten(r: CallResult, fallback: string): (o: CallbackOutcome)
    ensures r.Answered? && r.success ==> o == Returned(r.message)
    ensures r.Answered? && !r.success ==> o == Threw(fallback)
    ensures r.Rejected? ==> o == Threw(OrElse(r.serverMessage, fallback))
  {
    match r
    case Answered(true, m) => Returned(m)
    case Answered(false, _) => Threw(fallback)
    case Rejected(m) => Threw(OrElse(m, fallback))
  }

  /** An unsuccessful answer's own message never reaches the dialog. */
  lemma AsWrittenLosesServerMessage(message: string, fallback: string)
    requires message != fallback
    ensures OnConfirmAsWritten(Answered(false, Some(message)), fallback) != Threw(message)
    ensures OnConfirmAsWritten(Answered(false, Some("Article not found")), ApproveFallback)
         == Threw("Failed to approve article")
  {
  }

  /** The callback as its `throw new Error(response.data.message)` intends: the server's message surfaces. */
  function OnConfirm(r: CallResult, fallback: string): (o: CallbackOutcome)
    ensures r.Answered? && r.success ==> o == Returned(r.message)
    ensures !(r.Answered? && r.success) ==> o.Threw?
  {
    match r
    case Answered(true, m) => Returned(m)
    case Answered(false, m) => Threw(OrElse(m, fallback))
    case Rejected(m) => Threw(OrElse(m, fallback))
  }

  /**
   * Every failure throws a non-empty message: the server's own when it sent a
   * non-empty one, whether as an unsuccessful answer or a rejection, and the
   * fallback otherwise.
   */
  lemma OnConfirmReportsServerMessage(r: CallResult, fallback: string)
    requires fallback != ""
    ensures var o := OnConfirm(r, fallback);
      && (o.Threw? ==> o.errorMessage != "")
      && (r.Answered? && !r.success && r.message.Some? && r.message.value != "" ==> o == Threw(r.message.value))
      && (r.Rejected? && r.serverMessage.Some? && r.serverMessage.value != "" ==> o == Threw(r.serverMessage.value))
      && (!(r.Answered? && r.success) && OrElse(if r.Answered? then r.message else r.serverMessage, "") == "" ==>
            o == Threw(fallback))
  {
  }

  /** The toast each confirmed action adds; nothing when the dialog resolved false. */
  function ConfirmedToast(action: ModerationAction, confirmed: bool): (t: Option<Notice>)
    ensures t.Some? <==> confirmed && action != Decline
    ensures t.Some? ==> t.value.kind == "success"
  {
    if !confirmed then None
    else match action
      case Approve => Some(Notice("Article approved successfully", "success"))
      case Delete => Some(Notice("Article deleted successfully", "success"))
      case MakePremium => Some(Notice("Article marked as premium successfully", "success"))
      case Decline => None
  }

  // ---------------------------------------------------------------------------
  // The decline dialog
  // ---------------------------------------------------------------------------

  /** The outcome of the decline PATCH. */
  datatype DeclineResult = DeclineAnswered(success: bool) | DeclineRejected(serverMessage: Option<string>)

  /** Submit is enabled exactly when the reason has a non-white-space character. */
  function SubmitEnabled(reason: string): (enabled: bool)
    ensures enabled <==> exists i :: 0 <= i < |reason| && !IsJsSpace(reason[i])
  {
    TrimEmptyIff(reason);
    Trim(reason) != ""
  }

  /** `declineDialog` = `{open, id}` and `declineReason`. */
  class DeclineDialog {
    var open: bool
    var id: Option<string>
    var reason: string

    /** Every way of closing the dialog also clears the reason and the id. */
    ghost predicate Valid()
      reads this
    {
      !open ==> id == None && reason == ""
    }

    constructor ()
      ensures Valid() && !open && id == None && reason == ""
    {
      open, id, reason := false, None, "";
    }

    /** The row's Decline item: opens the dialog for that article. */
    method OpenFor(articleId: string)
      modifies this
      requires Valid()
      ensures Valid()
      ensures open && id == Some(articleId) && reason == old(reason)
    {
      open, id := true, Some(articleId);
    }

    /** Typing in the reason box (present only while the dialog is open). */
    method Type(text: string)
      modifies this`reason
      requires Valid() && open
      ensures Valid()
      ensures reason == text
    {
      reason := text;
    }

    /** Cancel. */
    method Cancel()
      modifies this
      requires Valid()
      ensures Valid()
      ensures !open && id == None && reason == ""
    {
      open, id, reason := false, None, "";
    }

    /** The dialog's `onOpenChange(open)`: sets `open`, forgets the id and clears the reason. */
    method OnOpenChange(newOpen: bool)
      modifies this
      requires Valid()
      ensures Valid()
      ensures open == newOpen && id == None && reason == ""
    {
      open, id, reason := newOpen, None, "";
    }

    /**
     * Submit, with the PATCH's outcome as input: returns the body sent and the
     * toast shown. A successful answer resets the dialog; an unsuccessful answer
     * or a rejection leaves the dialog and the reason as they were.
     */
    method Submit(result: DeclineResult) returns (body: seq<(string, Json)>, toast: Option<Notice>)
      modifies this
      requires Valid() && open && SubmitEnabled(reason)
      ensures Valid()
      ensures body == DeclineBody(old(reason))
      ensures result == DeclineAnswered(true) ==> !open && id == None && reason == ""
      ensures result != DeclineAnswered(true) ==> open == old(open) && id == old(id) && reason == old(reason)
      ensures toast == match result
        case DeclineAnswered(true) => Some(Notice("Article declined successfully", "success"))
        case DeclineAnswered(false) => None
        case DeclineRejected(m) => Some(Notice(OrElse(m, "Failed to decline article"), "error"))
    {
      body := DeclineBody(reason);
      match result {
        case DeclineAnswered(ok) =>
          if ok {
            open, id, reason := false, None, "";
            toast := Some(Notice("Article declined successfully", "success"));
          } else {
            toast := None;
          }
        case DeclineRejected(m) =>
          toast := Some(Notice(OrElse(m, "Failed to decline article"), "error"));
      }
    }
  }

  // ---------------------------------------------------------------------------
  // The query and the page state
  // ---------------------------------------------------------------------------

  /** The three statuses the table lists, in the order they are appended. */
  const AllStatuses: seq<string> := ["approved", "pending", "declined"]

  function DashboardQuery(page: int, search: string, publisher: Option<SelectOption>,
                          tags: seq<SelectOption>): (q: seq<Param>)
    ensures |q| == |ListingParams(page, "10", search, publisher, tags)| + 3
    ensures q[0] == ("page", IntToString(page)) && q[1] == ("limit", "10")
  {
    ArticleQuery(page, search, publisher, tags, StatusList(AllStatuses))
  }

  /** The table asks for all three statuses, once each and in order, after the other parameters. */
  lemma DashboardQueryStatuses(page: int, search: string, publisher: Option<SelectOption>, tags: seq<SelectOption>)
    ensures var q := DashboardQuery(page, search, publisher, tags);
      && |q| >= 5
      && q[|q| - 3..] == [("status", "approved"), ("status", "pending"), ("status", "declined")]
      && CountKey(q, "status") == 3
  {
    var q := DashboardQuery(page, search, publisher, tags);
    var n := |ListingParams(page, "10", search, publisher, tags)|;
    ListStatusInOrder(page, search, publisher, tags, AllStatuses);
    ListingHead(page, "10", search, publisher, tags);
    assert q[n] == ("status", "approved") && q[n + 1] == ("status", "pending") && q[n + 2] == ("status", "declined");
    LastThree(q, n);
  }

  /** A list of n + 3 entries ends with its entries n, n + 1 and n + 2. */
  lemma LastThree<T>(q: seq<T>, n: nat)
    requires |q| == n + 3
    ensures q[|q| - 3..] == [q[n], q[n + 1], q[n + 2]]
  {
    assert |q[|q| - 3..]| == 3;
  }

  /** The table's page, search and filter state, and the armed debounce timer. */
  class DashboardPage {
    var page: int
    var search: string
    var publisher: Option<SelectOption>
    var tags: seq<SelectOption>
    var pending: Option<string>

    ghost predicate Valid()
      reads this
    {
      page >= 1
    }

    constructor ()
      ensures Valid()
      ensures page == 1 && search == "" && publisher == None && tags == [] && pending == None
    {
      page, search, publisher, tags, pending := 1, "", None, [], None;
    }

    /** A keystroke (re)arms the 300 ms timer. */
    method HandleSearch(value: string)
      modifies this`pending
      requires Valid()
      ensures Valid()
      ensures pending == Some(value)
    {
      pending := Some(value);
    }

    /** The timer fires: the search is committed and the page goes back to 1. */
    method SearchTimerFires()
      modifies this`search, this`page, this`pending
      requires Valid() && pending.Some?
      ensures Valid()
      ensures search == old(pending.value) && page == 1 && pending == None
    {
      search := pending.value;
      page := 1;
      pending := None;
    }

    /** A publisher change, followed by the filter effect's page reset. */
    method SelectPublisher(option: Option<SelectOption>)
      modifies this`publisher, this`page
      requires Valid()
      ensures Valid()
      ensures publisher == option && page == 1
    {
      publisher := option;
      page := 1;
    }

    /** A tag change, followed by the filter effect's page reset. */
    method SelectTags(options: seq<SelectOption>)
      modifies this`tags, this`page
      requires Valid()
      ensures Valid()
      ensures tags == options && page == 1
    {
      tags := options;
      page := 1;
    }
  }
}

=== FILE: articles_query.dfy ===
/**
 * The query built by the article-listing hook: the listing literal with a page
 * size of "10", after which the `status` filter is appended, once per element
 * when it is an array, once when it is a non-empty string, and not at all when
 * it is empty or missing.
 */
module ArticlesQuery {
  import opened Common
  import opened Listing

  /** The hook's `status` argument: an array of statuses, one status string, or null/undefined. */
  datatype StatusFilter = StatusList(statuses: seq<string>) | StatusText(status: string) | NoStatus

  /** One `status` pair per element, in order. */
  function StatusPairs(statuses: seq<string>): (ps: seq<Param>)
    ensures |ps| == |statuses|
    ensures forall i :: 0 <= i < |ps| ==> ps[i].0 == "status" && ps[i].1 == statuses[i]
  {
    seq(|statuses|, i requires 0 <= i < |statuses| => ("status", statuses[i]))
  }

  /** The pairs the status branch appends. */
  function StatusParams(status: StatusFilter): (ps: seq<Param>)
    ensures status.StatusList? ==> |ps| == |status.statuses|
    ensures status.StatusText? ==> (ps == [] <==> status.status == "")
    ensures status.NoStatus? ==> ps == []
    ensures forall i :: 0 <= i < |ps| ==> ps[i].0 == "status"
  {
    match status
    case StatusList(ss) => StatusPairs(ss)
    case StatusText(s) => if s != "" then [("status", s)] else []
    case NoStatus => []
  }

  /** The full parameter list `queryFn` sends. */
  function ArticleQuery(page: int, search: string, publisher: Option<SelectOption>, tags: seq<SelectOption>,
                        status: StatusFilter): (q: seq<Param>)
    ensures |q| == |ListingParams(page, "10", search, publisher, tags)| + |StatusParams(status)|
    ensures q[0] == ("page", IntToString(page)) && q[1] == ("limit", "10")
  {
    ListingParams(page, "10", search, publisher, tags) + StatusParams(status)
  }

  /**
   * `queryFn`'s parameter construction: the literal first, then `append('status', s)`
   * for each element of an array status, or once for a truthy string status.
   * The defaults are those of the hook's signature.
   */
  method BuildArticleQuery(page: int := 1, search: string := "", publisher: Option<SelectOption> := None,
                           tags: seq<SelectOption> := [], status: StatusFilter := StatusText("approved"))
    returns (params: seq<Param>)
    ensures params == ArticleQuery(page, search, publisher, tags, status)
  {
    params := ListingParams(page, "10", search, publisher, tags);
    ghost var literal := params;
    match status {
      case StatusList(ss) =>
        var i := 0;
        while i < |ss|
          invariant 0 <= i <= |ss|
          invariant params == literal + StatusPairs(ss[..i])
        {
          assert StatusPairs(ss[..i + 1]) == StatusPairs(ss[..i]) + [("status", ss[i])];
          params := params + [("status", ss[i])];
          i := i + 1;
        }
        assert ss[..i] == ss;
      case StatusText(s) =>
        if s != "" {
          params := params + [("status", s)];
        }
      case NoStatus =>
    }
  }

  /** With every argument defaulted the hook asks for page 1, ten per page, approved articles only. */
  lemma DefaultQuery()
    ensures ArticleQuery(1, "", None, [], StatusText("approved"))
         == [("page", "1"), ("limit", "10"), ("status", "approved")]
  {
  }

  /** The first two parameters are always `page` and `limit` = "10". */
  lemma ArticleQueryHead(page: int, search: string, publisher: Option<SelectOption>, tags: seq<SelectOption>,
                         status: StatusFilter)
    ensures var q := ArticleQuery(page, search, publisher, tags, status);
      |q| >= 2 && q[0] == ("page", IntToString(page)) && q[1] == ("limit", "10")
  {
    ListingHead(page, "10", search, publisher, tags);
  }

  lemma StatusParamsKeys(status: StatusFilter)
    ensures forall i :: 0 <= i < |StatusParams(status)| ==> StatusParams(status)[i].0 == "status"
  {
  }

  /**
   * The optional filters obey the listing's present-iff rules whatever the
   * status: `search` iff non-empty, `publisher` iff selected (its value), and
   * `tags` iff non-empty (the values joined by ',').
   */
  lemma {:induction false} ArticleQueryFilters(page: int, search: string, publisher: Option<SelectOption>,
                                               tags: seq<SelectOption>, status: StatusFilter)
    ensures var q := ArticleQuery(page, search, publisher, tags, status);
      && ValueOf(q, "search") == (if search != "" then Some(search) else None)
      && ValueOf(q, "publisher") == (if publisher.Some? then Some(publisher.value.value) else None)
      && ValueOf(q, "tags") == (if |tags| > 0 then Some(Join(OptionValues(tags), ',')) else None)
  {
    var lit := ListingParams(page, "10", search, publisher, tags);
    var st := StatusParams(status);
    StatusParamsKeys(status);
    assert "search" !in Keys(st) && "publisher" !in Keys(st) && "tags" !in Keys(st);
    ValueOfAppend(lit, st, "search");
    ValueOfAppend(lit, st, "publisher");
    ValueOfAppend(lit, st, "tags");
    ListingSearchIff(page, "10", search, publisher, tags);
    ListingPublisherIff(page, "10", search, publisher, tags);
    ListingTagsIff(page, "10", search, publisher, tags);
  }

  /**
   * The `status` pairs come after every other pair: a position holds a `status`
   * pair exactly when it lies past the listing literal.
   */
  lemma StatusPairsLast(page: int, search: string, publisher: Option<SelectOption>, tags: seq<SelectOption>,
                        status: StatusFilter)
    ensures var q := ArticleQuery(page, search, publisher, tags, status);
      var n := |ListingParams(page, "10", search, publisher, tags)|;
      n <= |q| && forall i :: 0 <= i < |q| ==> (q[i].0 == "status" <==> i >= n)
  {
    ListingHead(page, "10", search, publisher, tags);
    StatusParamsKeys(status);
  }

  /** An array status contributes its elements as `status` values, in order and once each. */
  lemma {:induction false} ListStatusInOrder(page: int, search: string, publisher: Option<SelectOption>,
                                             tags: seq<SelectOption>, statuses: seq<string>)
    ensures var q := ArticleQuery(page, search, publisher, tags, StatusList(statuses));
      var n := |ListingParams(page, "10", search, publisher, tags)|;
      && |q| == n + |statuses|
      && (forall k :: 0 <= k < |statuses| ==> q[n + k] == ("status", statuses[k]))
      && CountKey(q, "status") == |statuses|
  {
    var lit := ListingParams(page, "10", search, publisher, tags);
    var st := StatusPairs(statuses);
    assert ArticleQuery(page, search, publisher, tags, StatusList(statuses)) == lit + st;
    ListingLacksKey(page, "10", search, publisher, tags, "status");
    CountKeyAppend(lit, st, "status");
    CountKeyAll(st, "status");
  }

  /** A string status contributes exactly one `status` pair when non-empty and none when empty; null none. */
  lemma {:induction false} TextStatusCount(page: int, search: string, publisher: Option<SelectOption>,
                                           tags: seq<SelectOption>, status: StatusFilter)
    requires !status.StatusList?
    ensures CountKey(ArticleQuery(page, search, publisher, tags, status), "status")
         == if status.StatusText? && status.status != "" then 1 else 0
    ensures status.StatusText? && status.status != "" ==>
      ValueOf(ArticleQuery(page, search, publisher, tags, status), "status") == Some(status.status)
  {
    var lit := ListingParams(page, "10", search, publisher, tags);
    ListingLacksKey(page, "10", search, publisher, tags, "status");
    CountKeyAppend(lit, StatusParams(status), "status");
    ValueOfAppend(lit, StatusParams(status), "status");
  }
}

=== FILE: common.dfy ===
/**
 * Values shared by the page and hook models: optional values, JSON request
 * bodies, ordered key/value lists (query strings and payloads), splitting and
 * joining on a separator, and the decimal rendering of integers.
 */
module Common {

  datatype Option<+T> = None | Some(value: T) {
    function GetOr(default: T): T {
      match this
      case Some(v) => v
      case None => default
    }
  }

  /** A JSON value as it appears in a request body sent to the backend. */
  datatype Json =
    | JNull
    | JBool(b: bool)
    | JNum(n: int)
    | JStr(s: string)
    | JArr(items: seq<Json>)
    | JObj(fields: seq<(string, Json)>)

  /** One query-string parameter: a key and its (unencoded) value. */
  type Param = (string, string)

  /** The keys of an ordered key/value list, in order. */
  function Keys<V>(kvs: seq<(string, V)>): (ks: seq<string>)
    ensures |ks| == |kvs|
    ensures forall i :: 0 <= i < |kvs| ==> ks[i] == kvs[i].0
  {
    if kvs == [] then [] else [kvs[0].0] + Keys(kvs[1..])
  }

  /** The value of the first entry with the given key, as `URLSearchParams.get` returns it. */
  function ValueOf<V>(kvs: seq<(string, V)>, key: string): (r: Option<V>)
    ensures r.None? <==> key !in Keys(kvs)
  {
    if kvs == [] then None
    else if kvs[0].0 == key then Some(kvs[0].1)
    else ValueOf(kvs[1..], key)
  }

  /** The value at position i is the one found for its key when no earlier entry has that key. */
  lemma {:induction false} ValueOfAt<V>(kvs: seq<(string, V)>, i: nat)
    requires i < |kvs|
    requires forall j :: 0 <= j < i ==> kvs[j].0 != kvs[i].0
    ensures ValueOf(kvs, kvs[i].0) == Some(kvs[i].1)
  {
    if i > 0 {
      ValueOfAt(kvs[1..], i - 1);
    }
  }

  lemma {:induction false} KeysAppend<V>(a: seq<(string, V)>, b: seq<(string, V)>)
    ensures Keys(a + b) == Keys(a) + Keys(b)
  {
    if a == [] {
      assert a + b == b;
    } else {
      assert (a + b)[1..] == a[1..] + b;
      KeysAppend(a[1..], b);
    }
  }

  /** Looking a key up in a concatenation looks in the first part, then in the second. */
  lemma {:induction false} ValueOfAppend<V>(a: seq<(string, V)>, b: seq<(string, V)>, key: string)
    ensures ValueOf(a + b, key) == if key in Keys(a) then ValueOf(a, key) else ValueOf(b, key)
  {
    if a == [] {
      assert a + b == b;
    } else {
      assert (a + b)[1..] == a[1..] + b;
      ValueOfAppend(a[1..], b, key);
      assert key in Keys(a) <==> key == a[0].0 || key in Keys(a[1..]);
    }
  }

  /** How many entries carry the given key. */
  function CountKey<V>(kvs: seq<(string, V)>, key: string): (n: nat)
    ensures n <= |kvs|
    ensures n == 0 <==> key !in Keys(kvs)
  {
    if kvs == [] then 0
    else (if kvs[0].0 == key then 1 else 0) + CountKey(kvs[1..], key)
  }

  lemma {:induction false} CountKeyAppend<V>(a: seq<(string, V)>, b: seq<(string, V)>, key: string)
    ensures CountKey(a + b, key) == CountKey(a, key) + CountKey(b, key)
  {
    if a == [] {
      assert a + b == b;
    } else {
      assert (a + b)[1..] == a[1..] + b;
      CountKeyAppend(a[1..], b, key);
    }
  }

  /** A list whose every entry carries the key has that key once per entry. */
  lemma {:induction false} CountKeyAll<V>(kvs: seq<(string, V)>, key: string)
    requires forall i :: 0 <= i < |kvs| ==> kvs[i].0 == key
    ensures CountKey(kvs, key) == |kvs|
  {
    if kvs != [] {
      CountKeyAll(kvs[1..], key);
    }
  }

  // ---------------------------------------------------------------------------
  // Splitting and joining on one separator character, with the semantics of
  // JavaScript's String.prototype.split(sep) and Array.prototype.join(sep).
  // ---------------------------------------------------------------------------

  /** `s.split(c)`: the maximal pieces between occurrences of `c`; "" gives [""]. */
  function Split(s: string, c: char): (parts: seq<string>)
    ensures |parts| >= 1
    decreases |s|
  {
    if |s| == 0 then [""]
    else if s[0] == c then [""] + Split(s[1..], c)
    else
      var rest := Split(s[1..], c);
      [[s[0]] + rest[0]] + rest[1..]
  }

  /** `parts.join(c)`. */
  function Join(parts: seq<string>, c: char): string
  {
    if |parts| == 0 then ""
    else if |parts| == 1 then parts[0]
    else parts[0] + [c] + Join(parts[1..], c)
  }

  /** No piece produced by `Split` contains the separator. */
  lemma {:induction false} SplitPiecesFree(s: string, c: char)
    ensures forall i :: 0 <= i < |Split(s, c)| ==> c !in Split(s, c)[i]
    decreases |s|
  {
    if |s| > 0 {
      SplitPiecesFree(s[1..], c);
    }
  }

  /** Joining the pieces of a split gives the original string back. */
  lemma {:induction false} JoinSplit(s: string, c: char)
    ensures Join(Split(s, c), c) == s
    decreases |s|
  {
    if |s| == 0 {
    } else if s[0] == c {
      JoinSplit(s[1..], c);
      assert s == [c] + s[1..];
    } else {
      JoinSplit(s[1..], c);
      var rest := Split(s[1..], c);
      if |rest| == 1 {
        assert s == [s[0]] + s[1..];
      } else {
        assert Join(rest, c) == rest[0] + [c] + Join(rest[1..], c);
        assert s == [s[0]] + s[1..];
      }
    }
  }

  lemma {:induction false} SplitNoSeparator(p: string, c: char)
    requires c !in p
    ensures Split(p, c) == [p]
    decreases |p|
  {
    if |p| > 0 {
      SplitNoSeparator(p[1..], c);
      assert p == [p[0]] + p[1..];
    }
  }

  lemma {:induction false} SplitAfterPiece(p: string, t: string, c: char)
    requires c !in p
    ensures Split(p + [c] + t, c) == [p] + Split(t, c)
    decreases |p|
  {
    if |p| == 0 {
      assert p + [c] + t == [c] + t;
      assert ([c] + t)[1..] == t;
    } else {
      var s := p + [c] + t;
      assert s[0] == p[0];
      assert s[1..] == p[1..] + [c] + t;
      SplitAfterPiece(p[1..], t, c);
      assert [p[0]] + p[1..] == p;
    }
  }

  /** Splitting a join gives the pieces back when no piece contains the separator. */
  lemma {:induction false} SplitJoin(parts: seq<string>, c: char)
    requires |parts| >= 1
    requires forall i :: 0 <= i < |parts| ==> c !in parts[i]
    ensures Split(Join(parts, c), c) == parts
    decreases |parts|
  {
    if |parts| == 1 {
      SplitNoSeparator(parts[0], c);
    } else {
      SplitJoin(parts[1..], c);
      SplitAfterPiece(parts[0], Join(parts[1..], c), c);
      assert parts == [parts[0]] + parts[1..];
    }
  }

  // ---------------------------------------------------------------------------
  // Truthiness fallbacks, toasts, and String.prototype.trim.
  // ---------------------------------------------------------------------------

  /** `s || fallback` for an optional string: a missing or empty string is falsy. */
  function OrElse(s: Option<string>, fallback: string): (r: string)
    ensures r == fallback || (s.Some? && r == s.value && r != "")
    ensures s.Some? && s.value != "" ==> r == s.value
    ensures fallback != "" ==> r != ""
  {
    if s.Some? && s.value != "" then s.value else fallback
  }

  /** One `addToast(message, type)` call. */
  datatype Notice = Notice(message: string, kind: string)

  /** The characters `trim` removes: ECMAScript WhiteSpace and LineTerminator. */
  predicate IsJsSpace(c: char) {
    || c == '\t' || c == '\n' || c == '\U{000B}' || c == '\U{000C}' || c == '\r' || c == ' '
    || c == '\U{00A0}' || c == '\U{1680}' || ('\U{2000}' <= c <= '\U{200A}')
    || c == '\U{2028}' || c == '\U{2029}' || c == '\U{202F}' || c == '\U{205F}'
    || c == '\U{3000}' || c == '\U{FEFF}'
  }

  function TrimStart(s: string): (r: string)
    ensures |r| <= |s| && r == s[|s| - |r|..]
    ensures r != [] ==> !IsJsSpace(r[0])
    ensures forall i :: 0 <= i < |s| - |r| ==> IsJsSpace(s[i])
  {
    if s != [] && IsJsSpace(s[0]) then TrimStart(s[1..]) else s
  }

  function TrimEnd(s: string): (r: string)
    ensures |r| <= |s| && r == s[..|r|]
    ensures r != [] ==> !IsJsSpace(r[|r| - 1])
    ensures forall i :: |r| <= i < |s| ==> IsJsSpace(s[i])
  {
    if s != [] && IsJsSpace(s[|s| - 1]) then TrimEnd(s[..|s| - 1]) else s
  }

  /** `s.trim()`. */
  function Trim(s: string): string
  {
    TrimEnd(TrimStart(s))
  }

  /** A string trims to "" exactly when every character in it is white space. */
  lemma TrimEmptyIff(s: string)
    ensures Trim(s) == "" <==> forall i :: 0 <= i < |s| ==> IsJsSpace(s[i])
  {
    var t := TrimStart(s);
    if Trim(s) == "" {
      assert t == [];
    }
  }

  /** `toUpperCase` restricted to ASCII: a-z map to A-Z, every other character is kept. */
  function UpperAscii(c: char): (u: char)
    ensures 'a' <= c <= 'z' ==> u as int == c as int - 32
    ensures !('a' <= c <= 'z') ==> u == c
  {
    if 'a' <= c <= 'z' then (c as int - 32) as char else c
  }

  // ---------------------------------------------------------------------------
  // Decimal rendering, as Number.prototype.toString() does for integers.
  // ---------------------------------------------------------------------------

  predicate IsDigit(ch: char) {
    '0' <= ch <= '9'
  }

  function DigitChar(d: nat): (ch: char)
    requires d < 10
    ensures IsDigit(ch) && DigitValue(ch) == d
  {
    ('0' as int + d) as char
  }

  function NatToString(n: nat): (s: string)
    ensures |s| >= 1
    ensures forall i :: 0 <= i < |s| ==> IsDigit(s[i])
    ensures |s| > 1 ==> s[0] != '0'
    decreases n
  {
    if n < 10 then [DigitChar(n)] else NatToString(n / 10) + [DigitChar(n % 10)]
  }

  function IntToString(i: int): (s: string)
    ensures |s| >= 1
  {
    if i < 0 then "-" + NatToString(-i) else NatToString(i)
  }

  function DigitValue(ch: char): (d: nat)
    requires IsDigit(ch)
    ensures d < 10
  {
    ch as int - '0' as int
  }

  /** The number a string of decimal digits denotes. */
  function DigitsValue(s: string): nat
    requires forall i :: 0 <= i < |s| ==> IsDigit(s[i])
  {
    if s == [] then 0
    else DigitsValue(s[..|s| - 1]) * 10 + DigitValue(s[|s| - 1])
  }

  /** Reading back the decimal rendering of a natural number gives that number. */
  lemma {:induction false} NatToStringRoundTrip(n: nat)
    ensures DigitsValue(NatToString(n)) == n
    decreases n
  {
    if n >= 10 {
      NatToStringRoundTrip(n / 10);
      var s := NatToString(n);
      assert s[..|s| - 1] == NatToString(n / 10);
    }
  }

  /** Distinct integers have distinct renderings. */
  lemma IntToStringInjective(i: int, j: int)
    requires IntToString(i) == IntToString(j)
    ensures i == j
  {
    if i < 0 && j < 0 {
      assert NatToString(-i) == IntToString(i)[1..];
      NatToStringRoundTrip(-i);
      NatToStringRoundTrip(-j);
    } else if i >= 0 && j >= 0 {
      NatToStringRoundTrip(i);
      NatToStringRoundTrip(j);
    }
  }
}

=== FILE: confirmation.dfy ===
/**
 * The confirmation dialog hook: `confirm` opens the question, Continue runs
 * the caller's `onConfirm` and records its result, OK and Cancel close the
 * dialog, and the dialog's own `onOpenChange` sets `isOpen`. Continue, OK and
 * Cancel are alert-dialog action and cancel buttons, which also call
 * `onOpenChange(false)` after their own click handler unless that handler
 * prevents the default.
 */
module Confirmation {
  import opened Common

  /** The result view's `status`. */
  datatype Status = Status(kind: string, message: string)

  /**
   * The hook's state: `isOpen`, the question in `config`, `status`, and how
   * the promise of the latest `confirm` was resolved (None while pending).
   */
  datatype Dialog = Dialog(isOpen: bool, title: string, description: string, status: Option<Status>,
                           answer: Option<bool>)

  const Initial := Dialog(false, "", "", None, None)

  /** How the awaited `onConfirm()` ended: a result with `data.success` and `data.message`, or a throw. */
  datatype ConfirmResult = Returned(success: bool, message: Option<string>) | Threw(message: Option<string>)

  /** What the dialog shows. */
  datatype DialogView = Closed | Question(title: string, description: string) | Result(status: Status)

  /** While `status` is set the result replaces the question. */
  function View(d: Dialog): (v: DialogView)
    ensures v == Closed <==> !d.isOpen
    ensures v.Result? <==> d.isOpen && d.status.Some?
    ensures v.Question? ==> v == Question(d.title, d.description)
  {
    if !d.isOpen then Closed
    else if d.status.Some? then Result(d.status.value)
    else Question(d.title, d.description)
  }

  /** `confirm({ title, description, onConfirm })`, as written: `status` is left as it was. */
  function ConfirmAsWritten(d: Dialog, title: string, description: string): (e: Dialog)
    ensures e.isOpen && e.title == title && e.description == description && e.answer.None?
    ensures e.status == d.status
  {
    d.(isOpen := true, title := title, description := description, answer := None)
  }

  /** `confirm` with `setStatus(null)` added: every question starts without a stale result. */
  function Confirm(d: Dialog, title: string, description: string): (e: Dialog)
    ensures e.isOpen && e.title == title && e.description == description && e.answer.None?
    ensures e.status.None?
  {
    d.(isOpen := true, title := title, description := description, status := None, answer := None)
  }

  /** Whatever state it is called in, the corrected `confirm` shows its own question. */
  lemma ConfirmShowsQuestion(d: Dialog, title: string, description: string)
    ensures View(Confirm(d, title, description)) == Question(title, description)
  {
  }

  /** The status the wrapped `onConfirm` records for a result. */
  function ResultStatus(r: ConfirmResult): (st: Status)
    ensures st.kind == "success" <==> r.Returned? && r.success
    ensures st.kind != "success" ==> st.kind == "error"
    ensures r.Returned? && r.success ==> st.message == OrElse(r.message, "Operation successful")
    ensures !(r.Returned? && r.success) ==> st.message == OrElse(r.message, "Operation failed")
    ensures st.message != ""
  {
    if r.Returned? && r.success then Status("success", OrElse(r.message, "Operation successful"))
    else Status("error", OrElse(r.message, "Operation failed"))
  }

  /**
   * Continue, as written: the click starts the wrapped `onConfirm` and the
   * action button then closes the dialog; when `onConfirm` settles, success
   * records the server's message (or "Operation successful") and resolves
   * true, anything else records the error (or "Operation failed") and
   * resolves false. A promise resolves only once.
   */
  function Continue(d: Dialog, r: ConfirmResult): (e: Dialog)
    ensures !e.isOpen && e.title == d.title && e.description == d.description
    ensures e.status == Some(ResultStatus(r))
    ensures d.answer.None? ==> e.answer == Some(r.Returned? && r.success)
    ensures d.answer.Some? ==> e.answer == d.answer
  {
    var ok := r.Returned? && r.success;
    d.(isOpen := false, status := Some(ResultStatus(r)), answer := if d.answer.None? then Some(ok) else d.answer)
  }

  /**
   * Continue with the click's default prevented, so the dialog stays open:
   * the same status and answer as `Continue`, and the dialog is still open.
   */
  function ContinueKeepOpen(d: Dialog, r: ConfirmResult): (e: Dialog)
    ensures e.isOpen == d.isOpen && e.title == d.title && e.description == d.description
    ensures e.status == Some(ResultStatus(r))
    ensures d.answer.None? ==> e.answer == Some(r.Returned? && r.success)
    ensures d.answer.Some? ==> e.answer == d.answer
  {
    var ok := r.Returned? && r.success;
    d.(status := Some(ResultStatus(r)), answer := if d.answer.None? then Some(ok) else d.answer)
  }

  /** OK on the result view: close and clear the result. */
  function Ok(d: Dialog): (e: Dialog)
    ensures !e.isOpen && e.status.None? && e.answer == d.answer
  {
    d.(isOpen := false, status := None)
  }

  /** Cancel on the question: close only; the promise stays pending and the status as it was. */
  function Cancel(d: Dialog): (e: Dialog)
    ensures !e.isOpen && e.status == d.status && e.answer == d.answer
  {
    d.(isOpen := false)
  }

  /** The dialog's `onOpenChange` (Escape closes an alert dialog). */
  function OpenChange(d: Dialog, open: bool): (e: Dialog)
    ensures e.isOpen == open && e.status == d.status && e.answer == d.answer
  {
    d.(isOpen := open)
  }

  /**
   * As written, Continue on the question closes the dialog at once, so the
   * result it records is never shown there; keeping the dialog open shows it.
   */
  lemma AsWrittenContinueHidesResult(d: Dialog, r: ConfirmResult)
    requires View(d).Question?
    ensures View(Continue(d, r)) == Closed && Continue(d, r).status == Some(ResultStatus(r))
    ensures View(ContinueKeepOpen(d, r)) == Result(ResultStatus(r))
  {
  }

  /** With the dialog kept open, Continue on the question shows the result until OK, which closes with no status. */
  lemma ContinueShowsResult(d: Dialog, r: ConfirmResult)
    requires View(d).Question?
    ensures View(ContinueKeepOpen(d, r)).Result?
    ensures View(Ok(ContinueKeepOpen(d, r))) == Closed && Ok(ContinueKeepOpen(d, r)).status.None?
  {
  }

  /**
   * As written: Continue leaves its status behind, so the next `confirm`
   * opens on the old result instead of its question, and that promise can
   * then only stay pending. The same happens after a kept-open result is
   * closed with Escape rather than OK.
   */
  lemma AsWrittenShowsStaleResult(d: Dialog, t1: string, s1: string, r: ConfirmResult, t2: string, s2: string)
    ensures View(ConfirmAsWritten(Continue(ConfirmAsWritten(d, t1, s1), r), t2, s2)) == Result(ResultStatus(r))
    ensures var shown := OpenChange(ContinueKeepOpen(ConfirmAsWritten(d, t1, s1), r), false);
      View(ConfirmAsWritten(shown, t2, s2)) == Result(ResultStatus(r))
  {
  }

  /** With the corrected `confirm`, the same sequences ask the new question. */
  lemma ConfirmAfterContinueAsks(d: Dialog, t1: string, s1: string, r: ConfirmResult, t2: string, s2: string)
    ensures View(Confirm(Continue(Confirm(d, t1, s1), r), t2, s2)) == Question(t2, s2)
    ensures var shown := OpenChange(ContinueKeepOpen(Confirm(d, t1, s1), r), false);
      View(Confirm(shown, t2, s2)) == Question(t2, s2)
  {
  }

  /**
   * The hook's state fields, with both corrections: `confirm` clears the
   * status and Continue keeps the dialog open until OK.
   */
  class ConfirmationHook {
    var isOpen: bool
    var title: string
    var description: string
    var status: Option<Status>
    var answer: Option<bool>

    function State(): Dialog
      reads this
    {
      Dialog(isOpen, title, description, status, answer)
    }

    constructor ()
      ensures State() == Initial
    {
      isOpen := false;
      title := "";
      description := "";
      status := None;
      answer := None;
    }

    method DoConfirm(t: string, d: string)
      modifies this
      ensures State() == Confirm(old(State()), t, d)
    {
      title := t;
      description := d;
      status := None;
      answer := None;
      isOpen := true;
    }

    /** Continue with the dialog kept open, allowed only while the question is shown. */
    method DoContinue(r: ConfirmResult)
      requires View(State()).Question?
      modifies this
      ensures State() == ContinueKeepOpen(old(State()), r)
    {
      var ok := r.Returned? && r.success;
      status := Some(ResultStatus(r));
      if answer.None? {
        answer := Some(ok);
      }
    }

    method DoOk()
      requires View(State()).Result?
      modifies this
      ensures State() == Ok(old(State()))
    {
      isOpen := false;
      status := None;
    }

    method DoCancel()
      requires View(State()).Question?
      modifies this
      ensures State() == Cancel(old(State()))
    {
      isOpen := false;
    }

    method OnOpenChange(open: bool)
      modifies this
      ensures State() == OpenChange(old(State()), open)
    {
      isOpen := open;
    }
  }
}

=== FILE: dashboard_stats.dfy ===
/** The dashboard's stat cards and the views chart's axis labels. */
module DashboardStats {
  import opened Common

  /** The statistics the cards read; growth figures are optional (`undefined` when absent). */
  datatype Stats = Stats(totalPosts: int, totalViews: int, postsGrowth: Option<int>, viewsGrowth: Option<int>)

  /** A growth line: the trend arrow, its colour, and the magnitude shown before "% from last month". */
  datatype GrowthLine = GrowthLine(up: bool, colour: string, magnitude: nat)

  function Growth(growth: Option<int>): (g: Option<GrowthLine>)
    ensures g.None? <==> growth.None?
    ensures g.Some? ==> (g.value.up <==> growth.value >= 0)
    ensures g.Some? ==> (g.value.colour == "text-green-500" <==> growth.value >= 0)
    ensures g.Some? ==> (g.value.colour == "text-red-500" <==> growth.value < 0)
    ensures g.Some? ==> g.value.magnitude == if growth.value < 0 then -growth.value else growth.value
  {
    match growth
    case None => None
    case Some(v) =>
      if v >= 0 then Some(GrowthLine(true, "text-green-500", v)) else Some(GrowthLine(false, "text-red-500", -v))
  }

  /** The arrow and the magnitude together give the growth back. */
  lemma GrowthRoundTrip(v: int)
    ensures var g := Growth(Some(v)).value;
      v == if g.up then g.magnitude as int else -(g.magnitude as int)
  {
  }

  /** A stat card: its title, value, and growth line if any. */
  datatype StatCard = StatCard(title: string, value: int, growth: Option<GrowthLine>)

  /** Nothing without stats; otherwise the posts and views cards with their growth lines. */
  function Cards(stats: Option<Stats>): (cards: Option<seq<StatCard>>)
    ensures cards.None? <==> stats.None?
    ensures cards.Some? ==> cards.value == [StatCard("Total Posts", stats.value.totalPosts, Growth(stats.value.postsGrowth)),
                                            StatCard("Total Views", stats.value.totalViews, Growth(stats.value.viewsGrowth))]
  {
    match stats
    case None => None
    case Some(s) => Some([StatCard("Total Posts", s.totalPosts, Growth(s.postsGrowth)),
                          StatCard("Total Views", s.totalViews, Growth(s.viewsGrowth))])
  }

  /** The axis tick for an article title: `value.substring(0, 20) + '...'`. */
  function TickLabel(title: string): (tick: string)
    ensures |tick| <= 23 && |tick| >= 3
    ensures tick[|tick| - 3..] == "..."
    ensures tick[..|tick| - 3] <= title
    ensures |title| >= 20 ==> |tick| == 23
    ensures |title| < 20 ==> tick == title + "..."
  {
    var n := if |title| < 20 then |title| else 20;
    title[..n] + "..."
  }
}

=== FILE: edit_article.dfy ===
/**
 * The article edit page: the form values reset from the stored article, the
 * image kept unless a new file is chosen, the PATCH body, and what a
 * submission does.
 */
module EditArticle {
  import opened Common
  import opened Listing
  import opened AddArticle

  /** The stored article fields the page reads (`data.data` of `GET /articles/:id`). */
  datatype StoredArticle = StoredArticle(title: string, image: string, publisher: string, publisherName: string,
                                         tags: seq<SelectOption>, description: string, content: string,
                                         status: string, isPremium: bool, views: int)

  /** The values `reset` puts in the form: the publisher option is rebuilt from the id and the name. */
  function ResetValues(a: StoredArticle): (v: ArticleForm)
    ensures v.publisher == SelectOption(a.publisher, a.publisherName)
    ensures v.title == a.title && v.description == a.description && v.content == a.content && v.tags == a.tags
  {
    ArticleForm(a.title, SelectOption(a.publisher, a.publisherName), a.tags, a.description, a.content)
  }

  /** The PATCH body: only the editable fields and the time of the edit. */
  datatype EditData = EditData(title: string, image: string, publisher: string, publisherName: string,
                               tags: Json, description: string, content: string, updatedAt: string)

  const EditKeys: seq<string> := ["title", "image", "publisher", "publisherName", "tags", "description",
    "content", "updatedAt"]

  /** The JSON object sent, with its keys in order. */
  function EditJson(d: EditData): (r: seq<(string, Json)>)
    ensures Keys(r) == EditKeys
  {
    [("title", JStr(d.title)), ("image", JStr(d.image)), ("publisher", JStr(d.publisher)),
     ("publisherName", JStr(d.publisherName)), ("tags", d.tags), ("description", JStr(d.description)),
     ("content", JStr(d.content)), ("updatedAt", JStr(d.updatedAt))]
  }

  /** An edit never sends the moderation status, the premium flag or the view count. */
  lemma EditLeavesModerationAlone(d: EditData)
    ensures "status" !in Keys(EditJson(d)) && "isPremium" !in Keys(EditJson(d)) && "views" !in Keys(EditJson(d))
  {
    assert Keys(EditJson(d)) == EditKeys;
  }

  /** `articleData` built from the submitted values, the image URL and the time. */
  function EditPayload(v: ArticleForm, imageUrl: string, updatedAt: string): (d: EditData)
    ensures d.publisher == v.publisher.value && d.publisherName == v.publisher.caption
    ensures d.image == imageUrl && d.title == v.title && d.description == v.description && d.content == v.content
  {
    EditData(v.title, imageUrl, v.publisher.value, v.publisher.caption, OptionsJson(v.tags),
             v.description, v.content, updatedAt)
  }

  /** The body's tags read back as the submitted tags, value and label, in order. */
  lemma EditPayloadTags(v: ArticleForm, imageUrl: string, updatedAt: string)
    ensures EditPayload(v, imageUrl, updatedAt).tags.JArr?
    ensures OptionsFromItems(EditPayload(v, imageUrl, updatedAt).tags.items) == Some(v.tags)
  {
    OptionsJsonRoundTrip(v.tags);
  }

  /**
   * Submitting the reset form unchanged, with no new image, sends back exactly
   * the stored title, image, publisher id and name, tags and text.
   */
  lemma UnchangedEditKeepsArticle(a: StoredArticle, updatedAt: string)
    ensures var d := EditPayload(ResetValues(a), a.image, updatedAt);
      && d.title == a.title && d.image == a.image && d.publisher == a.publisher
      && d.publisherName == a.publisherName && d.description == a.description && d.content == a.content
      && d.tags.JArr? && OptionsFromItems(d.tags.items) == Some(a.tags)
  {
    EditPayloadTags(ResetValues(a), a.image, updatedAt);
  }

  /** How the PATCH ended: an answer with `response.success`, or a thrown error with its `message`. */
  datatype PatchResult = Patched(success: bool) | PatchThrew(errorMessage: Option<string>)

  /** What a submission did: the body sent, the toast shown, where it navigated. */
  datatype EditOutcome = EditOutcome(sent: Option<EditData>, toast: Option<Notice>, navigateTo: Option<string>)

  /** The message of the TypeError thrown by `article.image` when the article did not load. */
  const NoArticleMessage := "Cannot read properties of undefined (reading 'image')"

  /**
   * The image the body carries: `article.image`, replaced by the upload of the
   * newly chosen file when there is one.
   */
  method ChooseImage(current: string, newFile: bool, upload: Upload) returns (r: Option<string>)
    ensures !newFile ==> r == Some(current)
    ensures newFile ==> (r.Some? <==> upload.Uploaded?) && (upload.Uploaded? ==> r == Some(upload.url))
  {
    var imageUrl := current;
    if newFile {
      match upload
      case UploadFailed =>
        return None;
      case Uploaded(url) =>
        imageUrl := url;
    }
    r := Some(imageUrl);
  }

  /** `onSubmit` for the article `id`, given the stored article (if it loaded) and the outcomes of the calls. */
  function EditEffects(id: string, article: Option<StoredArticle>, v: ArticleForm, newFile: bool,
                       upload: Upload, updatedAt: string, patch: PatchResult): (o: EditOutcome)
    ensures o.sent.Some? ==> article.Some?
    ensures o.navigateTo.Some? ==> o.sent.Some?
    ensures o.sent.None? ==> o.toast.Some? && o.toast.value.kind == "error"
  {
    if article.None? then
      EditOutcome(None, Some(Notice(NoArticleMessage, "error")), None)
    else if newFile && upload.UploadFailed? then
      EditOutcome(None, Some(Notice(UploadFailedMessage, "error")), None)
    else
      var imageUrl := if newFile then upload.url else article.value.image;
      var d := EditPayload(v, imageUrl, updatedAt);
      match patch
      case Patched(true) => EditOutcome(Some(d), Some(Notice("Article updated successfully!", "success")),
                                        Some("/articles/" + id))
      case Patched(false) => EditOutcome(Some(d), None, None)
      case PatchThrew(m) => EditOutcome(Some(d), Some(Notice(OrElse(m, "Failed to update article"), "error")), None)
  }

  /**
   * The page navigates, to the article's own page, exactly when the PATCH
   * reports success; a refused edit shows nothing; a body is sent only when the
   * article is loaded and any new image uploaded, and it keeps the stored image
   * unless a new file was chosen.
   */
  lemma EditOutcomes(id: string, article: Option<StoredArticle>, v: ArticleForm, newFile: bool,
                     upload: Upload, updatedAt: string, patch: PatchResult)
    ensures var o := EditEffects(id, article, v, newFile, upload, updatedAt, patch);
      && (o.navigateTo.Some? <==> o.sent.Some? && patch == Patched(true))
      && (o.navigateTo.Some? ==> o.navigateTo.value == "/articles/" + id)
      && (o.sent.Some? <==> article.Some? && (newFile ==> upload.Uploaded?))
      && (article.Some? && newFile && upload.UploadFailed? ==> o.toast == Some(Notice("Failed to upload image", "error")))
      && (o.sent.Some? && !newFile ==> o.sent.value.image == article.value.image)
      && (o.sent.Some? && patch == Patched(false) ==> o.toast.None?)
      && (o.toast.Some? && o.toast.value.kind == "success" <==> o.navigateTo.Some?)
  {
  }

  /** The page's form values and `loading` flag. */
  class EditPage {
    var values: Option<ArticleForm>
    var loading: bool

    constructor ()
      ensures values.None? && !loading
    {
      values := None;
      loading := false;
    }

    /** The effect that runs once the article has loaded: the form is reset from it. */
    method ArticleLoaded(a: StoredArticle)
      modifies this`values
      ensures values == Some(ResetValues(a))
    {
      values := Some(ResetValues(a));
    }

    /** `onSubmit`: `loading` is raised for the calls and lowered again in the `finally`. */
    method OnSubmit(id: string, article: Option<StoredArticle>, v: ArticleForm, newFile: bool,
                    upload: Upload, updatedAt: string, patch: PatchResult) returns (o: EditOutcome)
      modifies this`loading
      ensures o == EditEffects(id, article, v, newFile, upload, updatedAt, patch)
      ensures !loading
    {
      loading := true;
      if article.None? {
        o := EditOutcome(None, Some(Notice(NoArticleMessage, "error")), None);
      } else {
        var image := ChooseImage(article.value.image, newFile, upload);
        if image.None? {
          o := EditOutcome(None, Some(Notice(UploadFailedMessage, "error")), None);
        } else {
          var d := EditPayload(v, image.value, updatedAt);
          match patch
          case Patched(true) =>
            o := EditOutcome(Some(d), Some(Notice("Article updated successfully!", "success")), Some("/articles/" + id));
          case Patched(false) =>
            o := EditOutcome(Some(d), None, None);
          case PatchThrew(m) =>
            o := EditOutcome(Some(d), Some(Notice(OrElse(m, "Failed to update article"), "error")), None);
        }
      }
      loading := false;
    }

    /** The submit button is disabled while submitting or uploading. */
    function SubmitDisabled(uploading: bool): (disabled: bool)
      reads this
      ensures disabled <==> loading || uploading
    {
      loading || uploading
    }
  }
}

=== FILE: listing.dfy ===
/**
 * What the article listings share. First, the query-string literal each builds from its page,
 * page size, search text, selected publisher option and selected tag options:
 * `page` and `limit` first, then `search`, `publisher` and `tags`, each present
 * only when its filter is set (the object-spread `x && {k: v}` idiom). The
 * parameters are an ordered key/value list; percent-encoding is not modelled.
 * Then the response destructuring with its defaults, the loading/empty/cards
 * choice for the grid, and the first-three-tags rule of each card.
 */
module Listing {
  import opened Common

  /** A react-select option: the value sent to the backend and the caption shown (its `label`). */
  datatype SelectOption = SelectOption(value: string, caption: string)

  /** `options.map((t) => t.value)`. */
  function OptionValues(options: seq<SelectOption>): (vs: seq<string>)
    ensures |vs| == |options|
    ensures forall i :: 0 <= i < |options| ==> vs[i] == options[i].value
  {
    if options == [] then [] else [options[0].value] + OptionValues(options[1..])
  }

  /** The three optional filters, in the order the literal spreads them. */
  function OptionalParams(search: string, publisher: Option<SelectOption>, tags: seq<SelectOption>): seq<Param>
  {
    (if search != "" then [("search", search)] else [])
    + (if publisher.Some? then [("publisher", publisher.value.value)] else [])
    + (if |tags| > 0 then [("tags", Join(OptionValues(tags), ','))] else [])
  }

  /** The whole literal: `page` as a decimal string, then `limit`, then the optional filters. */
  function ListingParams(page: int, limit: string, search: string, publisher: Option<SelectOption>,
                         tags: seq<SelectOption>): (q: seq<Param>)
    ensures 2 <= |q| <= 5
    ensures q[0] == ("page", IntToString(page)) && q[1] == ("limit", limit)
  {
    [("page", IntToString(page)), ("limit", limit)] + OptionalParams(search, publisher, tags)
  }

  /** The keys a listing literal can carry. */
  predicate IsListingKey(k: string) {
    k in {"page", "limit", "search", "publisher", "tags"}
  }

  /** `page` then `limit` come first; at most five pairs, each with a listing key. */
  lemma ListingHead(page: int, limit: string, search: string, publisher: Option<SelectOption>,
                    tags: seq<SelectOption>)
    ensures var q := ListingParams(page, limit, search, publisher, tags);
      && 2 <= |q| <= 5
      && q[0] == ("page", IntToString(page))
      && q[1] == ("limit", limit)
      && forall i :: 0 <= i < |q| ==> IsListingKey(q[i].0)
  {
  }

  /** A key outside the listing keys never occurs in the literal. */
  lemma ListingLacksKey(page: int, limit: string, search: string, publisher: Option<SelectOption>,
                        tags: seq<SelectOption>, key: string)
    requires !IsListingKey(key)
    ensures key !in Keys(ListingParams(page, limit, search, publisher, tags))
    ensures CountKey(ListingParams(page, limit, search, publisher, tags), key) == 0
  {
    ListingHead(page, limit, search, publisher, tags);
  }

  /** `search` is sent iff the search text is non-empty, and then carries that text. */
  lemma {:induction false} ListingSearchIff(page: int, limit: string, search: string,
                                            publisher: Option<SelectOption>, tags: seq<SelectOption>)
    ensures ValueOf(ListingParams(page, limit, search, publisher, tags), "search")
         == if search != "" then Some(search) else None
  {
    var s := if search != "" then [("search", search)] else [];
    var p := if publisher.Some? then [("publisher", publisher.value.value)] else [];
    var t := if |tags| > 0 then [("tags", Join(OptionValues(tags), ','))] else [];
    var head := [("page", IntToString(page)), ("limit", limit)];
    assert ListingParams(page, limit, search, publisher, tags) == head + (s + (p + t));
    ValueOfAppend(head, s + (p + t), "search");
    ValueOfAppend(s, p + t, "search");
    ValueOfAppend(p, t, "search");
  }

  /** `publisher` is sent iff an option is selected, and then carries the option's value. */
  lemma {:induction false} ListingPublisherIff(page: int, limit: string, search: string,
                                               publisher: Option<SelectOption>, tags: seq<SelectOption>)
    ensures ValueOf(ListingParams(page, limit, search, publisher, tags), "publisher")
         == if publisher.Some? then Some(publisher.value.value) else None
  {
    var s := if search != "" then [("search", search)] else [];
    var p := if publisher.Some? then [("publisher", publisher.value.value)] else [];
    var t := if |tags| > 0 then [("tags", Join(OptionValues(tags), ','))] else [];
    var head := [("page", IntToString(page)), ("limit", limit)];
    assert ListingParams(page, limit, search, publisher, tags) == head + (s + (p + t));
    ValueOfAppend(head, s + (p + t), "publisher");
    ValueOfAppend(s, p + t, "publisher");
    ValueOfAppend(p, t, "publisher");
  }

  /** `tags` is sent iff at least one tag is selected, and then carries the values joined by ','. */
  lemma {:induction false} ListingTagsIff(page: int, limit: string, search: string,
                                          publisher: Option<SelectOption>, tags: seq<SelectOption>)
    ensures ValueOf(ListingParams(page, limit, search, publisher, tags), "tags")
         == if |tags| > 0 then Some(Join(OptionValues(tags), ',')) else None
  {
    var s := if search != "" then [("search", search)] else [];
    var p := if publisher.Some? then [("publisher", publisher.value.value)] else [];
    var t := if |tags| > 0 then [("tags", Join(OptionValues(tags), ','))] else [];
    var head := [("page", IntToString(page)), ("limit", limit)];
    assert ListingParams(page, limit, search, publisher, tags) == head + (s + (p + t));
    ValueOfAppend(head, s + (p + t), "tags");
    ValueOfAppend(s, p + t, "tags");
    ValueOfAppend(p, t, "tags");
  }

  /**
   * The joined `tags` value splits back, on ',', into the selected tag values in
   * selection order, provided no tag value itself contains a comma.
   */
  lemma TagsValueRoundTrip(tags: seq<SelectOption>)
    requires |tags| > 0
    requires forall i :: 0 <= i < |tags| ==> ',' !in tags[i].value
    ensures Split(Join(OptionValues(tags), ','), ',') == OptionValues(tags)
  {
    SplitJoin(OptionValues(tags), ',');
  }

  // ---------------------------------------------------------------------------
  // The listing response and the grid
  // ---------------------------------------------------------------------------

  /** A listing response body; either field may be missing. */
  datatype ListingResponse<A> = ListingResponse(data: Option<seq<A>>, totalPages: Option<int>)

  /**
   * `const { data: articles = [], totalPages = 1 } = articlesData`, where the
   * response itself defaults to `{}` while the query has not produced one.
   */
  function Destructure<A>(resp: Option<ListingResponse<A>>): (r: (seq<A>, int))
    ensures resp.None? ==> r == ([], 1)
    ensures resp.Some? && resp.value.data.Some? ==> r.0 == resp.value.data.value
    ensures resp.Some? && resp.value.data.None? ==> r.0 == []
    ensures resp.Some? && resp.value.totalPages.Some? ==> r.1 == resp.value.totalPages.value
    ensures resp.Some? && resp.value.totalPages.None? ==> r.1 == 1
  {
    match resp
    case None => ([], 1)
    case Some(ListingResponse(d, t)) => (d.GetOr([]), t.GetOr(1))
  }

  /** What the grid area shows: nine skeleton cards, the empty message, or one card per article. */
  datatype GridView = Skeleton | NoneFound | Cards(count: nat)

  function Grid(isLoading: bool, articleCount: nat): (v: GridView)
    ensures v.Cards? <==> !isLoading && articleCount > 0
    ensures v.Cards? ==> v.count == articleCount
    ensures v == Skeleton <==> isLoading
  {
    if isLoading then Skeleton else if articleCount == 0 then NoneFound else Cards(articleCount)
  }

  /** `article.tags.slice(0, 3)`: the tags a card displays. */
  function ShownTags<T>(tags: seq<T>): (shown: seq<T>)
    ensures |shown| == if |tags| < 3 then |tags| else 3
    ensures shown <= tags
  {
    if |tags| <= 3 then tags else tags[..3]
  }

  // ---------------------------------------------------------------------------
  // Tags in a request body
  // ---------------------------------------------------------------------------

  /** `{ value: tag.value, label: tag.label }`. */
  function OptionJson(o: SelectOption): Json
  {
    JObj([("value", JStr(o.value)), ("label", JStr(o.caption))])
  }

  /** `tags.map((tag) => ({ value: tag.value, label: tag.label }))`. */
  function OptionsJson(tags: seq<SelectOption>): (j: Json)
    ensures j.JArr? && |j.items| == |tags|
  {
    JArr(seq(|tags|, i requires 0 <= i < |tags| => OptionJson(tags[i])))
  }

  /** Reads an option object back from its JSON form. */
  function OptionFromJson(j: Json): Option<SelectOption>
  {
    match j
    case JObj(fields) =>
      var v: Option<Json> := ValueOf(fields, "value");
      var l: Option<Json> := ValueOf(fields, "label");
      if v.Some? && v.value.JStr? && l.Some? && l.value.JStr? then Some(SelectOption(v.value.s, l.value.s))
      else None
    case _ => None
  }

  lemma OptionJsonRoundTrip(o: SelectOption)
    ensures OptionFromJson(OptionJson(o)) == Some(o)
  {
    var fields := [("value", JStr(o.value)), ("label", JStr(o.caption))];
    assert fields[1..] == [("label", JStr(o.caption))];
    assert ValueOf(fields, "value") == Some(JStr(o.value));
    assert ValueOf(fields, "label") == Some(JStr(o.caption));
  }

  /** Reads an array of option objects back, failing if any element is not one. */
  function OptionsFromItems(items: seq<Json>): (r: Option<seq<SelectOption>>)
    ensures r.Some? ==> |r.value| == |items|
  {
    if items == [] then Some([])
    else match (OptionFromJson(items[0]), OptionsFromItems(items[1..]))
      case (Some(o), Some(rest)) => Some([o] + rest)
      case _ => None
  }

  lemma {:induction false} OptionsFromItemsRoundTrip(tags: seq<SelectOption>)
    ensures OptionsFromItems(OptionsJson(tags).items) == Some(tags)
  {
    var items := OptionsJson(tags).items;
    if tags != [] {
      assert items[1..] == OptionsJson(tags[1..]).items;
      OptionsFromItemsRoundTrip(tags[1..]);
      OptionJsonRoundTrip(tags[0]);
      assert [tags[0]] + tags[1..] == tags;
    }
  }

  /** The tags of a request body give back the selected tags, in order, value and label alike. */
  lemma OptionsJsonRoundTrip(tags: seq<SelectOption>)
    ensures OptionsJson(tags).JArr? && OptionsFromItems(OptionsJson(tags).items) == Some(tags)
  {
    OptionsFromItemsRoundTrip(tags);
  }
}

=== FILE: my_articles.dfy ===
/**
 * The author's own article table: ten rows per page numbered across pages, the
 * "Showing a to b of n" range, the status badge and its capitalised label, the
 * decline-reason button, the delete confirmation, and the page and reason
 * dialog state.
 */
module MyArticles {
  import opened Common
  import opened Paging

  /** Rows per page, fixed in the request (`limit=10`). */
  const PageSize: nat := 10

  // ---------------------------------------------------------------------------
  // Row numbers and the range line
  // ---------------------------------------------------------------------------

  /** The "No." cell of row `index` (0-based) on page `page`. */
  function RowNumber(page: int, index: int): (n: int)
    ensures 0 <= index < 10 ==> (page - 1) * 10 < n <= page * 10
    ensures n - index == (page - 1) * 10 + 1
  {
    (page - 1) * 10 + index + 1
  }

  /** On a page, the rows are numbered consecutively, starting right after the previous page's last row. */
  lemma RowNumbersConsecutive(page: int, index: int)
    ensures RowNumber(page, index + 1) == RowNumber(page, index) + 1
    ensures RowNumber(page + 1, 0) == RowNumber(page, 9) + 1
  {
  }

  /** Every row on every page has its own number: a number determines the page and the row. */
  lemma RowNumbersDistinct(p: int, i: int, q: int, j: int)
    requires 0 <= i < 10 && 0 <= j < 10
    requires RowNumber(p, i) == RowNumber(q, j)
    ensures p == q && i == j
  {
  }

  /** `Showing {from} to {to} of {total}`. */
  datatype RangeLine = RangeLine(from: int, to: int, total: int)

  function Range(page: int, total: int): (r: RangeLine)
    ensures r.to <= total && r.to <= page * 10
    ensures r.to == page * 10 || r.to == total
    ensures r.total == total
  {
    RangeLine((page - 1) * 10 + 1, if page * 10 < total then page * 10 else total, total)
  }

  /** How many rows a full listing of `total` articles puts on page `page`. */
  function RowsOnPage(page: int, total: nat): (n: nat)
    requires page >= 1
    ensures n <= PageSize
  {
    if (page - 1) * 10 >= total then 0
    else if total - (page - 1) * 10 < 10 then total - (page - 1) * 10
    else 10
  }

  /**
   * For a page inside [1, ceil(total/10)] the range runs from the first row's
   * number to the last row's number, and it lies within [1, total].
   */
  lemma RangeMatchesRows(page: int, total: nat)
    requires 1 <= page <= CeilDiv(total, PageSize)
    ensures RowsOnPage(page, total) >= 1
    ensures Range(page, total).from == RowNumber(page, 0)
    ensures Range(page, total).to == RowNumber(page, RowsOnPage(page, total) - 1)
    ensures 1 <= Range(page, total).from <= Range(page, total).to <= total
  {
    var t := CeilDiv(total, PageSize);
    assert (t - 1) * 10 < total;
    assert (page - 1) * 10 <= (t - 1) * 10;
  }

  // ---------------------------------------------------------------------------
  // Status cell
  // ---------------------------------------------------------------------------

  /** `status.charAt(0).toUpperCase() + status.slice(1)`. */
  function Capitalize(status: string): (shown: string)
    ensures |shown| == |status|
    ensures |status| > 0 ==> shown[0] == UpperAscii(status[0]) && shown[1..] == status[1..]
  {
    if status == "" then "" else [UpperAscii(status[0])] + status[1..]
  }

  /** The three known statuses are shown as "Pending", "Approved" and "Declined"; capitalising twice changes nothing more. */
  lemma CapitalizeStatuses(status: string)
    ensures Capitalize("pending") == "Pending"
    ensures Capitalize("approved") == "Approved"
    ensures Capitalize("declined") == "Declined"
    ensures Capitalize(Capitalize(status)) == Capitalize(status)
  {
  }

  /** `variants[status]`: the badge class, undefined for an unknown status. */
  function BadgeClass(status: string): (c: Option<string>)
    ensures c.Some? <==> status == "pending" || status == "approved" || status == "declined"
  {
    if status == "pending" then Some("bg-yellow-500/10 text-yellow-500 hover:bg-yellow-500/20")
    else if status == "approved" then Some("bg-green-500/10 text-green-500 hover:bg-green-500/20")
    else if status == "declined" then Some("bg-red-500/10 text-red-500 hover:bg-red-500/20")
    else None
  }

  /** The info button that opens the decline reason. */
  function ReasonButtonShown(status: string): (shown: bool)
    ensures shown <==> status == "declined"
  {
    status == "declined"
  }

  /** The Premium column. */
  function PremiumCell(isPremium: bool): (text: string)
    ensures text == "Yes" <==> isPremium
    ensures text == "No" <==> !isPremium
  {
    if isPremium then "Yes" else "No"
  }

  // ---------------------------------------------------------------------------
  // The response and the screen
  // ---------------------------------------------------------------------------

  /** The fields the page destructures from `data.data`; any may be missing. */
  datatype MyArticlesResponse<A> = MyArticlesResponse(articles: Option<seq<A>>, total: Option<int>, totalPages: Option<int>)

  /** `const { articles = [], total = 0, totalPages = 1 } = articlesData`, the data defaulting to `{}`. */
  function Destructure<A>(resp: Option<MyArticlesResponse<A>>): (r: (seq<A>, int, int))
    ensures resp.None? ==> r == ([], 0, 1)
    ensures resp.Some? ==> r == (resp.value.articles.GetOr([]), resp.value.total.GetOr(0), resp.value.totalPages.GetOr(1))
  {
    match resp
    case None => ([], 0, 1)
    case Some(MyArticlesResponse(a, n, t)) => (a.GetOr([]), n.GetOr(0), t.GetOr(1))
  }

  datatype MyArticlesScreen =
    | Spinner
    | NoArticles                                   // "No articles found" with "Write Your First Article"
    | Table(rows: seq<int>, range: Option<RangeLine>, pager: Option<PagerView>)

  /** The screen: the spinner while loading, the empty state, or the numbered rows with the pager strip. */
  function Screen(isLoading: bool, rowCount: nat, page: int, total: int, totalPages: int): (s: MyArticlesScreen)
    ensures s == Spinner <==> isLoading
    ensures s == NoArticles <==> !isLoading && rowCount == 0
    ensures s.Table? ==> |s.rows| == rowCount && forall k :: 0 <= k < rowCount ==> s.rows[k] == RowNumber(page, k)
    ensures s.Table? ==> (s.range.Some? <==> totalPages > 1) && (s.pager.Some? <==> totalPages > 1)
    ensures s.Table? && s.range.Some? ==> s.range.value == Range(page, total)
  {
    if isLoading then Spinner
    else if rowCount == 0 then NoArticles
    else Table(seq(rowCount, k => RowNumber(page, k)),
               if totalPages > 1 then Some(Range(page, total)) else None,
               Pager(page, totalPages))
  }

  // ---------------------------------------------------------------------------
  // Deleting
  // ---------------------------------------------------------------------------

  /** What a click on a row's delete button leads to. */
  datatype DeleteClick =
    | DeleteRequested(id: string)
    | NothingRequested
    | TypeErrorThrown(callee: string)

  /**
   * The delete button as written: the hook returns no `showConfirmation`, so
   * `handleDelete` calls `undefined` and its promise rejects with a TypeError
   * before anything is asked; no deletion is ever requested, whatever the
   * user would have answered.
   */
  function DeleteRequestAsWritten(id: string, wouldConfirm: bool): (c: DeleteClick)
    ensures c.TypeErrorThrown? && c.callee == "showConfirmation"
  {
    TypeErrorThrown("showConfirmation")
  }

  /** The delete button as intended: the article's id is sent for deletion exactly when the user confirms. */
  function DeleteRequest(id: string, confirmed: bool): (c: DeleteClick)
    ensures c.DeleteRequested? <==> confirmed
    ensures c.DeleteRequested? ==> c.id == id
    ensures !c.TypeErrorThrown?
  {
    if confirmed then DeleteRequested(id) else NothingRequested
  }

  /** Whatever the article and the answer, the button as written does not do what it is meant to. */
  lemma AsWrittenNeverDeletes(id: string, wouldConfirm: bool)
    ensures !DeleteRequestAsWritten(id, wouldConfirm).DeleteRequested?
    ensures DeleteRequestAsWritten(id, wouldConfirm) != DeleteRequest(id, wouldConfirm)
    ensures wouldConfirm ==> DeleteRequest(id, wouldConfirm) == DeleteRequested(id)
  {
  }

  /** The toast after the delete mutation settles. */
  function DeleteToast(succeeded: bool, errorMessage: Option<string>): (t: Notice)
    ensures succeeded ==> t == Notice("Article deleted successfully", "success")
    ensures !succeeded ==> t.kind == "error" && t.message != ""
  {
    if succeeded then Notice("Article deleted successfully", "success")
    else Notice(OrElse(errorMessage, "Failed to delete article"), "error")
  }

  // ---------------------------------------------------------------------------
  // Page state
  // ---------------------------------------------------------------------------

  /** `page`, `selectedReason` and `isReasonModalOpen`. */
  class MyArticlesPage {
    var page: int
    var selectedReason: Option<string>
    var reasonOpen: bool

    ghost predicate Valid()
      reads this
    {
      page >= 1
    }

    constructor ()
      ensures Valid() && page == 1 && selectedReason == None && !reasonOpen
    {
      page, selectedReason, reasonOpen := 1, None, false;
    }

    /** The info button of a declined row: shows that row's reason. */
    method ShowReason(reason: Option<string>)
      modifies this`selectedReason, this`reasonOpen
      requires Valid()
      ensures Valid()
      ensures selectedReason == reason && reasonOpen
    {
      selectedReason, reasonOpen := reason, true;
    }

    /** The reason dialog's `onOpenChange`; the selected reason is kept. */
    method OnReasonOpenChange(open: bool)
      modifies this`reasonOpen
      requires Valid()
      ensures Valid()
      ensures reasonOpen == open
    {
      reasonOpen := open;
    }

    method Previous()
      modifies this`page
      requires Valid()
      ensures Valid()
      ensures page == PrevPage(old(page))
    {
      page := PrevPage(page);
    }

    /** Rendered only when there is more than one page. */
    method Next(totalPages: int)
      modifies this`page
      requires Valid() && totalPages > 1
      ensures Valid()
      ensures page == NextPage(old(page), totalPages)
    {
      page := NextPage(page, totalPages);
    }
  }
}

=== FILE: navbar.dfy ===
/**
 * The navigation bar: which of the configured links a visitor sees, which
 * one is highlighted, and which account buttons are shown.
 */
module Navbar {
  import opened Common

  /** One configured link; a flag the literal omits is false. */
  datatype NavItem = NavItem(title: string, href: string, isProtected: bool, requiresSub: bool, adminOnly: bool)

  /** The signed-in user's `isAdmin` and `hasSubscription` (a missing property is false). */
  datatype Viewer = Viewer(isAdmin: bool, hasSubscription: bool)

  /** `navItems` as configured. */
  const NavItems: seq<NavItem> := [
    NavItem("Home", "/", false, false, false),
    NavItem("Add Articles", "/add-article", true, false, false),
    NavItem("All Articles", "/articles", false, false, false),
    NavItem("Subscription", "/subscription", true, false, false),
    NavItem("My Articles", "/my-articles", true, false, false),
    NavItem("Premium Articles", "/premium", true, false, false),
    NavItem("Dashboard", "/dashboard", true, false, false)
  ]

  /** The `filter` predicate: admin-only links need an admin, subscriber links a subscriber, protected links a user. */
  predicate Keep(item: NavItem, user: Option<Viewer>): (kept: bool)
    ensures kept && (item.isProtected || item.requiresSub || item.adminOnly) ==> user.Some?
    ensures user.Some? && user.value.isAdmin && user.value.hasSubscription ==> kept
    ensures !item.isProtected && !item.requiresSub && !item.adminOnly ==> kept
  {
    if item.adminOnly && !(user.Some? && user.value.isAdmin) then false
    else if item.requiresSub && !(user.Some? && user.value.hasSubscription) then false
    else if item.isProtected && user.None? then false
    else true
  }

  lemma KeepIff(item: NavItem, user: Option<Viewer>)
    ensures Keep(item, user) <==>
      && (item.adminOnly ==> user.Some? && user.value.isAdmin)
      && (item.requiresSub ==> user.Some? && user.value.hasSubscription)
      && (item.isProtected ==> user.Some?)
  {
  }

  /** `filteredItems`. */
  function Filtered(items: seq<NavItem>, user: Option<Viewer>): (r: seq<NavItem>)
    ensures |r| <= |items|
  {
    if items == [] then [] else (if Keep(items[0], user) then [items[0]] else []) + Filtered(items[1..], user)
  }

  /** A link is shown iff it is configured and the predicate keeps it. */
  lemma {:induction false} FilteredMembers(items: seq<NavItem>, user: Option<Viewer>)
    ensures forall x :: x in Filtered(items, user) <==> x in items && Keep(x, user)
  {
    if items != [] {
      FilteredMembers(items[1..], user);
      assert items == [items[0]] + items[1..];
    }
  }

  /**
   * Filtering works link by link and keeps the configured order: the links
   * kept from a list are those kept from its first part followed by those kept
   * from the rest.
   */
  lemma {:induction false} FilteredAppend(a: seq<NavItem>, b: seq<NavItem>, user: Option<Viewer>)
    ensures Filtered(a + b, user) == Filtered(a, user) + Filtered(b, user)
  {
    if a == [] {
      assert a + b == b;
    } else {
      var head := if Keep(a[0], user) then [a[0]] else [];
      assert (a + b)[0] == a[0] && (a + b)[1..] == a[1..] + b;
      assert Filtered(a + b, user) == head + Filtered(a[1..] + b, user);
      FilteredAppend(a[1..], b, user);
      assert Filtered(a, user) == head + Filtered(a[1..], user);
    }
  }

  lemma FilteredSingle(x: NavItem, user: Option<Viewer>)
    ensures Filtered([x], user) == if Keep(x, user) then [x] else []
  {
    assert [x][1..] == [];
  }

  /** A list whose every link is kept is shown whole. */
  lemma {:induction false} FilteredAllKept(items: seq<NavItem>, user: Option<Viewer>)
    requires forall i :: 0 <= i < |items| ==> Keep(items[i], user)
    ensures Filtered(items, user) == items
  {
    if items != [] {
      FilteredAllKept(items[1..], user);
    }
  }

  /** A list none of whose links is kept shows nothing. */
  lemma {:induction false} FilteredNoneKept(items: seq<NavItem>, user: Option<Viewer>)
    requires forall i :: 0 <= i < |items| ==> !Keep(items[i], user)
    ensures Filtered(items, user) == []
  {
    if items != [] {
      FilteredNoneKept(items[1..], user);
    }
  }

  /** A signed-out visitor sees exactly Home and All Articles. */
  lemma SignedOutSeesPublicLinks()
    ensures Filtered(NavItems, None) == [NavItems[0], NavItems[2]]
    ensures |Filtered(NavItems, None)| == 2
    ensures Filtered(NavItems, None)[0].title == "Home" && Filtered(NavItems, None)[1].title == "All Articles"
  {
    var n0, n1, n2 := NavItems[0], NavItems[1], NavItems[2];
    var tail := NavItems[3..];
    assert NavItems == [n0] + [n1] + [n2] + tail;
    assert Filtered(tail, None) == [] by {
      FilteredNoneKept(tail, None);
    }
    assert Filtered([n0], None) == [n0] by { FilteredSingle(n0, None); }
    assert Filtered([n1], None) == [] by { FilteredSingle(n1, None); }
    assert Filtered([n2], None) == [n2] by { FilteredSingle(n2, None); }
    FilteredAppend([n0] + [n1] + [n2], tail, None);
    FilteredAppend([n0] + [n1], [n2], None);
    FilteredAppend([n0], [n1], None);
  }

  /** With the flags as configured, any signed-in user sees all seven links. */
  lemma SignedInSeesAll(v: Viewer)
    ensures Filtered(NavItems, Some(v)) == NavItems
  {
    assert forall i :: 0 <= i < |NavItems| ==> !NavItems[i].adminOnly && !NavItems[i].requiresSub;
    FilteredAllKept(NavItems, Some(v));
  }

  /** A link is highlighted iff the current path is its `href`. */
  function IsActive(pathname: string, item: NavItem): (active: bool)
    ensures active <==> pathname == item.href
  {
    pathname == item.href
  }

  /** No two configured links share an `href`, so at most one is highlighted. */
  lemma AtMostOneActive(pathname: string, i: nat, j: nat)
    requires i < |NavItems| && j < |NavItems|
    requires IsActive(pathname, NavItems[i]) && IsActive(pathname, NavItems[j])
    ensures i == j
  {
    assert forall k, l :: 0 <= k < l < |NavItems| ==> |NavItems[k].href| != |NavItems[l].href| || NavItems[k].href[1] != NavItems[l].href[1];
  }

  /** The account area: Login and Register for a visitor, the profile menu and Log out for a user. */
  datatype AccountArea = LoginRegister | ProfileMenu

  function AccountAreaFor(user: Option<Viewer>): (a: AccountArea)
    ensures a == LoginRegister <==> user.None?
  {
    if user.Some? then ProfileMenu else LoginRegister
  }
}

=== FILE: pagination.dfy ===
/**
 * The numbered pager component: its page count, the windowed list of page
 * buttons it renders, and the `page` state that a click on a number updates.
 */
module Pagination {
  import opened Paging

  /** One rendered button: a page number, or the disabled `'...'` gap. */
  datatype PageItem = Number(n: int) | Gap

  /** `Math.ceil(totalItems / itemsPerPage)`. */
  function TotalPages(totalItems: nat, itemsPerPage: nat): (pages: nat)
    requires itemsPerPage > 0
    ensures pages == 0 <==> totalItems == 0
    ensures totalItems <= pages * itemsPerPage < totalItems + itemsPerPage
  {
    CeilDiv(totalItems, itemsPerPage)
  }

  /** `getVisiblePages()` for the current page and page count. */
  function VisiblePages(page: int, totalPages: nat): (items: seq<PageItem>)
    ensures |items| <= 7
    ensures items == [] <==> totalPages == 0
    ensures totalPages > 0 ==> items[0] == Number(1) && items[|items| - 1] == Number(totalPages)
    ensures Gap in items ==> totalPages > 5
  {
    if totalPages <= 5 then seq(totalPages, i => Number(i + 1))
    else if page <= 3 then [Number(1), Number(2), Number(3), Gap, Number(totalPages)]
    else if page >= totalPages - 2 then
      [Number(1), Gap, Number(totalPages - 2), Number(totalPages - 1), Number(totalPages)]
    else [Number(1), Gap, Number(page - 1), Number(page), Number(page + 1), Gap, Number(totalPages)]
  }

  /** No items gives no pages, so no buttons at all. */
  lemma NoItemsNoButtons(itemsPerPage: nat)
    requires itemsPerPage > 0
    ensures TotalPages(0, itemsPerPage) == 0
    ensures VisiblePages(1, TotalPages(0, itemsPerPage)) == []
  {
  }

  /** Up to five pages: every page, in order, and no gap. */
  lemma FewPagesAllShown(page: int, totalPages: nat)
    requires totalPages <= 5
    ensures |VisiblePages(page, totalPages)| == totalPages
    ensures forall i :: 0 <= i < totalPages ==> VisiblePages(page, totalPages)[i] == Number(i + 1)
  {
  }

  /** The three shapes used beyond five pages. */
  lemma ManyPagesShapes(page: int, totalPages: nat)
    requires totalPages > 5
    ensures page <= 3 ==>
      VisiblePages(page, totalPages) == [Number(1), Number(2), Number(3), Gap, Number(totalPages)]
    ensures 3 < page && page >= totalPages - 2 ==>
      VisiblePages(page, totalPages)
        == [Number(1), Gap, Number(totalPages - 2), Number(totalPages - 1), Number(totalPages)]
    ensures 3 < page < totalPages - 2 ==>
      VisiblePages(page, totalPages)
        == [Number(1), Gap, Number(page - 1), Number(page), Number(page + 1), Gap, Number(totalPages)]
  {
  }

  /**
   * The shape every pager list has for a page in range: at most seven buttons,
   * first 1 and last totalPages, numbers strictly increasing inside
   * [1, totalPages], the current page among them, adjacent numbers consecutive,
   * and every gap standing between two numbers that skip at least one page.
   */
  predicate WellFormedPager(items: seq<PageItem>, page: int, totalPages: nat)
  {
    && 1 <= |items| <= 7
    && items[0] == Number(1)
    && items[|items| - 1] == Number(totalPages)
    && (forall i :: 0 <= i < |items| && items[i].Number? ==> 1 <= items[i].n <= totalPages)
    && (forall i, j :: 0 <= i < j < |items| && items[i].Number? && items[j].Number? ==> items[i].n < items[j].n)
    && Number(page) in items
    && (forall i :: 0 <= i < |items| - 1 && items[i].Number? && items[i + 1].Number? ==> items[i + 1].n == items[i].n + 1)
    && (forall i :: 0 <= i < |items| && items[i] == Gap ==>
          0 < i < |items| - 1 && items[i - 1].Number? && items[i + 1].Number? && items[i + 1].n >= items[i - 1].n + 2)
  }

  lemma VisiblePagesWellFormed(page: int, totalPages: nat)
    requires 1 <= page <= totalPages
    ensures WellFormedPager(VisiblePages(page, totalPages), page, totalPages)
  {
    if totalPages <= 5 {
      AllPagesWellFormed(page, totalPages);
    } else if page <= 3 {
      LowWindowWellFormed(page, totalPages);
    } else if page >= totalPages - 2 {
      HighWindowWellFormed(page, totalPages);
    } else {
      MiddleWindowWellFormed(page, totalPages);
    }
  }

  lemma AllPagesWellFormed(page: int, totalPages: nat)
    requires 1 <= page <= totalPages <= 5
    ensures WellFormedPager(seq(totalPages, i => Number(i + 1)), page, totalPages)
  {
    var items := seq(totalPages, i => Number(i + 1));
    assert items[page - 1] == Number(page);
  }

  lemma LowWindowWellFormed(page: int, totalPages: nat)
    requires 1 <= page <= 3 && totalPages > 5
    ensures WellFormedPager([Number(1), Number(2), Number(3), Gap, Number(totalPages)], page, totalPages)
  {
    var items := [Number(1), Number(2), Number(3), Gap, Number(totalPages)];
    assert items[page - 1] == Number(page);
  }

  lemma HighWindowWellFormed(page: int, totalPages: nat)
    requires totalPages - 2 <= page <= totalPages && totalPages > 5
    ensures WellFormedPager([Number(1), Gap, Number(totalPages - 2), Number(totalPages - 1), Number(totalPages)], page, totalPages)
  {
    var items := [Number(1), Gap, Number(totalPages - 2), Number(totalPages - 1), Number(totalPages)];
    assert items[page - totalPages + 4] == Number(page);
  }

  lemma MiddleWindowWellFormed(page: int, totalPages: nat)
    requires 3 < page < totalPages - 2
    ensures WellFormedPager([Number(1), Gap, Number(page - 1), Number(page), Number(page + 1), Gap, Number(totalPages)], page, totalPages)
  {
    var items := [Number(1), Gap, Number(page - 1), Number(page), Number(page + 1), Gap, Number(totalPages)];
    assert items[3] == Number(page);
  }

  /** A number taken from the rendered list of a page in range is itself a page in range. */
  lemma ClickedNumberInRange(page: int, totalPages: nat, item: PageItem)
    requires 1 <= page <= totalPages
    requires item in VisiblePages(page, totalPages) && item.Number?
    ensures 1 <= item.n <= totalPages
  {
    VisiblePagesWellFormed(page, totalPages);
  }

  /** The pager's state: the current `page`, over fixed item and page-size props. */
  class PaginationControl {
    var page: int
    const totalItems: nat
    const itemsPerPage: nat

    /** The page is 1, or inside [1, totalPages]. */
    ghost predicate Valid()
      reads this
    {
      itemsPerPage > 0 && (page == 1 || 1 <= page <= TotalPages(totalItems, itemsPerPage))
    }

    constructor (totalItems: nat, itemsPerPage: nat)
      requires itemsPerPage > 0
      ensures Valid()
      ensures this.totalItems == totalItems && this.itemsPerPage == itemsPerPage
      ensures page == 1
    {
      this.totalItems := totalItems;
      this.itemsPerPage := itemsPerPage;
      page := 1;
    }

    function Items(): seq<PageItem>
      reads this
      requires itemsPerPage > 0
    {
      VisiblePages(page, TotalPages(totalItems, itemsPerPage))
    }

    /** A button is highlighted ('default' variant) iff it shows the current page. */
    function IsCurrent(item: PageItem): (b: bool)
      reads this
    {
      item == Number(page)
    }

    /** A click on a rendered button: a number becomes the page, the gap does nothing. */
    method Click(item: PageItem)
      requires Valid() && item in Items()
      modifies this`page
      ensures Valid()
      ensures page == (if item.Number? then item.n else old(page))
    {
      if item.Number? {
        var t := TotalPages(totalItems, itemsPerPage);
        if page != 1 {
          ClickedNumberInRange(page, t, item);
        } else if t >= 1 {
          ClickedNumberInRange(page, t, item);
        }
        page := item.n;
      }
    }
  }
}

=== FILE: paging.dfy ===
/**
 * Paging arithmetic shared by the listing pages: the page count as the ceiling
 * of items over page size, the previous/next handlers `Math.max(1, p - 1)` and
 * `Math.min(totalPages, p + 1)`, and the previous/next control strip that is
 * shown only when there is more than one page.
 */
module Paging {
  import opened Common

  /** `Math.ceil(total / per)` for a non-negative count and a positive page size. */
  function CeilDiv(total: nat, per: nat): (pages: nat)
    requires per > 0
    ensures total <= pages * per
    ensures pages > 0 ==> (pages - 1) * per < total
  {
    if total == 0 then 0 else (total - 1) / per + 1
  }

  /** The ceiling is the only count with the two properties above. */
  lemma CeilDivUnique(total: nat, per: nat, pages: nat)
    requires per > 0
    requires total <= pages * per
    requires pages > 0 ==> (pages - 1) * per < total
    ensures pages == CeilDiv(total, per)
  {
    var c := CeilDiv(total, per);
    if pages < c {
      MulMonotone(pages, c - 1, per);
    } else if pages > c {
      MulMonotone(c, pages - 1, per);
    }
  }

  lemma MulMonotone(x: nat, y: nat, k: nat)
    requires x <= y
    ensures x * k <= y * k
  {
    assert y * k == x * k + (y - x) * k;
  }

  /** The previous-page handler. */
  function PrevPage(page: int): (p: int)
    ensures p >= 1 && p >= page - 1
    ensures p == 1 || p == page - 1
  {
    if page - 1 > 1 then page - 1 else 1
  }

  /** The next-page handler. */
  function NextPage(page: int, totalPages: int): (n: int)
    ensures n <= totalPages && n <= page + 1
    ensures n == totalPages || n == page + 1
  {
    if page + 1 < totalPages then page + 1 else totalPages
  }

  /** A page inside [1, totalPages] stays inside after either handler, moving by at most one. */
  lemma ClampKeepsPageInRange(page: int, totalPages: int)
    requires 1 <= page <= totalPages
    ensures 1 <= PrevPage(page) <= totalPages && 1 <= NextPage(page, totalPages) <= totalPages
    ensures PrevPage(page) == (if page == 1 then 1 else page - 1)
    ensures NextPage(page, totalPages) == (if page == totalPages then page else page + 1)
  {
  }

  /** The previous/next strip: present only when totalPages > 1; each button is disabled at its end. */
  datatype PagerView = PagerView(prevDisabled: bool, nextDisabled: bool)

  function Pager(page: int, totalPages: int): (v: Option<PagerView>)
    ensures v.Some? <==> totalPages > 1
    ensures v.Some? ==> (v.value.prevDisabled <==> page == 1) && (v.value.nextDisabled <==> page == totalPages)
  {
    if totalPages > 1 then Some(PagerView(page == 1, page == totalPages)) else None
  }

  /** Within range, a button is disabled exactly when pressing it would leave the page unchanged. */
  lemma PagerDisabledIffNoMove(page: int, totalPages: int)
    requires 1 <= page <= totalPages && totalPages > 1
    ensures Pager(page, totalPages).Some?
    ensures Pager(page, totalPages).value.prevDisabled <==> PrevPage(page) == page
    ensures Pager(page, totalPages).value.nextDisabled <==> NextPage(page, totalPages) == page
  {
  }

  /** The page sizes a rows-per-page selector offers: `[5, 10, 15, 20]`. */
  predicate IsPageSize(n: int): (ok: bool)
    ensures ok <==> 5 <= n <= 20 && n % 5 == 0
  {
    n == 5 || n == 10 || n == 15 || n == 20
  }
}

=== FILE: premium_articles.dfy ===
/**
 * The premium listing page: its nine-per-page query, the subscription gate that
 * both disables the fetch and replaces the page with a paywall, and the page
 * state that the filters and the previous/next buttons update.
 */
module PremiumArticles {
  import opened Common
  import opened Paging
  import opened Listing

  /** The premium `queryFn` parameters: the listing literal with `limit` = "9". */
  function PremiumQuery(page: int, search: string, publisher: Option<SelectOption>,
                        tags: seq<SelectOption>): (q: seq<Param>)
    ensures |q| >= 2 && q[0] == ("page", IntToString(page)) && q[1] == ("limit", "9")
    ensures "status" !in Keys(q)
  {
    ListingHead(page, "9", search, publisher, tags);
    ListingLacksKey(page, "9", search, publisher, tags, "status");
    ListingParams(page, "9", search, publisher, tags)
  }

  /** The optional filters follow the listing's present-iff rules. */
  lemma PremiumQueryFilters(page: int, search: string, publisher: Option<SelectOption>, tags: seq<SelectOption>)
    ensures var q := PremiumQuery(page, search, publisher, tags);
      && ValueOf(q, "search") == (if search != "" then Some(search) else None)
      && ValueOf(q, "publisher") == (if publisher.Some? then Some(publisher.value.value) else None)
      && ValueOf(q, "tags") == (if |tags| > 0 then Some(Join(OptionValues(tags), ',')) else None)
  {
    ListingSearchIff(page, "9", search, publisher, tags);
    ListingPublisherIff(page, "9", search, publisher, tags);
    ListingTagsIff(page, "9", search, publisher, tags);
  }

  /** What the page renders. */
  datatype PremiumScreen =
    | Paywall                                       // "Premium Content Awaits" with Subscribe Now
    | FetchError                                    // the error message with Go Home
    | Listing(grid: GridView, pager: Option<PagerView>)

  /**
   * The render decision: without a subscription the paywall, whatever the query
   * reports; then the error screen; otherwise the grid and the pager strip.
   */
  function Screen(hasSubscription: bool, isError: bool, isLoading: bool, articleCount: nat,
                  page: int, totalPages: int): (s: PremiumScreen)
    ensures s == Paywall <==> !hasSubscription
    ensures s == FetchError <==> hasSubscription && isError
    ensures s.Listing? ==> s.grid == Grid(isLoading, articleCount) && s.pager == Pager(page, totalPages)
  {
    if !hasSubscription then Paywall
    else if isError then FetchError
    else Listing(Grid(isLoading, articleCount), Pager(page, totalPages))
  }

  /** The query runs only for a subscriber (`enabled: hasSubscription`). */
  function FetchEnabled(hasSubscription: bool): (enabled: bool)
    ensures enabled <==> hasSubscription
  {
    hasSubscription
  }

  /** Without a subscription nothing is fetched and the paywall is all there is to see. */
  lemma NoSubscriptionNoArticles(isError: bool, isLoading: bool, articleCount: nat, page: int, totalPages: int)
    ensures !FetchEnabled(false)
    ensures Screen(false, isError, isLoading, articleCount, page, totalPages) == Paywall
  {
  }

  /** The page state: the current page and the three filters. */
  class PremiumPage {
    var page: int
    var search: string
    var publisher: Option<SelectOption>
    var tags: seq<SelectOption>

    ghost predicate Valid()
      reads this
    {
      page >= 1
    }

    constructor ()
      ensures Valid()
      ensures page == 1 && search == "" && publisher == None && tags == []
    {
      page, search, publisher, tags := 1, "", None, [];
    }

    /** The parameters the current state asks for. */
    function Query(): seq<Param>
      reads this
    {
      PremiumQuery(page, search, publisher, tags)
    }

    /** Typing in the search box; the page is kept as it is. */
    method SetSearch(value: string)
      modifies this
      requires Valid()
      ensures Valid()
      ensures search == value && page == old(page)
      ensures publisher == old(publisher) && tags == old(tags)
      ensures Query() == PremiumQuery(old(page), value, old(publisher), old(tags))
    {
      search := value;
    }

    /** Choosing or clearing the publisher; the page is kept as it is. */
    method SetPublisher(option: Option<SelectOption>)
      modifies this
      requires Valid()
      ensures Valid()
      ensures publisher == option && page == old(page)
      ensures search == old(search) && tags == old(tags)
      ensures Query() == PremiumQuery(old(page), old(search), option, old(tags))
    {
      publisher := option;
    }

    /** Changing the tag selection; the page is kept as it is. */
    method SetTags(options: seq<SelectOption>)
      modifies this
      requires Valid()
      ensures Valid()
      ensures tags == options && page == old(page)
      ensures search == old(search) && publisher == old(publisher)
      ensures Query() == PremiumQuery(old(page), old(search), old(publisher), options)
    {
      tags := options;
    }

    /** The previous button: `Math.max(1, p - 1)`. */
    method Previous()
      modifies this`page
      requires Valid()
      ensures Valid()
      ensures page == PrevPage(old(page))
    {
      page := PrevPage(page);
    }

    /** The next button, rendered only when there is more than one page: `Math.min(totalPages, p + 1)`. */
    method Next(totalPages: int)
      modifies this`page
      requires Valid() && totalPages > 1
      ensures Valid()
      ensures page == NextPage(old(page), totalPages)
    {
      page := NextPage(page, totalPages);
    }
  }
}

=== FILE: register_form.dfy ===
/**
 * The registration form: the password strength meter and its colour, the
 * field validators for email, password and confirmation, the 2 MB avatar
 * check, and the order of the steps `onSubmit` takes.
 */
module RegisterForm {
  import opened Common

  // ---------------------------------------------------------------------------
  // Character classes of the regular expressions
  // ---------------------------------------------------------------------------

  predicate IsUpper(c: char) { 'A' <= c <= 'Z' }
  predicate IsLetter(c: char) { 'A' <= c <= 'Z' || 'a' <= c <= 'z' }
  predicate IsAlnum(c: char) { IsLetter(c) || IsDigit(c) }

  /** `/[A-Z]/.test(p)`. */
  predicate HasUpper(p: string) { exists i :: 0 <= i < |p| && IsUpper(p[i]) }
  /** `/[0-9]/.test(p)`. */
  predicate HasDigit(p: string) { exists i :: 0 <= i < |p| && IsDigit(p[i]) }
  /** `/[^A-Za-z0-9]/.test(p)`. */
  predicate HasSpecial(p: string) { exists i :: 0 <= i < |p| && !IsAlnum(p[i]) }

  // ---------------------------------------------------------------------------
  // Strength meter
  // ---------------------------------------------------------------------------

  /** How many of the four criteria the password meets. */
  function Criteria(p: string): (n: nat)
    ensures n <= 4
  {
    (if |p| >= 6 then 1 else 0) + (if HasUpper(p) then 1 else 0)
    + (if HasDigit(p) then 1 else 0) + (if HasSpecial(p) then 1 else 0)
  }

  /** The score the meter shows: 25 per criterion met. */
  function Strength(p: string): (score: int)
    ensures score == 0 || score == 25 || score == 50 || score == 75 || score == 100
    ensures score == 25 * Criteria(p)
  {
    25 * Criteria(p)
  }

  /** `getStrength`: the score accumulated with `+=` one criterion at a time. */
  method GetStrength(password: string) returns (score: int)
    ensures score == Strength(password)
    ensures 0 <= score <= 100
  {
    score := 0;
    if |password| >= 6 { score := score + 25; }
    if HasUpper(password) { score := score + 25; }
    if HasDigit(password) { score := score + 25; }
    if HasSpecial(password) { score := score + 25; }
  }

  /** Typing more characters never lowers the score. */
  lemma StrengthMonotone(p: string, more: string)
    ensures Strength(p) <= Strength(p + more)
  {
    var q := p + more;
    if HasUpper(p) {
      var i :| 0 <= i < |p| && IsUpper(p[i]);
      assert q[i] == p[i];
    }
    if HasDigit(p) {
      var i :| 0 <= i < |p| && IsDigit(p[i]);
      assert q[i] == p[i];
    }
    if HasSpecial(p) {
      var i :| 0 <= i < |p| && !IsAlnum(p[i]);
      assert q[i] == p[i];
    }
  }

  /** The bar's colour class. */
  function StrengthColour(strength: int): (colour: string)
    ensures strength <= 25 ==> colour == "bg-red-500"
    ensures 25 < strength <= 50 ==> colour == "bg-orange-500"
    ensures 50 < strength <= 75 ==> colour == "bg-yellow-500"
    ensures 75 < strength ==> colour == "bg-green-500"
  {
    if strength <= 25 then "bg-red-500"
    else if strength <= 50 then "bg-orange-500"
    else if strength <= 75 then "bg-yellow-500"
    else "bg-green-500"
  }

  /** Only a password meeting all four criteria turns the bar green. */
  lemma GreenIffAllCriteria(p: string)
    ensures StrengthColour(Strength(p)) == "bg-green-500" <==> Criteria(p) == 4
  {
  }

  // ---------------------------------------------------------------------------
  // Field validators (react-hook-form rules, checked in order)
  // ---------------------------------------------------------------------------

  /** ECMAScript line terminators, which `.` in a regular expression does not match. */
  predicate IsLineTerminator(c: char) {
    c == '\n' || c == '\r' || c == '\U{2028}' || c == '\U{2029}'
  }

  /** The part of the password before its first line terminator. */
  function FirstLine(p: string): (line: string)
    ensures line <= p
    ensures forall i :: 0 <= i < |line| ==> !IsLineTerminator(line[i])
    ensures (forall i :: 0 <= i < |p| ==> !IsLineTerminator(p[i])) ==> line == p
  {
    if p == [] || IsLineTerminator(p[0]) then [] else [p[0]] + FirstLine(p[1..])
  }

  /**
   * `/^(?=.*[A-Z])(?=.*[0-9])(?=.*[^A-Za-z0-9])/.test(p)`: each lookahead scans
   * with `.*` from the start, so `.*` covers only the first line. The upper-case
   * letter and the digit must lie inside it; the character class
   * `[^A-Za-z0-9]` matches a line terminator itself, so the special character
   * is either inside the first line or the terminator that ends it.
   */
  predicate PatternOk(p: string): (ok: bool)
    ensures ok ==> HasUpper(p) && HasDigit(p) && HasSpecial(p)
    ensures (forall i :: 0 <= i < |p| ==> !IsLineTerminator(p[i])) ==>
      (ok <==> HasUpper(p) && HasDigit(p) && HasSpecial(p))
  {
    var line := FirstLine(p);
    FirstLineCriteria(p);
    HasUpper(line) && HasDigit(line) && (HasSpecial(line) || line != p)
  }

  /** The password field's error, if any: required, then minimum length, then the pattern. */
  function PasswordError(p: string): (e: Option<string>)
    ensures e == None <==> |p| >= 6 && PatternOk(p)
    ensures p == "" ==> e == Some("Password is required")
    ensures 0 < |p| < 6 ==> e == Some("Password must be at least 6 characters")
    ensures |p| >= 6 && !PatternOk(p) ==> e == Some("Password must contain uppercase, number, and special character")
  {
    if p == "" then Some("Password is required")
    else if |p| < 6 then Some("Password must be at least 6 characters")
    else if !PatternOk(p) then Some("Password must contain uppercase, number, and special character")
    else None
  }

  /**
   * What the first line shows about the whole password; when the first line is
   * not all of it, the character after it is a line terminator, which is special.
   */
  lemma {:induction false} FirstLineCriteria(p: string)
    ensures HasUpper(FirstLine(p)) ==> HasUpper(p)
    ensures HasDigit(FirstLine(p)) ==> HasDigit(p)
    ensures HasSpecial(FirstLine(p)) ==> HasSpecial(p)
    ensures FirstLine(p) != p ==> HasSpecial(p)
  {
    var line := FirstLine(p);
    if HasUpper(line) {
      var i :| 0 <= i < |line| && IsUpper(line[i]);
      assert p[i] == line[i];
    }
    if HasDigit(line) {
      var i :| 0 <= i < |line| && IsDigit(line[i]);
      assert p[i] == line[i];
    }
    if HasSpecial(line) {
      var i :| 0 <= i < |line| && !IsAlnum(line[i]);
      assert p[i] == line[i];
    }
    if line != p {
      FirstLineEndsAtTerminator(p);
      assert !IsAlnum(p[|line|]);
    }
  }

  /** Where the first line stops short of the password, a line terminator follows it. */
  lemma {:induction false} FirstLineEndsAtTerminator(p: string)
    requires FirstLine(p) != p
    ensures |FirstLine(p)| < |p| && IsLineTerminator(p[|FirstLine(p)|])
  {
    if p != [] && !IsLineTerminator(p[0]) {
      FirstLineEndsAtTerminator(p[1..]);
    }
  }

  /**
   * An accepted password meets all four criteria, so it scores 100; acceptance
   * is exactly length at least 6 with an upper-case letter and a digit in the
   * first line and a special character in it or ending it, which for a
   * single-line password (what a password input holds) is an upper-case
   * letter, a digit and a special character anywhere.
   */
  lemma PasswordAcceptedIff(p: string)
    ensures PasswordError(p) == None ==> Strength(p) == 100
    ensures PasswordError(p) == None <==>
      |p| >= 6 && HasUpper(FirstLine(p)) && HasDigit(FirstLine(p)) && (HasSpecial(FirstLine(p)) || FirstLine(p) != p)
    ensures (forall i :: 0 <= i < |p| ==> !IsLineTerminator(p[i])) ==>
      (PasswordError(p) == None <==> |p| >= 6 && HasUpper(p) && HasDigit(p) && HasSpecial(p))
  {
  }

  /** A line followed by a line terminator has that line as its first line. */
  lemma {:induction false} FirstLineOfTerminated(line: string, t: char)
    requires forall i :: 0 <= i < |line| ==> !IsLineTerminator(line[i])
    requires IsLineTerminator(t)
    ensures FirstLine(line + [t]) == line
  {
    if line != [] {
      assert (line + [t])[1..] == line[1..] + [t];
      FirstLineOfTerminated(line[1..], t);
    }
  }

  /** A line with an upper-case letter and a digit, ended by a line terminator, passes the pattern. */
  lemma TerminatedLineAccepted(line: string, t: char)
    requires forall i :: 0 <= i < |line| ==> !IsLineTerminator(line[i])
    requires IsLineTerminator(t) && HasUpper(line) && HasDigit(line) && |line| >= 5
    ensures PasswordError(line + [t]) == None
  {
    FirstLineOfTerminated(line, t);
    assert FirstLine(line + [t]) != line + [t];
  }

  /** A password whose special character is the line separator that ends its only line is accepted. */
  lemma SeparatorCountsAsSpecial()
    ensures PasswordError("Abc123\U{2028}") == None
  {
    var line := "Abc123";
    assert IsUpper(line[0]) && IsDigit(line[3]);
    TerminatedLineAccepted(line, '\U{2028}');
    assert line + ['\U{2028}'] == "Abc123\U{2028}";
  }

  /** The confirmation field: required, then equal to the password being typed. */
  function ConfirmError(confirm: string, password: string): (e: Option<string>)
    ensures e == None <==> confirm != "" && confirm == password
    ensures confirm != "" && confirm != password ==> e == Some("Passwords don't match")
    ensures confirm == "" ==> e == Some("Please confirm your password")
  {
    if confirm == "" then Some("Please confirm your password")
    else if confirm != password then Some("Passwords don't match")
    else None
  }

  predicate IsLocalChar(c: char) { IsAlnum(c) || c == '.' || c == '_' || c == '%' || c == '+' || c == '-' }
  predicate IsDomainChar(c: char) { IsAlnum(c) || c == '.' || c == '-' }

  /**
   * `/^[A-Z0-9._%+-]+@[A-Z0-9.-]+\.[A-Z]{2,}$/i` matched with the `@` at `at`
   * and the dot before the top-level domain at `dot`.
   */
  predicate EmailAt(s: string, at: int, dot: int)
    requires 0 <= at < dot < |s|
  {
    && at > 0 && s[at] == '@' && (forall i :: 0 <= i < at ==> IsLocalChar(s[i]))
    && dot > at + 1 && (forall i :: at < i < dot ==> IsDomainChar(s[i]))
    && s[dot] == '.' && |s| - dot - 1 >= 2 && (forall i :: dot < i < |s| ==> IsLetter(s[i]))
  }

  /** The regular expression matches: some placement of the `@` and the last-part dot works. */
  predicate EmailMatches(s: string) {
    exists at, dot :: 0 <= at < dot < |s| && EmailAt(s, at, dot)
  }

  function IndexOf(s: string, c: char): (r: Option<nat>)
    ensures r.Some? ==> r.value < |s| && s[r.value] == c && forall i :: 0 <= i < r.value ==> s[i] != c
    ensures r.None? ==> forall i :: 0 <= i < |s| ==> s[i] != c
  {
    if s == [] then None
    else if s[0] == c then Some(0)
    else match IndexOf(s[1..], c)
      case None => None
      case Some(k) => Some(k + 1)
  }

  function LastIndexOf(s: string, c: char): (r: Option<nat>)
    ensures r.Some? ==> r.value < |s| && s[r.value] == c && forall i :: r.value < i < |s| ==> s[i] != c
    ensures r.None? ==> forall i :: 0 <= i < |s| ==> s[i] != c
  {
    if s == [] then None
    else if s[|s| - 1] == c then Some(|s| - 1)
    else LastIndexOf(s[..|s| - 1], c)
  }

  /** A direct check: the first `@` and the last `.` are the only candidates. */
  function EmailValid(s: string): (ok: bool)
    ensures ok ==> EmailMatches(s)
  {
    match (IndexOf(s, '@'), LastIndexOf(s, '.'))
    case (Some(at), Some(dot)) => at < dot && EmailAt(s, at, dot)
    case _ => false
  }

  /** The direct check accepts exactly the strings the regular expression matches. */
  lemma EmailValidIffMatches(s: string)
    ensures EmailValid(s) <==> EmailMatches(s)
  {
    if EmailMatches(s) {
      var at, dot :| 0 <= at < dot < |s| && EmailAt(s, at, dot);
      var a := IndexOf(s, '@');
      var d := LastIndexOf(s, '.');
      assert a.Some? && a.value == at;
      assert d.Some? && d.value == dot;
    }
  }

  /** The email field's error: required, then the pattern. */
  function EmailError(s: string): (e: Option<string>)
    ensures e == None <==> EmailMatches(s)
    ensures s == "" ==> e == Some("Email is required")
    ensures s != "" && !EmailMatches(s) ==> e == Some("Invalid email address")
  {
    EmailValidIffMatches(s);
    if s == "" then Some("Email is required")
    else if !EmailValid(s) then Some("Invalid email address")
    else None
  }

  /** "Sarah.J@example.com" passes. */
  lemma EmailAcceptsExample()
    ensures EmailError("Sarah.J@example.com") == None
  {
    assert EmailAt("Sarah.J@example.com", 7, 15);
  }

  /** A one-letter top-level domain does not. */
  lemma EmailRejectsShortDomain()
    ensures EmailError("a@b.c") == Some("Invalid email address")
  {
    assert IndexOf("a@b.c", '@') == Some(1);
    assert LastIndexOf("a@b.c", '.') == Some(3);
  }

  // ---------------------------------------------------------------------------
  // The avatar picker
  // ---------------------------------------------------------------------------

  /** A chosen file: its name and its size in bytes. */
  datatype AvatarFile = AvatarFile(name: string, size: nat)

  /** The largest accepted avatar, in bytes. */
  const MaxAvatarBytes: nat := 2000000

  /** The form's avatar value (undefined until a file is accepted). */
  class AvatarField {
    var avatar: Option<AvatarFile>

    constructor ()
      ensures avatar == None
    {
      avatar := None;
    }

    /**
     * `handleImageChange` with the first selected file, if any: a file over the
     * limit raises the error toast and leaves the value as it was; an accepted
     * file becomes the value; no file changes nothing.
     */
    method HandleImageChange(file: Option<AvatarFile>) returns (toast: Option<Notice>)
      modifies this
      ensures file.Some? && file.value.size > MaxAvatarBytes ==>
        avatar == old(avatar) && toast == Some(Notice("Image size should be less than 2MB", "error"))
      ensures file.Some? && file.value.size <= MaxAvatarBytes ==> avatar == file && toast == None
      ensures file.None? ==> avatar == old(avatar) && toast == None
    {
      toast := None;
      if file.Some? {
        if file.value.size > MaxAvatarBytes {
          toast := Some(Notice("Image size should be less than 2MB", "error"));
          return;
        }
        avatar := file;
      }
    }
  }

  // ---------------------------------------------------------------------------
  // onSubmit
  // ---------------------------------------------------------------------------

  datatype FormData = FormData(name: string, email: string, password: string, confirmPassword: string,
                               avatar: Option<AvatarFile>)

  /** The steps `onSubmit` takes, in order. */
  datatype Step =
    | MarkConfirmError(message: string)
    | UploadImage(file: AvatarFile)
    | SignUp(email: string, password: string)
    | UpdateProfile(name: string, photo: Option<string>)
    | PostUser(name: string, email: string, photo: Option<string>)
    | Toast(notice: Notice)

  /**
   * The awaited calls of a submission with matching passwords. `uploadedUrl` is
   * what the upload returns and `signedUpUser` whether sign-up returned a user.
   */
  function Calls(d: FormData, uploadedUrl: string, signedUpUser: bool): seq<Step>
  {
    var photo := if d.avatar.Some? then Some(uploadedUrl) else None;
    (if d.avatar.Some? then [UploadImage(d.avatar.value)] else [])
    + [SignUp(d.email, d.password)]
    + (if signedUpUser then [UpdateProfile(d.name, photo), PostUser(d.name, d.email, photo)] else [])
  }

  /**
   * The whole submission. `failsAt` names the first awaited call that throws
   * (its position among the calls, and its error message): the steps stop there
   * and the error toast follows. `displayName` is the signed-in user's display
   * name as the page last saw it, if there was a user.
   */
  function Submit(d: FormData, uploadedUrl: string, signedUpUser: bool, failsAt: Option<(nat, string)>,
                  displayName: Option<string>): (steps: seq<Step>)
    ensures |steps| >= 1
    ensures d.password == d.confirmPassword <==> steps[|steps| - 1].Toast?
    ensures forall k :: 0 <= k < |steps| - 1 ==> !steps[k].Toast? && !steps[k].MarkConfirmError?
    ensures d.password == d.confirmPassword ==>
      var calls := Calls(d, uploadedUrl, signedUpUser);
      if failsAt.Some? && failsAt.value.0 < |calls| then
        && |steps| == failsAt.value.0 + 2
        && steps[..failsAt.value.0 + 1] == calls[..failsAt.value.0 + 1]
        && steps[|steps| - 1] == Toast(Notice(failsAt.value.1, "error"))
      else
        && steps[..|steps| - 1] == calls
        && steps[|steps| - 1] == Toast(Notice("Welcome to KnowledgeHerald " + displayName.GetOr(""), "success"))
  {
    if d.password != d.confirmPassword then [MarkConfirmError("Passwords don't match")]
    else
      var calls := Calls(d, uploadedUrl, signedUpUser);
      if failsAt.Some? && failsAt.value.0 < |calls| then
        calls[..failsAt.value.0 + 1] + [Toast(Notice(failsAt.value.1, "error"))]
      else
        calls + [Toast(Notice("Welcome to KnowledgeHerald " + displayName.GetOr(""), "success"))]
  }

  /** A confirmation that differs from the password stops the submission before any upload or sign-up. */
  lemma MismatchStopsEarly(d: FormData, uploadedUrl: string, signedUpUser: bool, failsAt: Option<(nat, string)>,
                           displayName: Option<string>)
    requires d.password != d.confirmPassword
    ensures Submit(d, uploadedUrl, signedUpUser, failsAt, displayName) == [MarkConfirmError("Passwords don't match")]
    ensures forall s :: s in Submit(d, uploadedUrl, signedUpUser, failsAt, displayName) ==>
      !s.UploadImage? && !s.SignUp?
  {
  }

  /**
   * An image is uploaded only when an avatar is present, and the photo the
   * profile and the user record carry is the uploaded URL then, null otherwise.
   */
  lemma PhotoOnlyFromAvatar(d: FormData, uploadedUrl: string, signedUpUser: bool, failsAt: Option<(nat, string)>,
                            displayName: Option<string>)
    ensures var steps := Submit(d, uploadedUrl, signedUpUser, failsAt, displayName);
      forall k :: 0 <= k < |steps| ==>
        && (steps[k].UploadImage? ==> d.avatar == Some(steps[k].file))
        && (steps[k].UpdateProfile? ==> steps[k].photo == if d.avatar.Some? then Some(uploadedUrl) else None)
        && (steps[k].PostUser? ==> steps[k].photo == if d.avatar.Some? then Some(uploadedUrl) else None)
        && (steps[k].PostUser? ==> steps[k].name == d.name && steps[k].email == d.email)
    ensures d.password == d.confirmPassword && d.avatar.Some? ==>
      Submit(d, uploadedUrl, signedUpUser, failsAt, displayName)[0] == UploadImage(d.avatar.value)
  {
  }

  /** Sign-up always comes before the profile update and the user record, and a toast always ends the submission. */
  lemma SubmitEndsWithToast(d: FormData, uploadedUrl: string, signedUpUser: bool, failsAt: Option<(nat, string)>,
                            displayName: Option<string>)
    requires d.password == d.confirmPassword
    ensures var steps := Submit(d, uploadedUrl, signedUpUser, failsAt, displayName);
      |steps| >= 2 && steps[|steps| - 1].Toast?
      && forall k :: 0 <= k < |steps| && (steps[k].UpdateProfile? || steps[k].PostUser?) ==>
           exists j :: 0 <= j < k && steps[j] == SignUp(d.email, d.password)
  {
    var calls := Calls(d, uploadedUrl, signedUpUser);
    var steps := Submit(d, uploadedUrl, signedUpUser, failsAt, displayName);
    var j := if d.avatar.Some? then 1 else 0;
    assert calls[j] == SignUp(d.email, d.password);
    assert forall k :: 0 <= k < |calls| && (calls[k].UpdateProfile? || calls[k].PostUser?) ==> k > j;
    forall k | 0 <= k < |steps| && (steps[k].UpdateProfile? || steps[k].PostUser?)
      ensures exists j :: 0 <= j < k && steps[j] == SignUp(d.email, d.password)
    {
      assert k < |calls| && steps[k] == calls[k];
      assert steps[j] == calls[j];
    }
  }
}

=== FILE: route_guards.dfy ===
/**
 * Router locations and their history state, shared by the route guards and
 * the sign-in pages.
 */
module Routing {
  /** A router location: its path, query string and the state it was pushed with. */
  datatype Location = Location(pathname: string, search: string, state: HistoryState)

  /** The `state` a navigation carries: none, `{ from: location }`, or a bare path string. */
  datatype HistoryState = NoState | FromLocation(from: Location) | PathState(path: string)

  /** What a guard renders: the loader, the guarded page, or a `<Navigate replace>`. */
  datatype GuardView = Loader | Children | Redirect(to: string, state: HistoryState, replace: bool)
}

/** `PrivateRoutes`: pages for signed-in users only. */
module PrivateRoutes {
  import opened Routing

  function Guard(loading: bool, signedIn: bool, location: Location): (v: GuardView)
    ensures v == Loader <==> loading
    ensures v == Children <==> !loading && signedIn
    ensures v.Redirect? <==> !loading && !signedIn
    ensures v.Redirect? ==> v == Redirect("/login", FromLocation(location), true)
  {
    if loading then Loader
    else if signedIn then Children
    else Redirect("/login", FromLocation(location), true)
  }
}

/** `AdminRoutes`: pages for administrators only. */
module AdminRoutes {
  import opened Routing

  function Guard(loading: bool, isPending: bool, isLoading: bool, signedIn: bool, isAdmin: bool,
                 location: Location): (v: GuardView)
    ensures v == Loader <==> loading || isPending || isLoading
    ensures v == Children <==> !(loading || isPending || isLoading) && signedIn && isAdmin
    ensures v.Redirect? ==> v == Redirect("/dashboard", PathState(location.pathname), true)
  {
    if loading || isPending || isLoading then Loader
    else if signedIn && isAdmin then Children
    else Redirect("/dashboard", PathState(location.pathname), true)
  }

  /** Once the checks have settled, a user who is not an administrator is always sent to the dashboard. */
  lemma NonAdminNeverSeesChildren(loading: bool, isPending: bool, isLoading: bool, signedIn: bool,
                                  location: Location)
    ensures Guard(loading, isPending, isLoading, signedIn, false, location) != Children
    ensures !(loading || isPending || isLoading) ==>
      Guard(loading, isPending, isLoading, signedIn, false, location).Redirect?
  {
  }
}

/** `LoginPage` and `RegisterPage`: send a signed-in user back to where they came from. */
module AuthPages {
  import opened Routing
  import PrivateRoutes

  /** `location.state?.from?.pathname || '/'`. */
  function From(location: Location): (target: string)
    ensures target != ""
    ensures location.state.FromLocation? && location.state.from.pathname != "" ==>
      target == location.state.from.pathname
    ensures !(location.state.FromLocation? && location.state.from.pathname != "") ==> target == "/"
  {
    match location.state
    case FromLocation(from) => if from.pathname != "" then from.pathname else "/"
    case _ => "/"
  }

  /** What either page renders: a replacing redirect to `from`, or its form. */
  datatype AuthView = RedirectTo(target: string, replace: bool) | LoginForm | RegisterForm

  function LoginPage(signedIn: bool, location: Location): (v: AuthView)
    ensures v == LoginForm <==> !signedIn
    ensures signedIn ==> v == RedirectTo(From(location), true)
  {
    if signedIn then RedirectTo(From(location), true) else LoginForm
  }

  function RegisterPage(signedIn: bool, location: Location): (v: AuthView)
    ensures v == RegisterForm <==> !signedIn
    ensures signedIn ==> v == RedirectTo(From(location), true)
  {
    if signedIn then RedirectTo(From(location), true) else RegisterForm
  }

  /**
   * A visitor turned away from a private page is, once signed in on the login
   * page it was sent to, returned to that page.
   */
  lemma LoginReturnsToGuardedPage(guarded: Location)
    requires guarded.pathname != ""
    ensures var v := PrivateRoutes.Guard(false, false, guarded);
      v.Redirect? && v.to == "/login" &&
      LoginPage(true, Location(v.to, "", v.state)) == RedirectTo(guarded.pathname, true)
  {
  }
}

=== FILE: subscription.dfy ===
/**
 * The subscription plans, as the plans page and the home page's plan section
 * show them: the duration label, the plans ordered by `order`, the subscribe
 * button, and what `handleSubscribe` does with the payment intent.
 */
module Subscription {
  import opened Common

  /** A plan from `GET /plans` (the price, a float rendered with `toFixed`, is not modelled). */
  datatype Plan = Plan(id: string, name: string, order: int, duration: int, durationUnit: string, popular: bool)

  // ---------------------------------------------------------------------------
  // formatDuration
  // ---------------------------------------------------------------------------

  /** The units `formatDuration` knows, and the singular word each is written with. */
  function UnitWord(unit: string): Option<string>
  {
    if unit == "minute" then Some("minute")
    else if unit == "days" then Some("day")
    else if unit == "months" then Some("month")
    else None
  }

  /** `formatDuration(duration, unit)` for an integral duration. */
  function FormatDuration(duration: int, unit: string): (s: string)
    ensures UnitWord(unit).None? ==> s == IntToString(duration) + " " + unit
    ensures UnitWord(unit).Some? ==>
      s == IntToString(duration) + " " + UnitWord(unit).value + (if duration > 1 then "s" else "")
  {
    match UnitWord(unit)
    case Some(word) => IntToString(duration) + " " + word + (if duration > 1 then "s" else "")
    case None => IntToString(duration) + " " + unit
  }

  /** For a known unit the label ends in "s" exactly when the duration is more than one. */
  lemma PluralIffMoreThanOne(duration: int, unit: string)
    requires UnitWord(unit).Some?
    ensures var s := FormatDuration(duration, unit);
      s[|s| - 1] == 's' <==> duration > 1
  {
    var word := UnitWord(unit).value;
    assert word[|word| - 1] != 's';
  }

  /** The rendering of an integer never contains a space. */
  lemma IntToStringHasNoSpace(i: int)
    ensures ' ' !in IntToString(i)
  {
    var s := IntToString(i);
    if i >= 0 {
      assert forall k :: 0 <= k < |s| ==> IsDigit(s[k]);
    } else {
      var t := NatToString(-i);
      assert s == "-" + t;
      assert forall k :: 0 <= k < |t| ==> IsDigit(t[k]);
    }
  }

  /** The position of the first space in a string (its length when there is none). */
  function SpaceIndex(x: string): (k: nat)
    ensures k <= |x|
  {
    if x == [] || x[0] == ' ' then 0 else 1 + SpaceIndex(x[1..])
  }

  /** In a space-free word followed by a space, the first space comes right after the word. */
  lemma {:induction false} SpaceIndexAfterWord(a: string, b: string)
    requires ' ' !in a
    ensures SpaceIndex(a + " " + b) == |a|
    decreases |a|
  {
    if a != [] {
      assert (a + " " + b)[1..] == a[1..] + " " + b;
      SpaceIndexAfterWord(a[1..], b);
    }
  }

  /** Two strings that each start with a space-free word followed by a space agree on that word. */
  lemma FirstWordUnique(a: string, b: string, c: string, d: string)
    requires ' ' !in a && ' ' !in c
    requires a + " " + b == c + " " + d
    ensures a == c && b == d
  {
    var x := a + " " + b;
    SpaceIndexAfterWord(a, b);
    SpaceIndexAfterWord(c, d);
    assert a == x[..|a|] && b == x[|a| + 1..];
    assert c == x[..|c|] && d == x[|c| + 1..];
  }

  /** A label names one duration: two durations with the same label, in the same unit, are equal. */
  lemma FormatDurationInjective(d1: int, d2: int, unit: string)
    requires FormatDuration(d1, unit) == FormatDuration(d2, unit)
    ensures d1 == d2
  {
    IntToStringHasNoSpace(d1);
    IntToStringHasNoSpace(d2);
    var rest1 := if UnitWord(unit).Some? then UnitWord(unit).value + (if d1 > 1 then "s" else "") else unit;
    var rest2 := if UnitWord(unit).Some? then UnitWord(unit).value + (if d2 > 1 then "s" else "") else unit;
    assert FormatDuration(d1, unit) == IntToString(d1) + " " + rest1;
    assert FormatDuration(d2, unit) == IntToString(d2) + " " + rest2;
    FirstWordUnique(IntToString(d1), rest1, IntToString(d2), rest2);
    IntToStringInjective(d1, d2);
  }

  // ---------------------------------------------------------------------------
  // data.data.sort((a, b) => a.order - b.order)
  // ---------------------------------------------------------------------------

  predicate SortedByOrder(ps: seq<Plan>)
  {
    forall k, l :: 0 <= k < l < |ps| ==> ps[k].order <= ps[l].order
  }

  /** Sorts the fetched plans in place, ascending by `order`. */
  method SortByOrder(a: array<Plan>)
    modifies a
    ensures SortedByOrder(a[..])
    ensures multiset(a[..]) == multiset(old(a[..]))
  {
    if a.Length == 0 {
      return;
    }
    var i := 1;
    while i < a.Length
      invariant 1 <= i <= a.Length
      invariant SortedByOrder(a[..i])
      invariant multiset(a[..]) == multiset(old(a[..]))
    {
      InsertStep(a, i);
      i := i + 1;
    }
  }

  /** Moves `a[i]` down into the sorted prefix `a[..i]`, so that `a[..i + 1]` is sorted. */
  method InsertStep(a: array<Plan>, i: nat)
    requires i < a.Length && SortedByOrder(a[..i])
    modifies a
    ensures SortedByOrder(a[..i + 1])
    ensures a[i + 1..] == old(a[i + 1..])
    ensures multiset(a[..]) == multiset(old(a[..]))
  {
    var j := i;
    while j > 0 && a[j - 1].order > a[j].order
      invariant 0 <= j <= i
      invariant forall k, l :: 0 <= k < l <= i && k != j && l != j ==> a[k].order <= a[l].order
      invariant forall l :: j < l <= i ==> a[j].order < a[l].order
      invariant a[i + 1..] == old(a[i + 1..])
      invariant multiset(a[..]) == multiset(old(a[..]))
    {
      Swap(a, j - 1, j);
      j := j - 1;
    }
  }

  method Swap(a: array<Plan>, i: nat, j: nat)
    requires i < a.Length && j < a.Length
    modifies a
    ensures a[..] == old(a[..])[i := old(a[j])][j := old(a[i])]
    ensures multiset(a[..]) == multiset(old(a[..]))
  {
    a[i], a[j] := a[j], a[i];
  }

  // ---------------------------------------------------------------------------
  // The subscribe button and handleSubscribe
  // ---------------------------------------------------------------------------

  datatype ButtonView = ButtonView(disabled: bool, caption: string)

  /** Disabled while a payment is being prepared or when already subscribed. */
  function SubscribeButton(loading: bool, hasSubscription: bool): (b: ButtonView)
    ensures b.disabled <==> loading || hasSubscription
    ensures b.caption == "Already Subscribed" <==> hasSubscription && !loading
    ensures b.caption == "Processing..." <==> loading
    ensures !b.disabled <==> b.caption == "Subscribe Now"
  {
    ButtonView(loading || hasSubscription,
               if loading then "Processing..." else if hasSubscription then "Already Subscribed" else "Subscribe Now")
  }

  /** The body of `POST /create-payment-intent`. */
  datatype IntentRequest = IntentRequest(planId: string, email: string)

  /** The payment-intent answer: `data.success`, `data.message` and `data.sessionId`. */
  datatype IntentAnswer = IntentAnswer(success: bool, message: Option<string>, sessionId: string)

  /**
   * How the Stripe step after an accepted intent ended: loading Stripe threw
   * (so no redirect was tried), the redirect to checkout threw, or the redirect
   * returned (Stripe navigates away; a resolved `{ error }` is not inspected).
   */
  datatype StripeStep =
    | LoadThrew(loadMessage: Option<string>)
    | RedirectThrew(redirectMessage: Option<string>)
    | RedirectReturned

  /**
   * What a subscribe click did: the request sent, the checkout session handed
   * to `redirectToCheckout`, the toast shown.
   */
  datatype SubscribeOutcome = SubscribeOutcome(request: Option<IntentRequest>, checkout: Option<string>,
                                               toast: Option<Notice>)

  /**
   * `handleSubscribe(plan)` for the signed-in user's email (None when signed
   * out), given how the payment-intent call and the Stripe step ended;
   * `new Error(data.message)` carries the server's message, and the catch block
   * shows whatever message the thrown error has.
   */
  function SubscribeEffects(userEmail: Option<string>, plan: Plan, intent: IntentCall,
                            stripe: StripeStep): (o: SubscribeOutcome)
    ensures o.request.Some? <==> userEmail.Some?
    ensures o.checkout.Some? ==> o.request.Some?
    ensures o.toast.Some? ==> o.toast.value.kind == "error"
  {
    if userEmail.None? then
      SubscribeOutcome(None, None, Some(Notice("Please login to subscribe", "error")))
    else
      var request := IntentRequest(plan.id, userEmail.value);
      match intent
      case IntentThrew(m) => SubscribeOutcome(Some(request), None, Some(Notice(OrElse(m, "Failed to process payment"), "error")))
      case IntentDone(answer) =>
        if !answer.success then
          SubscribeOutcome(Some(request), None, Some(Notice(OrElse(answer.message, "Failed to process payment"), "error")))
        else
          match stripe
          case LoadThrew(m) => SubscribeOutcome(Some(request), None, Some(Notice(OrElse(m, "Failed to process payment"), "error")))
          case RedirectThrew(m) =>
            SubscribeOutcome(Some(request), Some(answer.sessionId), Some(Notice(OrElse(m, "Failed to process payment"), "error")))
          case RedirectReturned => SubscribeOutcome(Some(request), Some(answer.sessionId), None)
  }

  /**
   * Signed out, nothing is requested and an error is shown; signed in, the
   * request names the plan's `_id` and the user's email. The redirect is tried,
   * with the server's session, exactly when the server accepted the intent and
   * Stripe loaded; no toast is shown exactly when that redirect returned; an
   * error from the Stripe step is shown with its own message.
   */
  lemma SubscribeOutcomes(userEmail: Option<string>, plan: Plan, intent: IntentCall, stripe: StripeStep)
    ensures var o := SubscribeEffects(userEmail, plan, intent, stripe);
      var accepted := userEmail.Some? && intent.IntentDone? && intent.answer.success;
      && (userEmail.None? ==> o.request.None? && o.checkout.None? && o.toast == Some(Notice("Please login to subscribe", "error")))
      && (userEmail.Some? ==> o.request == Some(IntentRequest(plan.id, userEmail.value)))
      && (o.checkout.Some? <==> accepted && !stripe.LoadThrew?)
      && (o.checkout.Some? ==> o.checkout.value == intent.answer.sessionId)
      && (o.toast.None? <==> accepted && stripe.RedirectReturned?)
      && (accepted && stripe.LoadThrew? ==> o.toast == Some(Notice(OrElse(stripe.loadMessage, "Failed to process payment"), "error")))
      && (accepted && stripe.RedirectThrew? ==> o.toast == Some(Notice(OrElse(stripe.redirectMessage, "Failed to process payment"), "error")))
  {
  }

  /**
   * How the awaited payment-intent call ended: with the server's answer, or by
   * throwing; the catch block reads only the error's `message`.
   */
  datatype IntentCall = IntentDone(answer: IntentAnswer) | IntentThrew(message: Option<string>)

  /** The plans page's `loading` flag. */
  class SubscriptionPage {
    var loading: bool

    constructor ()
      ensures !loading
    {
      loading := false;
    }

    /** A signed-out click returns before `loading` is touched; any other ends with it lowered. */
    method HandleSubscribe(userEmail: Option<string>, plan: Plan, intent: IntentCall, stripe: StripeStep)
      returns (o: SubscribeOutcome)
      modifies this
      ensures o == SubscribeEffects(userEmail, plan, intent, stripe)
      ensures loading == (if userEmail.None? then old(loading) else false)
    {
      if userEmail.None? {
        o := SubscribeOutcome(None, None, Some(Notice("Please login to subscribe", "error")));
        return;
      }
      loading := true;
      o := SubscribeEffects(userEmail, plan, intent, stripe);
      loading := false;
    }
  }

  // ---------------------------------------------------------------------------
  // The home page's plan cards
  // ---------------------------------------------------------------------------

  /** A navigation with its history state. */
  datatype Navigation = Navigation(path: string, selectedPlan: Option<Plan>)

  /** "Get Started" opens the plans page, carrying the chosen plan. */
  function GetStarted(plan: Plan): (n: Navigation)
    ensures n.path == "/subscription" && n.selectedPlan == Some(plan)
  {
    Navigation("/subscription", Some(plan))
  }
}

=== FILE: testimonials.dfy ===
/** The home page's testimonials: the avatar fallback initials of a reader's name. */
module Testimonials {
  import opened Common

  /** `parts.map((n) => n[0]).join('')`: an empty part gives `undefined`, which `join` writes as "". */
  function FirstChars(parts: seq<string>): (s: string)
    ensures |s| <= |parts|
  {
    if parts == [] then "" else (if parts[0] == "" then "" else [parts[0][0]]) + FirstChars(parts[1..])
  }

  /** `name.split(' ').map((n) => n[0]).join('')`. */
  function Initials(name: string): (s: string)
    ensures |s| <= |Split(name, ' ')|
  {
    FirstChars(Split(name, ' '))
  }

  /** The initials of parts written one after another are the initials of each, in order. */
  lemma {:induction false} FirstCharsAppend(a: seq<string>, b: seq<string>)
    ensures FirstChars(a + b) == FirstChars(a) + FirstChars(b)
  {
    if a == [] {
      assert a + b == b;
    } else {
      assert (a + b)[1..] == a[1..] + b;
      FirstCharsAppend(a[1..], b);
    }
  }

  /** An empty part, as a double space makes, contributes nothing. */
  lemma EmptyPartContributesNothing(a: seq<string>, b: seq<string>)
    ensures FirstChars(a + [""] + b) == FirstChars(a + b)
  {
    FirstCharsAppend(a + [""], b);
    FirstCharsAppend(a, [""]);
    FirstCharsAppend(a, b);
    assert [""][1..] == [];
  }

  /** Each initial is the first character of one of the non-empty parts, taken in order. */
  lemma {:induction false} InitialsAreFirstChars(parts: seq<string>)
    requires forall i :: 0 <= i < |parts| ==> parts[i] != ""
    ensures |FirstChars(parts)| == |parts|
    ensures forall i :: 0 <= i < |parts| ==> FirstChars(parts)[i] == parts[i][0]
  {
    if parts != [] {
      InitialsAreFirstChars(parts[1..]);
    }
  }

  /** A first and a last name separated by one space give their two first letters. */
  lemma TwoWordInitials(first: string, last: string)
    requires first != "" && last != "" && ' ' !in first && ' ' !in last
    ensures Initials(first + " " + last) == [first[0], last[0]]
  {
    SplitAfterPiece(first, last, ' ');
    SplitNoSeparator(last, ' ');
    assert first + " " + last == first + [' '] + last;
    assert Split(first + " " + last, ' ') == [first, last];
    InitialsAreFirstChars([first, last]);
  }

  /** "Sarah Johnson" is shown as "SJ". */
  lemma SarahJohnson(first: string, last: string)
    requires first == "Sarah" && last == "Johnson"
    ensures Initials(first + " " + last) == "SJ"
  {
    assert forall i :: 0 <= i < |first| ==> first[i] != ' ';
    assert forall i :: 0 <= i < |last| ==> last[i] != ' ';
    TwoWordInitials(first, last);
  }
}

=== FILE: theme.dfy ===
/**
 * The theme provider: the initial theme from storage, the light or dark mode
 * it resolves to, the root element's class list that carries that mode, the
 * persisted choice, and the reaction to a change of the system preference.
 */
module Theme {
  import opened Common

  /** `getSystemTheme()` for the `prefers-color-scheme: dark` media query. */
  function SystemTheme(systemDark: bool): (mode: string)
    ensures mode == "dark" <==> systemDark
    ensures mode == "light" <==> !systemDark
  {
    if systemDark then "dark" else "light"
  }

  /** The stored theme, or `'system'` when none (or an empty one) is stored. */
  function InitialTheme(stored: Option<string>): (theme: string)
    ensures stored.Some? && stored.value != "" ==> theme == stored.value
    ensures stored.None? || stored.value == "" ==> theme == "system"
  {
    OrElse(stored, "system")
  }

  /** The mode a theme shows: the system's for `'system'`, otherwise the theme itself. */
  function Resolve(theme: string, systemDark: bool): (mode: string)
    ensures theme == "system" ==> mode == SystemTheme(systemDark)
    ensures theme != "system" ==> mode == theme
  {
    if theme == "system" then SystemTheme(systemDark) else theme
  }

  predicate IsMode(c: string) {
    c == "light" || c == "dark"
  }

  /** `classList.remove('light', 'dark')`: the other classes, in order. */
  function StripModes(cls: seq<string>): (r: seq<string>)
    ensures |r| <= |cls|
  {
    if cls == [] then []
    else StripModes(cls[..|cls| - 1]) + (if IsMode(cls[|cls| - 1]) then [] else [cls[|cls| - 1]])
  }

  lemma {:induction false} StripModesMembers(cls: seq<string>)
    ensures forall c :: c in StripModes(cls) <==> c in cls && !IsMode(c)
  {
    if cls != [] {
      var init := cls[..|cls| - 1];
      StripModesMembers(init);
      assert cls == init + [cls[|cls| - 1]];
    }
  }

  /** `classList.add(mode)`: appended unless already present. */
  function AddClass(cls: seq<string>, c: string): (r: seq<string>)
    ensures c in r
    ensures forall x :: x in r <==> x in cls || x == c
  {
    if c in cls then cls else cls + [c]
  }

  /** The root classes after applying a mode. */
  function ApplyMode(cls: seq<string>, mode: string): (r: seq<string>)
    ensures mode in r
    ensures |r| <= |cls| + 1
  {
    AddClass(StripModes(cls), mode)
  }

  /**
   * Applying a mode leaves every other class as it was, and afterwards the
   * mode is present and no other light or dark class is.
   */
  lemma ApplyModeClasses(cls: seq<string>, mode: string)
    ensures mode in ApplyMode(cls, mode)
    ensures forall c :: !IsMode(c) && c != mode ==> (c in ApplyMode(cls, mode) <==> c in cls)
    ensures forall c :: IsMode(c) && c in ApplyMode(cls, mode) ==> c == mode
  {
    StripModesMembers(cls);
  }

  /** Applying the same mode twice is applying it once. */
  lemma {:induction false} ApplyModeIdempotent(cls: seq<string>, mode: string)
    requires IsMode(mode)
    ensures ApplyMode(ApplyMode(cls, mode), mode) == ApplyMode(cls, mode)
  {
    var s := StripModes(cls);
    StripModesMembers(cls);
    StripKeepsModeFree(s);
    assert mode !in s;
    assert ApplyMode(cls, mode) == s + [mode];
    StripAppendMode(s, mode);
  }

  /** A list with no light or dark class is left as it is. */
  lemma {:induction false} StripKeepsModeFree(s: seq<string>)
    requires forall c :: c in s ==> !IsMode(c)
    ensures StripModes(s) == s
  {
    if s != [] {
      var init, last := s[..|s| - 1], s[|s| - 1];
      assert !IsMode(last) by {
        assert last in s;
      }
      forall c | c in init
        ensures !IsMode(c)
      {
        var k :| 0 <= k < |init| && init[k] == c;
        assert s[k] == c;
      }
      StripKeepsModeFree(init);
      assert s == init + [last];
    }
  }

  lemma StripAppendMode(s: seq<string>, mode: string)
    requires IsMode(mode)
    requires forall c :: c in s ==> !IsMode(c)
    ensures StripModes(s + [mode]) == s
  {
    assert (s + [mode])[..|s|] == s;
    StripKeepsModeFree(s);
  }

  /** The provider's `theme` and `resolvedTheme`, the root classes, and the stored choice. */
  class ThemeProvider {
    var theme: string
    var resolvedTheme: string
    var rootClasses: seq<string>
    var stored: Option<string>

    /** The initial state: the theme from storage and the mode it resolves to. */
    constructor (storage: Option<string>, classes: seq<string>, systemDark: bool)
      ensures theme == InitialTheme(storage) && resolvedTheme == Resolve(theme, systemDark)
      ensures rootClasses == classes && stored == storage
    {
      theme := InitialTheme(storage);
      resolvedTheme := Resolve(InitialTheme(storage), systemDark);
      rootClasses := classes;
      stored := storage;
    }

    /** `setTheme(newTheme)`. */
    method SetTheme(newTheme: string)
      modifies this
      ensures theme == newTheme
      ensures resolvedTheme == old(resolvedTheme) && rootClasses == old(rootClasses) && stored == old(stored)
    {
      theme := newTheme;
    }

    /** Removes `light` and `dark` from the root classes, one class at a time. */
    method RemoveModes()
      modifies this
      ensures rootClasses == StripModes(old(rootClasses))
      ensures theme == old(theme) && resolvedTheme == old(resolvedTheme) && stored == old(stored)
    {
      var kept: seq<string> := [];
      var i := 0;
      while i < |rootClasses|
        invariant 0 <= i <= |rootClasses|
        invariant kept == StripModes(rootClasses[..i])
      {
        assert rootClasses[..i + 1][..i] == rootClasses[..i];
        if !IsMode(rootClasses[i]) {
          kept := kept + [rootClasses[i]];
        }
        i := i + 1;
      }
      assert rootClasses[..i] == rootClasses;
      rootClasses := kept;
    }

    /** The effect on `[theme]`: show the resolved mode and persist the theme. */
    method ApplyTheme(systemDark: bool)
      modifies this
      ensures resolvedTheme == Resolve(theme, systemDark)
      ensures rootClasses == ApplyMode(old(rootClasses), resolvedTheme)
      ensures stored == Some(theme) && theme == old(theme)
    {
      RemoveModes();
      var mode := Resolve(theme, systemDark);
      rootClasses := AddClass(rootClasses, mode);
      resolvedTheme := mode;
      stored := Some(theme);
    }

    /** The media-query `change` handler: only a `'system'` theme follows the system. */
    method SystemChanged(systemDark: bool)
      modifies this
      ensures theme == old(theme) && stored == old(stored)
      ensures old(theme) == "system" ==>
        resolvedTheme == SystemTheme(systemDark) && rootClasses == ApplyMode(old(rootClasses), resolvedTheme)
      ensures old(theme) != "system" ==> resolvedTheme == old(resolvedTheme) && rootClasses == old(rootClasses)
    {
      if theme == "system" {
        RemoveModes();
        var mode := SystemTheme(systemDark);
        rootClasses := AddClass(rootClasses, mode);
        resolvedTheme := mode;
      }
    }
  }
}

=== FILE: toast.dfy ===
/**
 * The toast provider: the list of toasts on screen, `addToast` appending one
 * with a clock-stamped id, `removeToast` and the expiry timer filtering that
 * id out, and the colour each type is shown in.
 */
module Toasts {
  datatype Toast = Toast(id: int, message: string, kind: string)

  /** The ids on screen, in order. */
  function Ids(ts: seq<Toast>): (ids: seq<int>)
    ensures |ids| == |ts|
    ensures forall i :: 0 <= i < |ts| ==> ids[i] == ts[i].id
  {
    if ts == [] then [] else [ts[0].id] + Ids(ts[1..])
  }

  /** `prev.filter((toast) => toast.id !== id)`. */
  function Without(ts: seq<Toast>, id: int): (r: seq<Toast>)
    ensures |r| <= |ts|
  {
    if ts == [] then [] else (if ts[0].id != id then [ts[0]] else []) + Without(ts[1..], id)
  }

  /** Every toast with the id goes, and every other toast stays. */
  lemma {:induction false} WithoutMembers(ts: seq<Toast>, id: int)
    ensures forall t :: t in Without(ts, id) <==> t in ts && t.id != id
  {
    if ts != [] {
      WithoutMembers(ts[1..], id);
      assert ts == [ts[0]] + ts[1..];
    }
  }

  /** The filter works toast by toast, so the remaining toasts keep their order. */
  lemma {:induction false} WithoutAppend(a: seq<Toast>, b: seq<Toast>, id: int)
    ensures Without(a + b, id) == Without(a, id) + Without(b, id)
  {
    if a == [] {
      assert a + b == b;
    } else {
      assert (a + b)[1..] == a[1..] + b;
      WithoutAppend(a[1..], b, id);
    }
  }

  /** Removing an id that is not on screen changes nothing. */
  lemma {:induction false} WithoutAbsent(ts: seq<Toast>, id: int)
    requires id !in Ids(ts)
    ensures Without(ts, id) == ts
  {
    if ts != [] {
      assert Ids(ts[1..]) == Ids(ts)[1..];
      WithoutAbsent(ts[1..], id);
    }
  }

  /** Removing twice is removing once. */
  lemma WithoutIdempotent(ts: seq<Toast>, id: int)
    ensures Without(Without(ts, id), id) == Without(ts, id)
  {
    WithoutMembers(ts, id);
    var r := Without(ts, id);
    assert forall i :: 0 <= i < |r| ==> r[i].id != id by {
      forall i | 0 <= i < |r| ensures r[i].id != id {
        assert r[i] in r;
      }
    }
    WithoutAbsent(r, id);
  }

  /** The colour a toast is shown in. */
  function Colour(kind: string): (c: string)
    ensures c == "bg-green-500" <==> kind == "success"
    ensures c == "bg-red-500" <==> kind == "error"
    ensures c == "bg-yellow-500" <==> kind != "success" && kind != "error"
  {
    if kind == "success" then "bg-green-500" else if kind == "error" then "bg-red-500" else "bg-yellow-500"
  }

  datatype Icon = CheckIcon | CrossIcon | AlertIcon | NoIcon

  /** The icon: a check for success, a cross for error, an alert for warning, none for any other type. */
  function IconFor(kind: string): (i: Icon)
    ensures i == NoIcon <==> kind != "success" && kind != "error" && kind != "warning"
    ensures i == AlertIcon <==> kind == "warning"
    ensures i == CheckIcon <==> kind == "success"
    ensures i == CrossIcon <==> kind == "error"
  {
    if kind == "success" then CheckIcon else if kind == "error" then CrossIcon
    else if kind == "warning" then AlertIcon else NoIcon
  }

  /** The `toasts` state of the provider. */
  class ToastProvider {
    var toasts: seq<Toast>

    constructor ()
      ensures toasts == []
    {
      toasts := [];
    }

    /** `addToast(message, type = 'success')`, with `now` the `Date.now()` that becomes the id. */
    method AddToast(now: int, message: string, kind: string := "success") returns (id: int)
      modifies this
      ensures id == now
      ensures toasts == old(toasts) + [Toast(now, message, kind)]
    {
      id := now;
      toasts := toasts + [Toast(id, message, kind)];
    }

    /** `removeToast(id)`, the close button. */
    method RemoveToast(id: int)
      modifies this
      ensures toasts == Without(old(toasts), id)
    {
      toasts := Without(toasts, id);
    }

    /** The timer set by `addToast` firing: the same filter for the toast's id. */
    method Expire(id: int)
      modifies this
      ensures toasts == Without(old(toasts), id)
    {
      toasts := Without(toasts, id);
    }
  }

  /**
   * A toast added under a fresh id and then expired, whatever was added and
   * expired in between, leaves no trace; the toasts around it are untouched.
   */
  lemma AddThenExpire(before: seq<Toast>, t: Toast, after: seq<Toast>)
    requires t.id !in Ids(before) && t.id !in Ids(after)
    ensures Without(before + [t] + after, t.id) == before + after
  {
    var id := t.id;
    assert Without(before + [t], id) == before by {
      WithoutAppend(before, [t], id);
      WithoutAbsent(before, id);
      WithoutSingle(t, id);
    }
    assert Without(after, id) == after by {
      WithoutAbsent(after, id);
    }
    WithoutAppend(before + [t], after, id);
  }

  lemma WithoutSingle(t: Toast, id: int)
    ensures Without([t], id) == if t.id == id then [] else [t]
  {
    assert [t][1..] == [];
  }

  /** Two toasts added in the same millisecond share an id, so closing either closes both. */
  lemma SameMillisecondClosesBoth(ts: seq<Toast>, now: int, m1: string, k1: string, m2: string, k2: string)
    requires now !in Ids(ts)
    ensures Without(ts + [Toast(now, m1, k1)] + [Toast(now, m2, k2)], now) == ts
  {
    var a, b := Toast(now, m1, k1), Toast(now, m2, k2);
    assert Without(ts + [a], now) == ts by {
      WithoutAppend(ts, [a], now);
      WithoutAbsent(ts, now);
      WithoutSingle(a, now);
    }
    WithoutSingle(b, now);
    WithoutAppend(ts + [a], [b], now);
  }
}

=== FILE: top_posts.dfy ===
/** The dashboard's list of top posts. */
module TopPosts {
  import opened Common

  /** A post as the list reads it; `averageRating` is a JavaScript number. */
  datatype Post = Post(id: string, title: string, status: string, views: int, averageRating: real)

  /** One rendered entry: the status badge and its colour, and whether the rating is shown. */
  datatype PostEntry = PostEntry(id: string, title: string, badge: string, badgeColour: string, views: int,
                                 showsRating: bool)

  /** Green for approved, yellow for pending, red for any other status. */
  function BadgeColour(status: string): (c: string)
    ensures c == "bg-green-500" <==> status == "approved"
    ensures c == "bg-yellow-500" <==> status == "pending"
    ensures c == "bg-red-500" <==> status != "approved" && status != "pending"
  {
    if status == "approved" then "bg-green-500" else if status == "pending" then "bg-yellow-500" else "bg-red-500"
  }

  function Entry(p: Post): (e: PostEntry)
    ensures e.id == p.id && e.title == p.title && e.badge == p.status && e.views == p.views
    ensures e.badgeColour == BadgeColour(p.status)
    ensures e.showsRating <==> p.averageRating > 0.0
  {
    PostEntry(p.id, p.title, p.status, BadgeColour(p.status), p.views, p.averageRating > 0.0)
  }

  /** `posts.map(...)`, or nothing at all when `posts` is missing or empty. */
  function Render(posts: Option<seq<Post>>): (r: Option<seq<PostEntry>>)
    ensures r.None? <==> posts.None? || |posts.value| == 0
    ensures r.Some? ==> |r.value| == |posts.value|
    ensures r.Some? ==> forall i :: 0 <= i < |r.value| ==> r.value[i] == Entry(posts.value[i])
  {
    if posts.None? || |posts.value| == 0 then None else Some(seq(|posts.value|, i requires 0 <= i < |posts.value| => Entry(posts.value[i])))
  }

  /** The entries are the posts, one each and in order: an entry's id and title name the post at its place. */
  lemma RenderKeepsOrder(posts: seq<Post>, i: nat)
    requires i < |posts|
    ensures Render(Some(posts)).Some?
    ensures Render(Some(posts)).value[i].id == posts[i].id && Render(Some(posts)).value[i].title == posts[i].title
  {
  }
}

=== FILE: user_article_query.dfy ===
/**
 * The status-less listing hook: the same literal as the main listing hook,
 * ten per page, with no `status` filter ever appended.
 */
module UserArticleQuery {
  import opened Common
  import opened Listing

  /** The parameter list the hook's `queryFn` sends; the defaults are the hook's own. */
  function UserArticleQuery(page: int := 1, search: string := "", publisher: Option<SelectOption> := None,
                            tags: seq<SelectOption> := []): (q: seq<Param>)
    ensures |q| >= 2 && q[0] == ("page", IntToString(page)) && q[1] == ("limit", "10")
    ensures "status" !in Keys(q)
  {
    ListingLacksKey(page, "10", search, publisher, tags, "status");
    ListingHead(page, "10", search, publisher, tags);
    ListingParams(page, "10", search, publisher, tags)
  }

  /** With every argument defaulted only the first page of ten is asked for. */
  lemma DefaultUserQuery()
    ensures UserArticleQuery() == [("page", "1"), ("limit", "10")]
  {
  }

  /** `search`, `publisher` and `tags` follow the listing's present-iff rules. */
  lemma UserQueryFilters(page: int, search: string, publisher: Option<SelectOption>, tags: seq<SelectOption>)
    ensures var q := UserArticleQuery(page, search, publisher, tags);
      && ValueOf(q, "search") == (if search != "" then Some(search) else None)
      && ValueOf(q, "publisher") == (if publisher.Some? then Some(publisher.value.value) else None)
      && ValueOf(q, "tags") == (if |tags| > 0 then Some(Join(OptionValues(tags), ',')) else None)
  {
    ListingSearchIff(page, "10", search, publisher, tags);
    ListingPublisherIff(page, "10", search, publisher, tags);
    ListingTagsIff(page, "10", search, publisher, tags);
  }
}
